=== FILE: README.md ===
# AI trading game: signal, risk and ledger core in Dafny

This project models the decision pipeline of the AI trading game. Language models trade simulated crypto portfolios, and some of those trades can be mirrored to a real exchange.

The pipeline has four stages:

- **Signals.** Technical indicators (SMA, EMA, Bollinger bands, RSI, MACD) feed the single-indicator strategies, the candlestick pattern analyser, the multi-timeframe trend-strength analyser and the tiered multi-indicator fusion.
- **Advisor.** The advisor turns a price history into per-coin signals for the prompt and parses the model's reply.
- **Ledger.** The trading engine applies each decision to a paper ledger and optionally hands it to the live executor. The live executor sizes the order against risk limits and talks to the exchange.
- **Dashboard.** The dashboard aggregates portfolios, ranks models, and decides whether a newer release is available.

Every source module becomes one Dafny module:

| Dafny file | module | models |
|---|---|---|
| common.dfy | `Common` | bars, actions, Python `int()` truncation, numpy-style quotient comparisons, sums, tail rows |
| indicators.dfy | `Indicators` | `calculate_sma/ema/boll/rsi/macd` of strategy.py |
| strategies.dfy | `Strategies` | position flag, MA/RSI/MACD/combined strategies, `create_strategy` |
| candlestick.dfy | `Candlestick` | the ten pattern detectors and `analyze_all_patterns` |
| trend.dfy | `TrendStrength` | high/low trend, multi-timeframe vote, price-to-kline conversion |
| fusion.dfy | `Fusion` | the multi-indicator analyser and its two-tier fusion |
| risk.dfy | `Risk` | `RiskManager` and `PositionManager` |
| executor.dfy | `Executor` | `LiveTradeExecutor` |
| engine.dfy | `Engine` | `TradingEngine` decision execution and the live mirror |
| advisor.dfy | `Advisor` | strategy signals for the prompt, base-URL normalisation, reply parsing |
| dashboard.dfy | `Dashboard` | aggregated portfolio and leaderboard |
| versions.dfy | `Versions` | `compare_versions` and the update check |

The model is pure. Every operation is a function over immutable values.

- **Exchange.** It is a record of the answers it gives during one signal. Each answer is either a value or a `Failure` standing for the exception raised. The executor returns the sequence of exchange calls it made, which lets "nothing mutating" be stated.
- **Database.** It is a portfolio snapshot plus the recorded ledger calls.
- **Floats.** They are modelled as exact reals. Python's `int()` is `Common.Trunc`, which truncates toward zero.
- **Division by zero.**
  - numpy division inside a frame yields infinities or NaN and never raises. `Common.QuotGt`/`QuotLt` model the comparisons it feeds.
  - Plain Python division of floats raises. Those cases are a `Result.Failure` (ticker price, entry price, starting capital).
- **NaN** is `None`.

Behaviour of the code worth knowing:

- **RSI with no losses.** `calculate_rsi` divides by a zero average loss. That gives RSI 100 when there were gains and NaN (no signal) when the window is flat.
- **EMA warm-up.** `ewm(adjust=False)` gives a value from the first row on, with no warm-up prefix of missing values.
- **Sell discount.** In the fusion's weighted blend, the 0.85 discount on a sell is applied after buy and sell are compared, and after the threshold of 40 is checked. A sell can therefore come out below 40 (`Fusion.SellDiscountAfterComparison`).
- **Tail rows.** `df.iloc[-k:]` with `k = 0` is the whole frame, while `df.tail(0)` is empty. Both are modelled where they occur (`Common.TailRows`, `Common.LastRows`).

## Model

| member | source | states |
|---|---|---|
| Common.Trunc | trading_engine.py:181 | Python's `int()` on a float: the result is the integer part, so it lies within 1 of the input on the side of zero |
| Common.QuotLtMeaning | candlestick_patterns.py:144 | for a positive divisor, a numpy quotient is below a threshold exactly when the numerator is below the threshold times the divisor |
| Common.TailRows | candlestick_patterns.py:95 | `iloc[-k:]` is the last k rows, or the whole frame for k = 0 or k beyond the length |
| Common.LastRows | trend_strength.py:60 | `tail(k)` is the last k rows in order, all of them when there are fewer, and none for k = 0 |
| Common.SeqMin | candlestick_patterns.py:105 | the minimum is one of the values and no value is below it |
| Indicators.Sma | strategy.py:38-40 | the rolling mean has one cell per price, undefined before a full window |
| Indicators.SlidingSma | strategy.py:38-40 | a running-window sum (add the new price, drop the one leaving) yields exactly the rolling mean of every window |
| Indicators.Ema | strategy.py:43-45 | the `adjust=False` EMA starts at the first price and blends each price with the previous average by alpha = 2/(period+1) |
| Indicators.EmaBounded | strategy.py:43-45 | the EMA never leaves the range spanned by the prices |
| Indicators.IterativeEma | strategy.py:43-45 | the one-pass recurrence computes the same series as the prefix-by-prefix definition |
| Indicators.Macd | strategy.py:82-94 | histogram plus signal line equals the MACD line in every row |
| Indicators.MacdOfFlatSeries | strategy.py:82-94 | a constant price series has MACD, signal and histogram all zero |
| Indicators.BollOrdered | strategy.py:48-68 | where the bands exist, lower <= middle <= upper, and the bands are symmetric about the middle |
| Indicators.BollAt | strategy.py:48-68 | the middle band is the rolling mean; the outer bands exist together, exactly from the first full window of at least two prices, and are symmetric about the middle |
| Indicators.Boll | strategy.py:48-68 | one band row per price, each the row `BollAt` describes |
| Indicators.RsiIsGainShare | strategy.py:71-79 | RSI = 100 - 100/(1+gain/loss) is the gains' share of total movement, in percent, including the zero-loss case |
| Indicators.RsiRange | strategy.py:71-79 | every defined RSI lies in 0..100 |
| Indicators.Rsi | strategy.py:71-79 | one cell per price, undefined before the first full window, always within 0..100 |
| Strategies.UpdatePosition | strategy.py:26-35 | "buy" goes long at the price, "sell" goes short at the price, anything else leaves the flag alone |
| Strategies.ReplayFollowsLastDecisive | strategy.py:26-35 | after any event sequence, the flag is set by the last buy or sell |
| Strategies.ReplayKeepsFlagInRange | strategy.py:26-35 | starting flat, the flag stays in {-1, 0, 1} |
| Strategies.MaCrossSignal | strategy.py:111-127 | buy exactly on a golden cross of the fast over the slow SMA, sell exactly on a death cross, each at 0.8; hold at 0.6 otherwise, and at 0 with too little data |
| Strategies.MaCrossQuietOnFlatSeries | strategy.py:111-127 | a flat price series never crosses, so the MA strategy holds |
| Strategies.RsiRule | strategy.py:152-162 | buy exactly below the oversold threshold and sell exactly above the overbought one, with confidence in (0, 0.9]; hold at 0.5 otherwise, and at 0 on NaN |
| Strategies.RsiThresholdSignal | strategy.py:144-162 | with at least period+1 prices, the RSI rule is applied to the last RSI; otherwise hold at 0 |
| Strategies.MacdCrossSignal | strategy.py:182-201 | buy exactly when MACD crosses above its signal line, sell exactly when it crosses below, at 0.75; hold at 0.6 otherwise, and at 0 with fewer than slow+signal prices |
| Strategies.MajorityVote | strategy.py:220-240 | buy with two or more buy votes; otherwise sell with two or more sell votes; the confidence is the mean of the backers'; hold at 0.5 |
| Strategies.MajorityIsUnique | strategy.py:220-240 | three voters cannot give both a buy and a sell majority, so checking buy first loses nothing |
| Strategies.MajorityVoteIsSymmetric | strategy.py:220-240 | the vote does not depend on the order of the three strategies |
| Strategies.MajorityVoteWithinBackers | strategy.py:220-240 | a decided vote's confidence lies within the range of the voters' confidences |
| Strategies.CombinedSignal | strategy.py:220-240 | hold at 0.5 with fewer than 20 prices; buy exactly when two of the MA, RSI and MACD strategies buy, sell exactly when two sell |
| Strategies.CreateStrategy | strategy.py:243-256 | exactly the four known names yield a strategy |
| Strategies.CreateStrategyRoundTrip | strategy.py:243-256 | each strategy kind is created from its own name, and only from it |
| Strategies.GenerateSignal | strategy.py:111-240 | every strategy holds with fewer than 15 prices, at 0 for the single strategies and at 0.5 for the combined one |
| Strategies.CombinedIsMajorityOfSingles | strategy.py:220-240 | the strategy the factory builds as "combined" buys (sells) exactly when two of the three single strategies it builds buy (sell) |
| Candlestick.BodyRatio | candlestick_patterns.py:68 | the engulfing strength ratio lies in 0..3 and saturates at 3 once the new body is three times the old |
| Candlestick.BullishEngulfing | candlestick_patterns.py:33-77 | detected exactly for a bearish bar followed by a bullish bar that closes above the bearish bar's open, with strength 60..90 |
| Candlestick.BearishEngulfing | candlestick_patterns.py:345-389 | detected exactly for the opposite pair, with strength 50..74 |
| Candlestick.EngulfingFullStrength | candlestick_patterns.py:68-69 | a body three times the engulfed one earns 90 (bullish) and 74 (bearish) |
| Candlestick.EngulfingMirror | candlestick_patterns.py:345-389 | the bearish engulfing pattern is the bullish one on price-reflected bars |
| Candlestick.ClosePosition | candlestick_patterns.py:110 | the close's position in the range is at least (at most) one half exactly when the close is in the upper (lower) half; 0 for an empty range |
| Candlestick.Pinbar | candlestick_patterns.py:79-121 | detected exactly for a lower wick at least `ratio` bodies long, the lowest low of the lookback, and a close in the upper half; strength at least 80, and at most 90 on a well-formed last bar |
| Candlestick.ShootingStar | candlestick_patterns.py:391-433 | detected exactly for the upper-wick shape at the highest high with a close in the lower half; strength 60..70 |
| Candlestick.ShootingStarTests | candlestick_patterns.py:412-423 | the shape holds exactly for a positive body, an upper wick of at least `ratio` bodies, the highest high of the lookback and a close in the lower half |
| Candlestick.PinbarMirror | candlestick_patterns.py:391-433 | on a bar with a proper range, the shooting star is the pinbar on reflected prices |
| Candlestick.LowerLows | candlestick_patterns.py:163-170 | no lower lows exactly when the lows never fall |
| Candlestick.ConsolidationAfterRally | candlestick_patterns.py:123-182 | detected, at 75, exactly for a strong bullish rally bar followed by small bodies, at most one lower low, and a close not below the base |
| Candlestick.ConsolidationRecognisesQuietBase | candlestick_patterns.py:123-182 | a strong rally followed by flat, non-falling bars with a close above the low is recognised |
| Candlestick.CountBelow | candlestick_patterns.py:229-238 | the count is zero exactly when no row pierces its defined average by the factor |
| Candlestick.CountBelowAtMostOne | candlestick_patterns.py:229-238 | a count of at most one means no two rows pierce their average |
| Candlestick.SupportedByMeaning | candlestick_patterns.py:216-250 | support at an average of a positive value means: the close within 3% of it, at most one of the last ten lows below 97% of it, and shrinking bodies; an undefined average never supports |
| Candlestick.SupportAtMa | candlestick_patterns.py:184-256 | detected, at 70, exactly when there are 20 bars, the close is at least 5% below a positive 20-bar high, and the 5, 10 or 20-bar average supports the price; a detection also has recent bodies below 70% of the earlier ones |
| Candlestick.FellFromHighMeaning | candlestick_patterns.py:209-213 | "fell 5% from the high" means the close is at most 95% of some high of the last 20 bars |
| Candlestick.RunEnding | candlestick_patterns.py:281-301 | the count is the length of the same-coloured run ending at the last bar, capped |
| Candlestick.OversoldBounce | candlestick_patterns.py:258-343 | detected exactly for a bullish reversal bar, with a body of at least 40% of its range, after four or more bearish bars; strength at most 90 and, with positive prices, at least 65 |
| Candlestick.OverboughtPullback | candlestick_patterns.py:435-501 | detected exactly for the mirror situation; strength 55..75 with positive prices |
| Candlestick.ExhaustionMirror | candlestick_patterns.py:435-501 | the overbought pullback is the oversold bounce on reflected prices |
| Candlestick.RecentHigh | candlestick_patterns.py:529-537 | the level is the highest high of the last 20 bars and is attained |
| Candlestick.SupportResistance | candlestick_patterns.py:503-561 | near resistance exactly when the close is within 3% below the 20-bar high, near support exactly when within 3% above the 20-bar low |
| Candlestick.NearBothLevelsMeansNarrowRange | candlestick_patterns.py:503-561 | being near both levels at once forces the whole 20-bar range within 6% of the price |
| Candlestick.ClosesBelowMean | candlestick_patterns.py:591-600 | zero exactly when none of the last ten closes is below its defined 20-bar mean |
| Candlestick.TrendHealth | candlestick_patterns.py:563-626 | 50 with fewer than 20 bars; otherwise 90 exactly when none of the last ten closes is below its 5-bar mean, else 70 exactly when at most one is below its 20-bar mean, else 40; healthy exactly unless 40 |
| Candlestick.RisingSeriesIsStrong | candlestick_patterns.py:563-626 | a never-falling close series is healthy at 90 |
| Candlestick.EvidenceNeverEmpty | candlestick_patterns.py:720-728 | the trend-health verdict always adds evidence to one side |
| Candlestick.Decide | candlestick_patterns.py:739-757 | buy exactly when the bullish sum beats 0.7 times the bearish sum and exceeds 70, at the floored bullish mean capped at 90; sell exactly when the discounted bearish sum wins and exceeds 60, at the truncated 0.7-discounted bearish mean capped at 75; hold at 50 |
| Candlestick.BuyConfidenceWithinEvidence | candlestick_patterns.py:745-747 | a buy's confidence, the floor of the mean bullish strength, lies within the strengths' range, capped at 90 |
| Candlestick.DecideMonotone | candlestick_patterns.py:739-757 | more bullish evidence keeps a buy; more bearish evidence keeps a sell and never creates a buy |
| Candlestick.AnalyzeAllPatterns | candlestick_patterns.py:628-768 | holds at 0 when disabled or with fewer than 20 or lookback bars; otherwise decides on the collected strengths |
| TrendStrength.PriceDirection | trend_strength.py:117-148 | rising exactly when at least 70% of the steps go up, falling exactly when at least 70% go down |
| TrendStrength.PriceDirectionOfNegation | trend_strength.py:117-148 | negating the prices swaps rising and falling |
| TrendStrength.Combine | trend_strength.py:70-105 | bullish exactly when a rising side meets no falling side, bearish symmetrically; strength 85 for agreeing directions, 60 when exactly one side is flat, 40 for opposite directions, 30 when both are flat |
| TrendStrength.AnalyzeHighLowTrend | trend_strength.py:31-115 | sideways at 0 with too few bars; a directional trend always has strength at least 60 |
| TrendStrength.HighLowTrendReadsOnlyTail | trend_strength.py:60-68 | only the last `barsCount` bars matter |
| TrendStrength.HighLowTrendMirror | trend_strength.py:31-115 | reflected prices flip the trend and keep its strength |
| TrendStrength.AnalyzeMultiTimeframe | trend_strength.py:150-225 | hold at 0 when disabled or when no period has data; buy exactly when bullish periods of strength 60 or more make up at least 60% of the analysed periods, sell likewise; a decision has confidence min(90, 60 + 10 per agreeing period); 40 when undecided |
| TrendStrength.MultiTimeframeMirror | trend_strength.py:150-225 | reflected data on every timeframe swaps buy and sell |
| TrendStrength.ChunksAt | trend_strength.py:238-253 | the j-th kline is built from prices j*size up to (j+1)*size: open first, close last, low and high the extremes |
| TrendStrength.ChunksCount | trend_strength.py:238-253 | only whole periods become klines; the leftover is shorter than one period |
| TrendStrength.ChunksAppend | trend_strength.py:238-253 | converting whole chunks and the rest separately gives the concatenated klines |
| TrendStrength.ConvertPricesToKlines | trend_strength.py:227-253 | a zero period with prices raises; a negative period gives no klines |
| Fusion.SortedPeriods | indicators_advanced.py:103-107 | the periods of a column family, each once, strictly increasing |
| Fusion.ScanStack | indicators_advanced.py:109-125 | the adjacent-pair scan reports bullish (bearish) exactly when no defined pair contradicts that ordering |
| Fusion.StackRule | indicators_advanced.py:95-150 | buy exactly for a bullish stack with the price above the shortest average, sell for the mirror; hold otherwise |
| Fusion.StackMirror | indicators_advanced.py:95-207 | negating every average and the price swaps buy and sell |
| Fusion.EmaAlignment | indicators_advanced.py:209-308 | buy exactly when both long EMA pairs are bullish (80..95), sell exactly when both are bearish (60..75), hold 40 when mixed, hold 0 without data |
| Fusion.AlignmentSaturates | indicators_advanced.py:209-308 | an average gap of 5% earns the full 95 or 75 |
| Fusion.BollSignal | indicators_advanced.py:310-351 | buy at 80 exactly when the price touches the lower band, sell at 80 exactly when it touches the upper band and not the lower |
| Fusion.BollMirror | indicators_advanced.py:310-351 | reflected bands swap the touches, except a zero-width band touched from both sides |
| Fusion.RsiSignal | indicators_advanced.py:353-384 | buy at 75 exactly below 30, sell at 75 exactly above 70 |
| Fusion.RsiMirror | indicators_advanced.py:353-384 | reading the RSI as 100 - RSI swaps buy and sell |
| Fusion.MacdSignal | indicators_advanced.py:386-425 | buy at 80 exactly on a golden cross, sell at 80 exactly on a death cross; a NaN previous row is no cross |
| Fusion.MacdMirror | indicators_advanced.py:386-425 | negated MACD cells swap buy and sell |
| Fusion.Keep | indicators_advanced.py:466-515 | a surviving signal has positive confidence and came from the input, and every input signal with positive confidence survives |
| Fusion.KeepAppend | indicators_advanced.py:466-515 | filtering is signal by signal, so the survivors keep their order |
| Fusion.KeepCounts | indicators_advanced.py:466-515 | every surviving signal occurs exactly as often as in the input |
| Fusion.TierOne | indicators_advanced.py:465-477 | tier one holds the EMA alignment (first) and, with timeframe data, the trend signal, each only with positive confidence |
| Fusion.TierTwo | indicators_advanced.py:479-487 | tier two is the candlestick verdict when the analyser is configured and its confidence is positive, else empty |
| Fusion.Auxiliary | indicators_advanced.py:489-515 | the auxiliary tier holds exactly the MA, EMA, Bollinger, RSI and MACD signals with positive confidence, at most five |
| Fusion.Fuse | indicators_advanced.py:529-592 | a dominant tier one decides in the direction of its larger average, at min(95, mean + boost) for a buy and min(80, mean + boost) for a sell; otherwise the 0.5/0.3/0.2 blend decides above 40, a buy at the truncated blend, a sell at the truncated 0.85-discounted blend; hold at 50 |
| Fusion.FuseConfidenceRange | indicators_advanced.py:552-592 | with percentage inputs the result is a percentage; dominant buys are capped at 95 and sells at 80 |
| Fusion.TierOneDecidesDirection | indicators_advanced.py:552-571 | once tier one dominates, changing the lower tiers cannot change the direction |
| Fusion.DominantBuyBoost | indicators_advanced.py:553-562 | a dominant buy's confidence is tier one's average plus a boost of at most 8 |
| Fusion.WithoutTierOneAtMostFifty | indicators_advanced.py:574-588 | without tier-one signals, the blend's confidence is at most 50 |
| Fusion.SellDiscountAfterComparison | indicators_advanced.py:580-588 | a blended sell of 42 is discounted to 35 after passing the threshold of 40 |
| Fusion.CombinedSignal | indicators_advanced.py:449-611 | the confidence is a percentage, a sell's at most 85; no usable sub-signal means hold at 0 |
| Fusion.SoleStrongBuyLeads | indicators_advanced.py:552-562 | a lone tier-one buy of 80 or more makes the fusion buy with at least that confidence |
| Fusion.BullishAlignmentLeads | indicators_advanced.py:209-308 | a bullish EMA alignment with no timeframe data makes the fusion buy with at least 80 |
| Risk.PositionSize | live_trade_executor.py:43-86 | zero below the confidence gate; raises exactly for a zero price above it; never negative; a positive size fits the position cap, 95% of the balance and the confidence-scaled budget, and reaches one of them; the size is positive exactly when room is left under the cap and the budget and the balance is positive |
| Risk.PositionSizeMonotone | live_trade_executor.py:43-86 | a more confident signal never gets a smaller order |
| Risk.PositionSizeExample | live_trade_executor.py:43-86 | 10,000 USDT at confidence 80 and price 100 buys 8 units under a 10-unit cap, and 0.1 under the default cap |
| Risk.ShouldClosePosition | live_trade_executor.py:88-114 | raises exactly for a zero entry; stop-loss exactly when the stop level is hit; take-profit only when the stop is not hit |
| Risk.ExitLevels | live_trade_executor.py:88-114 | the fractional thresholds are the price levels entry*(1 -/+ pct) |
| Risk.ShortMirrorsLong | live_trade_executor.py:88-114 | a short is a long reflected about its entry price |
| Risk.StopLossFirst | live_trade_executor.py:106-112 | when both exits are due, the stop-loss wins |
| Risk.UpdatePosition | live_trade_executor.py:123-131 | records the symbol's reported size, side, entry and unrealised profit (missing numbers as 0) and leaves other symbols alone |
| Risk.GetPosition | live_trade_executor.py:133-135 | found exactly for a recorded symbol |
| Risk.HasPositionAfterUpdate | live_trade_executor.py:137-140 | after an update, a symbol is held exactly when positive contracts were reported; other symbols keep their state |
| Executor.OpenLong | live_trade_executor.py:243-292 | a dry run places nothing; an order is placed exactly outside a dry run for a positive size; a low confidence skips |
| Executor.ExecuteBuy | live_trade_executor.py:229-292 | the corrected buy: a dry run issues no mutating call; an open long skips; a buy ends with its order |
| Executor.ExecuteBuyAsWritten | live_trade_executor.py:229-292 | as written: an open long skips; an open short is closed first, in a dry run too, and a failed close fails the buy; otherwise the long is opened |
| Executor.DryRunBuyClosesShort | live_trade_executor.py:238-241 | a dry-run buy with a short open issues a close, a mutating call |
| Executor.BuyPathsAgree | live_trade_executor.py:229-292 | outside a dry run, or without a short, the written and corrected buy paths coincide |
| Executor.ExecuteSell | live_trade_executor.py:294-314 | a sell only closes an open long, never outside a dry run's restraint, and never opens a short |
| Executor.CheckExits | live_trade_executor.py:316-338 | only monitors exactly when the risk rule keeps the position open; the only call it can make is a close |
| Executor.Route | live_trade_executor.py:208-223 | a buy takes the buy path as written (or the corrected one), a sell the sell path, a hold with an open position the exit check, and a hold without one does nothing |
| Executor.RunSignal | live_trade_executor.py:166-227 | an unknown exchange fails with no calls; with the three reads answered, the outcome is the routed one after those reads |
| Executor.ExecuteSignal | live_trade_executor.py:166-227 | as written: an unknown exchange fails with no calls; a non-failed outcome starts with the three reads; in a dry run the history is unchanged and the only mutating call is the close of a short by a buy |
| Executor.ExecuteSignalCorrected | live_trade_executor.py:166-227 | the corrected signal path: in a dry run no call changes the account and the history is unchanged |
| Executor.SignalPathsAgree | live_trade_executor.py:166-227 | outside a dry run, and for anything but a buy, the written and corrected signal paths coincide |
| Executor.DryRunSignalClosesShort | live_trade_executor.py:238-241 | as written, a dry-run buy signal with a short open sends a close to the exchange |
| Executor.DryRunIssuesNoMutation | live_trade_executor.py:166-227 | with the corrected buy path, a dry run issues no mutating call and leaves the history unchanged |
| Executor.SellNeverOrders | live_trade_executor.py:294-314 | a sell signal never places an order |
| Executor.HistoryRecordsOnlyLiveBuys | live_trade_executor.py:265-281 | the trade history grows only by a live buy that was placed |
| Executor.HoldWithoutPositionOnlyReads | live_trade_executor.py:217-223 | a hold with nothing open only reads from the exchange |
| Engine.OpeningTrade | trading_engine.py:215-234 | an opening trade books no result and a fee on the notional |
| Engine.Open | trading_engine.py:206-284 | errors record nothing; an unpriced coin, a missing or non-positive quantity or a zero leverage is an error; with a price, a positive quantity, a non-zero leverage and enough cash the position opens at the requested leverage with its trade and update |
| Engine.OpenSidesNeedSameCash | trading_engine.py:206-284 | a short needs exactly the cash a long needs |
| Engine.FirstPosition | trading_engine.py:288-295 | the first listed position for the coin, if any |
| Engine.ClosingTrade | trading_engine.py:302-320 | a close books the gross result less the exit fee |
| Engine.Close | trading_engine.py:286-330 | closing without a position or a price is an error; with both, the first position for the coin is closed and its trade recorded |
| Engine.RoundTripCostsFees | trading_engine.py:206-330 | opening and closing at the same price loses exactly the two fees |
| Engine.GrossPnlAntisymmetric | trading_engine.py:302-306 | a long and a short of the same size and entry book opposite gross results |
| Engine.ConvertToLiveAction | trading_engine.py:195-204 | buy exactly for entering long; sell exactly for entering short or closing |
| Engine.Dispatch | trading_engine.py:131-143 | buy_to_enter opens a long, sell_to_enter opens a short, close_position closes, hold holds (in any case), anything else is an unknown-signal error; held and failed decisions record nothing |
| Engine.DispatchIgnoresCase | trading_engine.py:131 | lower-casing the signal first never changes the step |
| Engine.LiveConfidenceAsWritten | trading_engine.py:181 | as written, a non-negative confidence becomes its integer part, so any value in [0, 1) becomes 0; a missing one becomes 75 |
| Engine.FractionalConfidenceNeverBuys | trading_engine.py:181 | with that truncation, no live buy can pass a positive confidence gate |
| Engine.LiveConfidence | trading_engine.py:181 | the corrected conversion scales the fraction to a percentage; a missing one is 75 |
| Engine.ScaledConfidenceClearsDefaultGate | trading_engine.py:181 | scaled, a decision at 0.7 or more clears the executor's default 70% gate |
| Engine.LiveTrade | trading_engine.py:161-193 | as written: nothing happens without an executor or with live trading off, not-configured without an exchange id; otherwise the executor runs the converted action at the unscaled `int()` confidence, so a fractional confidence never buys against a positive gate |
| Engine.LiveSignalFor | trading_engine.py:179-183 | as written: the converted action with the confidence through `int()` unscaled |
| Engine.LiveSignalForCorrected | trading_engine.py:179-183 | the converted action with the confidence scaled to a percentage |
| Engine.LiveTradeCorrected | trading_engine.py:161-193 | the corrected mirror uses the scaled confidence and the corrected signal path, so a dry run changes neither the account nor the history |
| Engine.DecisionStep | trading_engine.py:127-151 | the result and ledger calls are the dispatched step; a decision that neither held nor failed is mirrored by `LiveTrade` as written; otherwise nothing goes live and the set-up is kept |
| Engine.Listed | trading_engine.py:127-129 | exactly the decisions for the model's own coins are processed |
| Engine.ExecuteDecisions | trading_engine.py:123-159 | the i-th result is the dispatched step of the i-th decision for a listed coin against the same snapshot; the ledger calls are those steps' calls in order; the executor, the live switch, the exchange id and the symbol are kept; with no executor or live trading off, no result goes live |
| Engine.LastDecisionRereads | live_trade_executor.py:166-203 | a mirrored decision (trading_engine.py line 187) trades against the set-up the earlier decisions left (their live history included) with the exchange's answers at that decision, since every `execute_signal` fetches price, balance and positions again |
| Advisor.NormalizeBaseUrl | ai_trader_enhanced.py:304-309 | the URL always ends in "/v1": cut after the first "/v1", or appended |
| Advisor.NormalizeIdempotent | ai_trader_enhanced.py:304-309 | normalising a normalised URL changes nothing |
| Advisor.NormalizeKeepsPrefix | ai_trader_enhanced.py:307-308 | when "/v1" occurs, the result is a prefix of the stripped URL |
| Advisor.NormalizeBareHost | ai_trader_enhanced.py:304-309 | any URL without "/v1" and without a trailing slash gets "/v1" appended |
| Advisor.NormalizeTrailingSlash | ai_trader_enhanced.py:305 | one more trailing slash never changes the normalised URL |
| Advisor.NormalizeXaiHost | ai_trader_enhanced.py:304-309 | a concrete example: "https://api.x.ai" becomes "https://api.x.ai/v1" |
| Advisor.ParseResponse | ai_trader_enhanced.py:349-364 | a reply without backticks is parsed whole once stripped, giving the parsed decisions or none; a fenced reply is parsed from its extracted block |
| Advisor.JsonBlockExtracted | ai_trader_enhanced.py:353-354 | a reply with one ```json block yields exactly that block's stripped body |
| Advisor.PlainBlockExtracted | ai_trader_enhanced.py:355-356 | a reply with one plain fenced block yields exactly that block's stripped body |
| Advisor.UnfencedReplyParsedWhole | ai_trader_enhanced.py:351-359 | a reply without fences is parsed whole once stripped |
| Advisor.RejectedPayloadMeansNoDecisions | ai_trader_enhanced.py:358-364 | a payload the parser rejects gives no decisions |
| Advisor.FlatBars | ai_trader_enhanced.py:125-132 | every bar's open, high, low and close is the price |
| Advisor.CoinSignal | ai_trader_enhanced.py:121-153 | no signal with fewer than 20 prices or without an analyser; with the fusion analyser, a signal exactly when it succeeds, with its action and the percentage divided by 100; with a single strategy, a signal exactly when it succeeds, at its confidence or 0.5 when it gives none |
| Advisor.StrategySignals | ai_trader_enhanced.py:107-162 | a coin is listed exactly when its own analysis succeeds, which needs at least 20 prices |
| Advisor.MultiIndicatorEntry | ai_trader_enhanced.py:136-143 | a coin whose fusion succeeds is listed with its action and the percentage moved to 0..1 |
| Advisor.FusedSignalsScaled | ai_trader_enhanced.py:136-143 | with the fusion analyser, every listed confidence lies in 0..1 |
| Dashboard.TotalsAdditive | app.py:322-330 | the totals over any split of the models add up |
| Dashboard.Merge | app.py:346-357 | merging adds the quantities and costs, keeps the average price consistent with them, and values the result at the new holding's price |
| Dashboard.WeightedMeanBetween | app.py:352-353 | the merged average price lies between the two averages |
| Dashboard.MergeAll | app.py:332-357 | one entry per coin and side that occurs |
| Dashboard.MergedEntryMatches | app.py:332-356 | with positive quantities, each merged entry's quantity and total cost are the sums over the holdings of its coin and side, and its average price is the quantity-weighted mean (average times quantity is the total cost) |
| Dashboard.MergedPnl | app.py:357 | each merged entry's profit is its merged quantity valued at the price of the last holding of its coin and side, less its total cost, with the sign flipped for shorts in the corrected side-aware variant |
| Dashboard.FirstSeen | app.py:332-359 | each occurring key once, ordered by the position of its first holding |
| Dashboard.AggregatePortfolios | app.py:302-368 | the totals are the sums over existing portfolios; one entry for each occurring key, each once, in order of first appearance across the portfolios |
| Dashboard.CorrectedPnlIsSum | app.py:357 | with one market price per coin, the corrected merged profit is the sum of the holdings' own profits |
| Dashboard.ShortProfitReportedAsLoss | app.py:357 | as written, a short sold at 100 and valued at 90 reports a loss of 10 |
| Dashboard.CorrectedShortProfit | app.py:357 | the corrected formula reports that short's profit of 10 |
| Dashboard.StandingFor | app.py:475-478 | raises exactly for zero starting capital; the account value is the reported one, or the capital when none is reported; the return is (value - capital) / capital * 100 |
| Dashboard.SortByReturns | app.py:488 | the ranking is ordered by return, highest first, and is a permutation of its input |
| Dashboard.Leaderboard | app.py:467-489 | fails exactly when some model has zero capital; otherwise every model's standing, sorted by return |
| Dashboard.LeaderHasBestReturn | app.py:467-489 | every model is listed and the first has the best return |
| Versions.Lex | app.py:609-614 | 0 exactly for equal lists; 1 exactly when the first difference favours the first list, -1 exactly when it favours the second |
| Versions.Components | app.py:594-598 | a version has components exactly when it contains a digit |
| Versions.ComponentsJoin | app.py:594-598 | joining two strings that do not split a digit run concatenates their components |
| Versions.CompareVersions | app.py:586-614 | after zero-padding to equal length, 0 exactly for equal lists, 1 exactly when the first differing component of the first version is larger, -1 for the converse |
| Versions.UpdateAvailable | app.py:553 | an update is available exactly when the padded latest components are larger at their first difference |
| Versions.CompareAntisymmetric | app.py:586-614 | swapping the arguments negates the verdict |
| Versions.CompareTransitive | app.py:586-614 | newer-than is transitive |
| Versions.TrailingZerosIgnored | app.py:603-606 | missing trailing components count as zeros |
| Versions.UpdateIsStrict | app.py:553 | every version compares equal to itself, so it is never an update of itself; of two releases at most one is an update of the other |
| Versions.VersionExamples | app.py:594-598 | separators, a leading 'v' and leading zeros do not count, and components compare as numbers (1.10 > 1.9) |

## Findings

| source | as written | input that shows it | evidently intended | confidence | as-written member | corrected member |
|---|---|---|---|---|---|---|
| trading_engine.py:181 | `int(decision.get('confidence', 75))` truncates the model's 0..1 confidence | confidence 0.8 becomes 0, below the default 70 gate, so no live buy is placed for any fractional confidence | scale the fraction to a percentage before truncating | not executed | Engine.LiveTrade, Engine.LiveConfidenceAsWritten, Engine.FractionalConfidenceNeverBuys | Engine.LiveTradeCorrected, Engine.LiveConfidence, Engine.ScaledConfidenceClearsDefaultGate |
| live_trade_executor.py:238-241 | a buy with a short open closes the short before the dry-run test | dry run, open short of 1 contract, buy at confidence 80: `ClosePosition` is issued | a dry run issues no mutating call | not executed | Executor.ExecuteSignal, Executor.DryRunSignalClosesShort, Executor.ExecuteBuyAsWritten, Executor.DryRunBuyClosesShort | Executor.ExecuteSignalCorrected, Executor.DryRunIssuesNoMutation, Executor.ExecuteBuy |
| app.py:357 | merged profit `(current - avg) * quantity` for every side | one short of 1 BTC sold at 100, now at 90: reported -10 | a short profits from a fall: (avg - current) * quantity | not executed | Dashboard.ShortProfitReportedAsLoss | Dashboard.CorrectedShortProfit, Dashboard.CorrectedPnlIsSum |

## Left out

- I/O: prompts, HTTP calls to the language model, the database, and exchange connectivity are not modelled. The exchange's answers and the JSON parser (`loads`) are parameters.
- Floating point: prices and confidences are exact reals, so rounding in sums, means and quotients is not modelled.
- Printing, logging, timestamps, the `reason` strings and `indicators_detail` are left out. They do not affect any decision.
- Indicator columns: the fusion and the candlestick health check take the indicator cells of the latest rows as inputs. The indicator formulas themselves are modelled in `Indicators`.
- The square root in the Bollinger standard deviation is a parameter `root`. Only its non-negativity is assumed where the band order is proved.
- Engine.Open: the portfolio snapshot is not refreshed between decisions of one cycle. The source rereads it from the database only at the start of the cycle, so this matches.
- Engine.Lower: only ASCII letters are lower-cased.
- Advisor.LStrip: only ASCII whitespace is stripped.
- Versions.LeadingDigits: `\d` is read as ASCII digits.
- Executor.ExecuteSignal: the exchange's answers are fixed during one signal, and a reported position is taken as one record with optional keys.
- Engine.ExecuteDecisions: the exchange's answers for each decision are a parameter (`answersAt`), not derived from the orders placed earlier in the cycle; the model does not promise that an exchange shows the long a previous decision opened, only that each decision reads the exchange afresh.
- Dashboard.MergeAll: entries are keyed by the pair (coin, side). The source's key string `coin_side` could in principle collide for coin names containing `_`.
- Dashboard.Merge: leverage and current price of an entry are those of its first holding, and the profit uses the last holding's price. Both are as the source does it.
- Candlestick.OversoldBounce: the lower strength bound (65, and 55 for Candlestick.OverboughtPullback) is stated only for positive opening prices. With negative prices the accumulated move can be negative and pull the score below its base.
- Dashboard.SortByReturns: the sort is stable, but the model proves only ordering and permutation, not stability.
- Advisor.JsonBlockExtracted: stated for replies whose surrounding text has no backticks. Advisor.PlainBlockExtracted also needs the fenced body and the following text not to start with 'j'.
- Fusion.Keep: its own contract states which signals survive. Their order is proved separately by Fusion.KeepAppend and their multiplicity by Fusion.KeepCounts, which keeps the contract cheap to use at every call site.
- Fusion.TrendSignal: the multi-timeframe frames come as already converted klines. The call into the trend analyser is modelled; the data fetching is not.
- The web routes, templates, migrations, coin library and knowledge modules are not part of this model.

=== FILE: advisor.dfy ===
/**
 * The language-model advisor's pure helpers: normalising the API base URL,
 * cutting the JSON payload out of a fenced reply, and collecting the
 * technical-strategy signals that are put into the prompt.
 */
module Advisor {
  import opened Common
  import Fusion

  /* ---------- Substring search ---------- */

  predicate OccursAt(s: string, pat: string, i: nat)
  {
    i + |pat| <= |s| && s[i..i + |pat|] == pat
  }

  function FindFrom(s: string, pat: string, k: nat): (r: Option<nat>)
    ensures r.Some? ==> k <= r.value && OccursAt(s, pat, r.value)
    ensures r.Some? ==> forall j :: k <= j < r.value ==> !OccursAt(s, pat, j)
    ensures r.None? ==> forall j :: k <= j ==> !OccursAt(s, pat, j)
    decreases |s| - k
  {
    if k + |pat| > |s| then None
    else if s[k..k + |pat|] == pat then Some(k)
    else FindFrom(s, pat, k + 1)
  }

  /** The first position where the pattern occurs. */
  function Find(s: string, pat: string): (r: Option<nat>)
    ensures r.Some? ==> OccursAt(s, pat, r.value) && forall j :: 0 <= j < r.value ==> !OccursAt(s, pat, j)
    ensures r.None? ==> forall j :: 0 <= j ==> !OccursAt(s, pat, j)
  {
    FindFrom(s, pat, 0)
  }

  /** `s.split(pat)[0]`: everything before the first occurrence, or all of `s`. */
  function Before(s: string, pat: string): (r: string)
    ensures Find(s, pat).Some? ==> r == s[..Find(s, pat).value]
    ensures Find(s, pat).None? ==> r == s
  {
    var i := Find(s, pat);
    if i.Some? then s[..i.value] else s
  }

  /** `s.split(pat)[1]`: the text between the first and second occurrence, or to the end. */
  function SecondPiece(s: string, pat: string): string
    requires Find(s, pat).Some?
  {
    var i := Find(s, pat).value;
    Before(s[i + |pat|..], pat)
  }

  predicate NoBacktick(s: string)
  {
    forall i :: 0 <= i < |s| ==> s[i] != '`'
  }

  /* ---------- Base URL ---------- */

  const V1 := "/v1"

  predicate EndsWith(s: string, suffix: string)
  {
    |suffix| <= |s| && s[|s| - |suffix|..] == suffix
  }

  /** `rstrip('/')`. */
  function RStripSlash(s: string): (r: string)
    ensures |r| <= |s| && r == s[..|r|]
    ensures |r| == 0 || r[|r| - 1] != '/'
    ensures forall i :: |r| <= i < |s| ==> s[i] == '/'
  {
    if |s| > 0 && s[|s| - 1] == '/' then RStripSlash(s[..|s| - 1]) else s
  }

  /**
   * The base URL handed to the client: trailing slashes dropped; a URL that
   * does not end in "/v1" is cut just after its first "/v1", or gets "/v1"
   * appended when it has none.
   */
  function NormalizeBaseUrl(url: string): (r: string)
    ensures EndsWith(r, V1)
    ensures var base := RStripSlash(url);
      (EndsWith(base, V1) ==> r == base) &&
      (!EndsWith(base, V1) && Find(base, V1).Some? ==> r == base[..Find(base, V1).value + |V1|]) &&
      (Find(base, V1).None? ==> r == base + V1)
  {
    var base := RStripSlash(url);
    if EndsWith(base, V1) then
      assert OccursAt(base, V1, |base| - |V1|);
      base
    else
      var i := Find(base, V1);
      if i.Some? then
        assert base[i.value..i.value + |V1|] == V1;
        assert base[..i.value + |V1|] == base[..i.value] + V1;
        base[..i.value] + V1
      else base + V1
  }

  /** A normalised URL is left as it is. */
  lemma NormalizeIdempotent(url: string)
    ensures NormalizeBaseUrl(NormalizeBaseUrl(url)) == NormalizeBaseUrl(url)
  {
    var r := NormalizeBaseUrl(url);
    assert r[|r| - 1] == '1';
    assert RStripSlash(r) == r;
  }

  /** When "/v1" occurs anywhere, the result is a prefix of the stripped URL: nothing is invented. */
  lemma NormalizeKeepsPrefix(url: string)
    requires Find(RStripSlash(url), V1).Some?
    ensures var base := RStripSlash(url);
      |NormalizeBaseUrl(url)| <= |base| && NormalizeBaseUrl(url) == base[..|NormalizeBaseUrl(url)|]
  {
  }

  /** A host without "/v1" in it. */
  lemma HostHasNoV1()
    ensures Find("https://api.x.ai", V1).None?
  {
    var u := "https://api.x.ai";
    forall j: nat ensures !OccursAt(u, V1, j) {
      if j + 1 < |u| {
        assert u[j + 1] != 'v';
      }
      Mismatch(u, V1, j, 1);
    }
  }

  /** A host in which "/v1" does not occur, and that does not end in a slash, gets "/v1" appended. */
  lemma NormalizeBareHost(host: string)
    requires Find(host, V1).None?
    requires |host| == 0 || host[|host| - 1] != '/'
    ensures NormalizeBaseUrl(host) == host + V1
  {
    assert RStripSlash(host) == host;
  }

  /** Trailing slashes never matter: one more is dropped before anything else happens. */
  lemma NormalizeTrailingSlash(url: string)
    ensures NormalizeBaseUrl(url + "/") == NormalizeBaseUrl(url)
  {
    assert (url + "/")[..|url + "/"| - 1] == url;
    assert RStripSlash(url + "/") == RStripSlash(url);
  }

  /** The usual host: "https://api.x.ai" becomes "https://api.x.ai/v1". */
  lemma NormalizeXaiHost()
    ensures NormalizeBaseUrl("https://api.x.ai") == "https://api.x.ai/v1"
  {
    HostHasNoV1();
    NormalizeBareHost("https://api.x.ai");
  }

  /* ---------- Reply payload ---------- */

  /** The whitespace `str.strip()` removes, restricted to ASCII. */
  predicate IsSpace(c: char)
  {
    c == ' ' || '\t' <= c <= '\r' || '\U{1c}' <= c <= '\U{1f}'
  }

  function LStrip(s: string): (r: string)
    ensures |r| <= |s| && r == s[|s| - |r|..]
    ensures |r| == 0 || !IsSpace(r[0])
  {
    if |s| > 0 && IsSpace(s[0]) then LStrip(s[1..]) else s
  }

  function RStrip(s: string): (r: string)
    ensures |r| <= |s| && r == s[..|r|]
    ensures |r| == 0 || !IsSpace(r[|r| - 1])
  {
    if |s| > 0 && IsSpace(s[|s| - 1]) then RStrip(s[..|s| - 1]) else s
  }

  function Strip(s: string): string
  {
    RStrip(LStrip(s))
  }

  const Fence := "```"
  const JsonFence := "```json"

  /** The text between the first ```json fence and the next ```, else between the first ``` pair, else all of it. */
  function FencedBody(r: string): string
  {
    if Find(r, JsonFence).Some? then Before(SecondPiece(r, JsonFence), Fence)
    else if Find(r, Fence).Some? then Before(SecondPiece(r, Fence), Fence)
    else r
  }

  /** The text handed to the JSON parser: the fenced body of the stripped reply, stripped again. */
  function ExtractPayload(response: string): string
  {
    Strip(FencedBody(Strip(response)))
  }

  /** The decisions the reply encodes; a parse failure yields no decisions. `loads` stands for the JSON parser. */
  function ParseResponse<V>(response: string, loads: string -> Option<map<string, V>>): (r: map<string, V>)
    ensures loads(ExtractPayload(response)).None? ==> r == map[]
    ensures loads(ExtractPayload(response)).Some? ==> r == loads(ExtractPayload(response)).value
    ensures NoBacktick(response) && loads(Strip(Strip(response))).Some? ==> r == loads(Strip(Strip(response))).value
    ensures NoBacktick(response) && loads(Strip(Strip(response))).None? ==> r == map[]
  {
    if NoBacktick(response) then
      UnfencedReplyParsedWhole(response);
      var parsed := loads(ExtractPayload(response));
      if parsed.Some? then parsed.value else map[]
    else
      var parsed := loads(ExtractPayload(response));
      if parsed.Some? then parsed.value else map[]
  }

  /* ---------- Payload lemmas ---------- */

  /** One mismatching character, or running off the end, rules an occurrence out. */
  lemma Mismatch(s: string, pat: string, j: nat, k: nat)
    requires k < |pat| && (j + k >= |s| || s[j + k] != pat[k])
    ensures !OccursAt(s, pat, j)
  {
    if j + |pat| <= |s| {
      assert s[j..j + |pat|][k] == s[j + k];
    }
  }

  lemma {:induction false} LStripBeforeMark(p: string, t: string)
    requires |t| > 0 && !IsSpace(t[0])
    ensures LStrip(p + t) == LStrip(p) + t
    decreases |p|
  {
    if |p| == 0 {
      assert p + t == t;
    } else if IsSpace(p[0]) {
      assert (p + t)[0] == p[0];
      assert (p + t)[1..] == p[1..] + t;
      LStripBeforeMark(p[1..], t);
    } else {
      assert (p + t)[0] == p[0];
    }
  }

  lemma {:induction false} RStripAfterMark(t: string, s: string)
    requires |t| > 0 && !IsSpace(t[|t| - 1])
    ensures RStrip(t + s) == t + RStrip(s)
    decreases |s|
  {
    if |s| == 0 {
      assert t + s == t;
    } else if IsSpace(s[|s| - 1]) {
      assert (t + s)[|t + s| - 1] == s[|s| - 1];
      assert (t + s)[..|t + s| - 1] == t + s[..|s| - 1];
      RStripAfterMark(t, s[..|s| - 1]);
    } else {
      assert (t + s)[|t + s| - 1] == s[|s| - 1];
    }
  }

  lemma Regroup(a: string, b: string, c: string, d: string, e: string)
    ensures a + (b + c + d) + e == a + b + c + d + e
  {
  }

  /** Stripping stops at the first and last non-blank characters of the marked middle. */
  lemma StripAround(p: string, mid: string, s: string)
    requires |mid| > 0 && !IsSpace(mid[0]) && !IsSpace(mid[|mid| - 1])
    ensures Strip(p + mid + s) == LStrip(p) + mid + RStrip(s)
  {
    Assoc(p, mid, s);
    LStripBeforeMark(p, mid + s);
    Assoc(LStrip(p), mid, s);
    EndsLikeSuffix(LStrip(p), mid);
    RStripAfterMark(LStrip(p) + mid, s);
  }

  lemma Assoc(a: string, b: string, c: string)
    ensures a + b + c == a + (b + c)
  {
  }

  lemma EndsLikeSuffix(a: string, b: string)
    requires |b| > 0
    ensures |a + b| > 0 && (a + b)[|a + b| - 1] == b[|b| - 1]
  {
  }

  lemma NoBacktickSlice(s: string, i: nat, j: nat)
    requires NoBacktick(s) && i <= j <= |s|
    ensures NoBacktick(s[i..j])
  {
    forall k | 0 <= k < j - i ensures s[i..j][k] != '`' {
      assert s[i..j][k] == s[i + k];
    }
  }

  /** Stripping only removes characters. */
  lemma StripKeepsNoBacktick(s: string)
    requires NoBacktick(s)
    ensures NoBacktick(LStrip(s)) && NoBacktick(RStrip(s)) && NoBacktick(Strip(s))
  {
    var l := LStrip(s);
    assert l == s[|s| - |l|..|s|];
    NoBacktickSlice(s, |s| - |l|, |s|);
    NoBacktickSlice(s, 0, |RStrip(s)|);
    NoBacktickSlice(l, 0, |RStrip(l)|);
  }

  /** A pattern that starts with a backtick first occurs where the text's first backtick is. */
  lemma FindAfterPlainText(p: string, t: string, pat: string)
    requires NoBacktick(p) && |pat| > 0 && pat[0] == '`' && |t| >= |pat| && t[..|pat|] == pat
    ensures Find(p + t, pat) == Some(|p|)
  {
    var s := p + t;
    assert s[|p|..|p| + |pat|] == pat;
    assert OccursAt(s, pat, |p|);
    forall j | 0 <= j < |p| ensures !OccursAt(s, pat, j) {
      Mismatch(s, pat, j, 0);
    }
  }

  /** In backtick-free text followed by a closing fence, the fence is the first one, and "```json" can only start there. */
  lemma BeforeClosingFence(body: string, s: string)
    requires NoBacktick(body) && NoBacktick(s)
    ensures Before(body + Fence + s, Fence) == body
    ensures Before(body + Fence + s, JsonFence) == body || Before(body + Fence + s, JsonFence) == body + Fence + s
    ensures Before(body, Fence) == body
  {
    var x := body + Fence + s;
    assert x == body + (Fence + s);
    FindAfterPlainText(body, Fence + s, Fence);
    var c := |body|;
    forall j: nat | j != c ensures !OccursAt(x, JsonFence, j) {
      if j < c {
        Mismatch(x, JsonFence, j, 0);
      } else if j < c + 3 {
        if c + 3 < |x| {
          assert x[c + 3] == s[0];
        }
        Mismatch(x, JsonFence, j, c + 3 - j);
      } else {
        if j < |x| {
          assert x[j] == s[j - c - 3];
        }
        Mismatch(x, JsonFence, j, 0);
      }
    }
    assert x[..c] == body;
    forall j: nat ensures !OccursAt(body, Fence, j) {
      Mismatch(body, Fence, j, 0);
    }
  }

  /** A reply holding one ```json block, with any backtick-free text around it, yields that block. */
  lemma JsonBlockExtracted(p: string, body: string, s: string)
    requires NoBacktick(p) && NoBacktick(body) && NoBacktick(s)
    ensures ExtractPayload(p + JsonFence + body + Fence + s) == Strip(body)
  {
    JsonBlockBody(p, body, s);
  }

  lemma JsonBlockBody(p: string, body: string, s: string)
    requires NoBacktick(p) && NoBacktick(body) && NoBacktick(s)
    ensures FencedBody(Strip(p + JsonFence + body + Fence + s)) == body
  {
    var mid := JsonFence + body + Fence;
    Regroup(p, JsonFence, body, Fence, s);
    StripAround(p, mid, s);
    StripKeepsNoBacktick(p);
    StripKeepsNoBacktick(s);
    Regroup(LStrip(p), JsonFence, body, Fence, RStrip(s));
    JsonFencedBody(LStrip(p), body, RStrip(s));
  }

  lemma JsonFencedBody(q: string, body: string, t: string)
    requires NoBacktick(q) && NoBacktick(body) && NoBacktick(t)
    ensures FencedBody(q + JsonFence + body + Fence + t) == body
  {
    var r := q + JsonFence + body + Fence + t;
    assert r == q + (JsonFence + (body + Fence + t));
    FindAfterPlainText(q, JsonFence + (body + Fence + t), JsonFence);
    assert r[|q| + |JsonFence|..] == body + Fence + t;
    BeforeClosingFence(body, t);
  }

  /** The positions of a plain fenced reply, for the occurrence argument below. */
  lemma PlainLayout(q: string, body: string, t: string)
    requires NoBacktick(q) && NoBacktick(body) && NoBacktick(t)
    requires |body| > 0 && body[0] != 'j' && (|t| == 0 || t[0] != 'j')
    ensures forall j: nat :: !OccursAt(q + Fence + body + Fence + t, JsonFence, j)
  {
    var r := q + Fence + body + Fence + t;
    var a, c := |q|, |q| + 3 + |body|;
    assert r[a + 3] == body[0];
    forall j: nat ensures !OccursAt(r, JsonFence, j) {
      if j < a {
        assert r[j] == q[j];
        Mismatch(r, JsonFence, j, 0);
      } else if j < a + 3 {
        Mismatch(r, JsonFence, j, a + 3 - j);
      } else if j < c {
        assert r[j] == body[j - a - 3];
        Mismatch(r, JsonFence, j, 0);
      } else if j < c + 3 {
        if c + 3 < |r| {
          assert r[c + 3] == t[0];
        }
        Mismatch(r, JsonFence, j, c + 3 - j);
      } else {
        if j < |r| {
          assert r[j] == t[j - c - 3];
        }
        Mismatch(r, JsonFence, j, 0);
      }
    }
  }

  /**
   * A reply holding one plain ``` block, with backtick-free text around it,
   * yields that block, provided no "j" follows either fence (so that no
   * "```json" appears).
   */
  lemma PlainBlockExtracted(p: string, body: string, s: string)
    requires NoBacktick(p) && NoBacktick(body) && NoBacktick(s)
    requires |body| > 0 && body[0] != 'j' && (|s| == 0 || s[0] != 'j')
    ensures ExtractPayload(p + Fence + body + Fence + s) == Strip(body)
  {
    PlainBlockBody(p, body, s);
  }

  lemma PlainBlockBody(p: string, body: string, s: string)
    requires NoBacktick(p) && NoBacktick(body) && NoBacktick(s)
    requires |body| > 0 && body[0] != 'j' && (|s| == 0 || s[0] != 'j')
    ensures FencedBody(Strip(p + Fence + body + Fence + s)) == body
  {
    var mid := Fence + body + Fence;
    Regroup(p, Fence, body, Fence, s);
    StripAround(p, mid, s);
    StripKeepsNoBacktick(p);
    StripKeepsNoBacktick(s);
    Regroup(LStrip(p), Fence, body, Fence, RStrip(s));
    PlainFencedBody(LStrip(p), body, RStrip(s));
  }

  lemma PlainFencedBody(q: string, body: string, t: string)
    requires NoBacktick(q) && NoBacktick(body) && NoBacktick(t)
    requires |body| > 0 && body[0] != 'j' && (|t| == 0 || t[0] != 'j')
    ensures FencedBody(q + Fence + body + Fence + t) == body
  {
    var r := q + Fence + body + Fence + t;
    PlainLayout(q, body, t);
    assert r == q + (Fence + (body + Fence + t));
    FindAfterPlainText(q, Fence + (body + Fence + t), Fence);
    assert r[|q| + |Fence|..] == body + Fence + t;
    BeforeClosingFence(body, t);
  }

  /** A reply without backticks is parsed whole, once stripped. */
  lemma UnfencedReplyParsedWhole(response: string)
    requires NoBacktick(response)
    ensures ExtractPayload(response) == Strip(Strip(response))
  {
    StripKeepsNoBacktick(response);
    UnfencedBody(Strip(response));
  }

  lemma UnfencedBody(r: string)
    requires NoBacktick(r)
    ensures FencedBody(r) == r
  {
    forall j: nat ensures !OccursAt(r, JsonFence, j) && !OccursAt(r, Fence, j) {
      Mismatch(r, JsonFence, j, 0);
      Mismatch(r, Fence, j, 0);
    }
  }

  /** A payload the parser rejects produces no decisions at all. */
  lemma RejectedPayloadMeansNoDecisions<V>(response: string, loads: string -> Option<map<string, V>>)
    requires loads(ExtractPayload(response)).None?
    ensures |ParseResponse(response, loads)| == 0
  {
  }

  /* ---------- Strategy signals for the prompt ---------- */

  /**
   * How a coin is analysed: the multi-indicator fusion (confidence 0..100),
   * a single strategy (optional confidence in 0..1), or nothing. A failure
   * stands for an exception, after which the coin is skipped.
   */
  datatype Analyzer =
    | MultiIndicator(combined: seq<Bar> -> Result<Signal>)
    | SingleStrategy(generate: seq<Bar> -> Result<(Action, Option<real>)>)
    | NoAnalyzer

  datatype PromptSignal = PromptSignal(action: Action, confidence: real)

  const MinHistory := 20

  /** The frame built from a close-price history: every bar's open, high, low and close is the price. */
  function FlatBars(prices: seq<real>): (bars: seq<Bar>)
    ensures |bars| == |prices|
    ensures forall i :: 0 <= i < |prices| ==> bars[i] == Bar(prices[i], prices[i], prices[i], prices[i])
  {
    seq(|prices|, i requires 0 <= i < |prices| => Bar(prices[i], prices[i], prices[i], prices[i]))
  }

  function CoinSignal(prices: seq<real>, an: Analyzer): (r: Option<PromptSignal>)
    ensures |prices| < MinHistory ==> r.None?
    ensures an.NoAnalyzer? ==> r.None?
    ensures |prices| >= MinHistory && an.MultiIndicator? ==>
      var res := an.combined(FlatBars(prices));
      (r.Some? <==> res.Ok?) &&
      (res.Ok? ==> r.value == PromptSignal(res.value.action, res.value.confidence as real / 100.0))
    ensures |prices| >= MinHistory && an.SingleStrategy? ==>
      var res := an.generate(FlatBars(prices));
      (r.Some? <==> res.Ok?) &&
      (res.Ok? ==> r.value.action == res.value.0 &&
                   r.value.confidence == (if res.value.1.Some? then res.value.1.value else 0.5))
  {
    if |prices| < MinHistory then None
    else match an
      case MultiIndicator(combined) =>
        var res := combined(FlatBars(prices));
        if res.Failure? then None
        else Some(PromptSignal(res.value.action, res.value.confidence as real / 100.0))
      case SingleStrategy(generate) =>
        var res := generate(FlatBars(prices));
        if res.Failure? then None
        else Some(PromptSignal(res.value.0, if res.value.1.Some? then res.value.1.value else 0.5))
      case NoAnalyzer => None
  }

  /** The signals per coin: only coins with at least 20 prices whose analysis succeeded. */
  function StrategySignals(history: map<string, seq<real>>, an: Analyzer): (r: map<string, PromptSignal>)
    ensures forall c :: c in r ==> c in history && |history[c]| >= MinHistory
    ensures forall c :: c in history ==> (c in r <==> CoinSignal(history[c], an).Some?)
  {
    map c | c in history && CoinSignal(history[c], an).Some? :: CoinSignal(history[c], an).value
  }

  /**
   * Under the fusion analyser every coin with enough history gets a signal
   * whose confidence is the fused percentage moved to the 0..1 scale.
   */
  lemma FusedSignalsScaled(history: map<string, seq<real>>, cols: Fusion.Columns, fan: Fusion.Analysers,
                           frames: map<string, Option<seq<Bar>>>, c: string)
    requires c in history && |history[c]| >= MinHistory
    ensures var an := MultiIndicator(bars => Ok(Fusion.CombinedSignal(bars, cols, fan, frames)));
      var fused := Fusion.CombinedSignal(FlatBars(history[c]), cols, fan, frames);
      c in StrategySignals(history, an) &&
      StrategySignals(history, an)[c] == PromptSignal(fused.action, fused.confidence as real / 100.0) &&
      0.0 <= StrategySignals(history, an)[c].confidence <= 1.0
  {
    var combined := bars => Ok(Fusion.CombinedSignal(bars, cols, fan, frames));
    var fused := Fusion.CombinedSignal(FlatBars(history[c]), cols, fan, frames);
    assert combined(FlatBars(history[c])) == Ok(fused);
    MultiIndicatorEntry(history, combined, c);
    var scaled := PromptSignal(fused.action, fused.confidence as real / 100.0);
    assert StrategySignals(history, MultiIndicator(combined))[c] == scaled;
    PercentScaled(fused.confidence);
  }

  /** A coin whose fusion analysis succeeds is listed with the percentage moved to 0..1. */
  lemma MultiIndicatorEntry(history: map<string, seq<real>>, combined: seq<Bar> -> Result<Signal>, c: string)
    requires c in history && |history[c]| >= MinHistory
    requires combined(FlatBars(history[c])).Ok?
    ensures var v := combined(FlatBars(history[c])).value;
      c in StrategySignals(history, MultiIndicator(combined)) &&
      StrategySignals(history, MultiIndicator(combined))[c] == PromptSignal(v.action, v.confidence as real / 100.0)
  {
  }

  lemma PercentScaled(p: int)
    requires 0 <= p <= 100
    ensures 0.0 <= p as real / 100.0 <= 1.0
  {
  }
}

=== FILE: candlestick.dfy ===
/**
 * The candlestick pattern analyser of candlestick_patterns.py: five bullish
 * and three bearish detectors over the tail of an OHLC frame, the
 * support/resistance and trend-health checks, and the scoring that turns
 * their strengths into one buy/sell/hold signal with an integer confidence.
 * Only the last bars of the frame matter to every detector.
 */
module Candlestick {
  import opened Common
  import opened Indicators

  /** The analyser's configuration; the defaults are 20 bars, 2.5 and 3 bars. */
  datatype Config = Config(enabled: bool, lookbackBars: nat, pinbarWickRatio: real, consolidationBars: nat)

  const DefaultConfig: Config := Config(true, 20, 2.5, 3)

  /** One detector's answer; an undetected pattern has strength 0. */
  datatype Detection = Detection(detected: bool, strength: int)

  const NotDetected: Detection := Detection(false, 0)

  lemma MirrorTail(bars: seq<Bar>, k: nat)
    ensures TailRows(MirrorAll(bars), k) == MirrorAll(TailRows(bars, k))
  {
  }

  // ------------------------------------------------------------ engulfing

  /** min(curr/prev, 3.0), with 1.0 when the earlier body is empty. */
  function BodyRatio(prev: Bar, curr: Bar): (r: real)
    ensures Body(prev) > 0.0 ==> 0.0 <= r <= 3.0
    ensures Body(prev) > 0.0 && Body(curr) > 0.0 ==> r > 0.0
    ensures Body(prev) > 0.0 && Body(curr) >= 3.0 * Body(prev) ==> r == 3.0
  {
    if Body(prev) > 0.0 then
      var q := Body(curr) / Body(prev);
      DivCompare(Body(curr), Body(prev), 3.0);
      assert Body(curr) > 0.0 ==> q > 0.0;
      MinR(q, 3.0)
    else 1.0
  }

  /** A bearish bar followed by a bullish bar that closes above the bearish bar's open. */
  function BullishEngulfing(bars: seq<Bar>): (d: Detection)
    ensures d.detected <==>
      |bars| >= 2 && IsBearish(bars[|bars| - 2]) && IsBullish(bars[|bars| - 1]) &&
      bars[|bars| - 1].close > bars[|bars| - 2].open
    ensures !d.detected ==> d == NotDetected
    ensures d.detected ==> 60 <= d.strength <= 90
  {
    var n := |bars|;
    if n < 2 then NotDetected
    else
      var prev := bars[n - 2];
      var last := bars[n - 1];
      if !IsBearish(prev) || !IsBullish(last) || !(last.close > prev.open) then NotDetected
      else Detection(true, MinI(90, Trunc(60.0 + BodyRatio(prev, last) * 10.0)))
  }

  /** A bullish bar followed by a bearish bar that closes below the bullish bar's open. */
  function BearishEngulfing(bars: seq<Bar>): (d: Detection)
    ensures d.detected <==>
      |bars| >= 2 && IsBullish(bars[|bars| - 2]) && IsBearish(bars[|bars| - 1]) &&
      bars[|bars| - 1].close < bars[|bars| - 2].open
    ensures !d.detected ==> d == NotDetected
    ensures d.detected ==> 50 <= d.strength <= 74
  {
    var n := |bars|;
    if n < 2 then NotDetected
    else
      var prev := bars[n - 2];
      var last := bars[n - 1];
      if !IsBullish(prev) || !IsBearish(last) || !(last.close < prev.open) then NotDetected
      else Detection(true, MinI(75, Trunc(50.0 + BodyRatio(prev, last) * 8.0)))
  }

  /** An engulfing body three times the engulfed one earns the full strength of each side. */
  lemma EngulfingFullStrength(bars: seq<Bar>)
    requires |bars| >= 2 && Body(bars[|bars| - 1]) >= 3.0 * Body(bars[|bars| - 2])
    ensures BullishEngulfing(bars).detected ==> BullishEngulfing(bars).strength == 90
    ensures BearishEngulfing(bars).detected ==> BearishEngulfing(bars).strength == 74
  {
  }

  /** The bearish engulfing pattern is the bullish one seen upside down. */
  lemma EngulfingMirror(bars: seq<Bar>)
    ensures BearishEngulfing(bars).detected == BullishEngulfing(MirrorAll(bars)).detected
  {
  }

  // ------------------------------------------------- pinbar, shooting star

  /** Where the close sits in the bar's range, 0 at the low and 1 at the high; 0 for an empty range. */
  function ClosePosition(b: Bar): (p: real)
    ensures b.high > b.low ==> (p >= 0.5 <==> b.close - b.low >= 0.5 * (b.high - b.low))
    ensures b.high > b.low ==> (p <= 0.5 <==> b.close - b.low <= 0.5 * (b.high - b.low))
    ensures b.high > b.low && b.low <= b.close <= b.high ==> 0.0 <= p <= 1.0
    ensures b.high <= b.low ==> p == 0.0
  {
    var range := b.high - b.low;
    if range > 0.0 then
      DivCompare(b.close - b.low, range, 0.5);
      DivCompare(b.close - b.low, range, 1.0);
      DivCompare(b.close - b.low, range, 0.0);
      (b.close - b.low) / range
    else 0.0
  }

  function LowerWick(b: Bar): real { MinR(b.open, b.close) - b.low }
  function UpperWick(b: Bar): real { b.high - MaxR(b.open, b.close) }

  /** Both wick detectors need at least max(3, lookback) bars. */
  predicate LongEnough(cfg: Config, bars: seq<Bar>)
  {
    |bars| >= 3 && |bars| >= cfg.lookbackBars
  }

  /**
   * The pinbar's shape: a positive body, a lower wick at least `pinbarWickRatio`
   * bodies long, the lowest low of the lookback window, and a close in the
   * upper half of a proper range.
   */
  predicate PinbarShape(cfg: Config, bars: seq<Bar>)
  {
    LongEnough(cfg, bars) && LowerWickBar(bars[|bars| - 1], cfg.pinbarWickRatio) &&
    LowestOfTail(bars, cfg.lookbackBars)
  }

  /** The shooting star's shape: the pinbar's with the upper wick, the highest high and the lower half. */
  predicate ShootingStarShape(cfg: Config, bars: seq<Bar>)
  {
    LongEnough(cfg, bars) && UpperWickBar(bars[|bars| - 1], cfg.pinbarWickRatio) &&
    HighestOfTail(bars, cfg.lookbackBars)
  }

  /** A positive body, a lower wick at least `ratio` bodies long and a close in the upper half of a proper range. */
  predicate LowerWickBar(b: Bar, ratio: real)
  {
    Body(b) > 0.0 && LowerWick(b) >= ratio * Body(b) &&
    b.high > b.low && b.close - b.low >= 0.5 * (b.high - b.low)
  }

  /** A positive body, an upper wick at least `ratio` bodies long and a close in the lower half of the range. */
  predicate UpperWickBar(b: Bar, ratio: real)
  {
    Body(b) > 0.0 && UpperWick(b) >= ratio * Body(b) &&
    (b.high > b.low ==> b.close - b.low <= 0.5 * (b.high - b.low))
  }

  /** The last bar's low is the lowest of the last `k` rows. */
  predicate LowestOfTail(bars: seq<Bar>, k: nat)
    requires |bars| > 0
  {
    forall i :: 0 <= i < |TailRows(bars, k)| ==> bars[|bars| - 1].low <= TailRows(bars, k)[i].low
  }

  /** The last bar's high is the highest of the last `k` rows. */
  predicate HighestOfTail(bars: seq<Bar>, k: nat)
    requires |bars| > 0
  {
    forall i :: 0 <= i < |TailRows(bars, k)| ==> TailRows(bars, k)[i].high <= bars[|bars| - 1].high
  }

  /**
   * A long lower wick (at least `pinbarWickRatio` bodies) on a bar that sets
   * the lowest low of the lookback window and closes in the upper half of
   * its range.
   */
  function Pinbar(cfg: Config, bars: seq<Bar>): (d: Detection)
    ensures d.detected <==> PinbarShape(cfg, bars)
    ensures !d.detected ==> d == NotDetected
    ensures d.detected ==> 80 <= d.strength
    ensures d.detected && WellFormed(bars[|bars| - 1]) ==> d.strength <= 90
  {
    if !LongEnough(cfg, bars) then NotDetected
    else
      var last := bars[|bars| - 1];
      var recent := TailRows(bars, cfg.lookbackBars);
      var body := Body(last);
      if body <= 0.0 then NotDetected
      else
        DivCompare(LowerWick(last), body, cfg.pinbarWickRatio);
        if LowerWick(last) / body < cfg.pinbarWickRatio then NotDetected
        else if last.low <= SeqMin(Lows(recent)) then
          var pos := ClosePosition(last);
            if pos >= 0.5 then Detection(true, Trunc(70.0 + pos * 20.0))
          else NotDetected
        else NotDetected
  }

  /**
   * The bearish mirror of the pinbar: a long upper wick on a bar that sets
   * the highest high of the lookback window and closes in the lower half of
   * its range (an empty range counts as closing at its low).
   */
  function ShootingStar(cfg: Config, bars: seq<Bar>): (d: Detection)
    ensures d.detected <==> ShootingStarShape(cfg, bars)
    ensures !d.detected ==> d == NotDetected
    ensures d.detected ==> 60 <= d.strength <= 70
  {
    if !LongEnough(cfg, bars) then NotDetected
    else
      var last := bars[|bars| - 1];
      var recent := TailRows(bars, cfg.lookbackBars);
      var body := Body(last);
      ShootingStarTests(cfg, bars);
      if body <= 0.0 then NotDetected
      else if UpperWick(last) / body < cfg.pinbarWickRatio then NotDetected
      else if last.high >= SeqMax(Highs(recent)) then
        var pos := ClosePosition(last);
          if pos <= 0.5 then
            StarStrength(pos);
            Detection(true, MinI(Trunc(60.0 + (0.5 - pos) * 20.0), 70))
        else NotDetected
      else NotDetected
  }

  /** The shooting star's shape, read as the tests the detector makes in turn. */
  lemma ShootingStarTests(cfg: Config, bars: seq<Bar>)
    requires LongEnough(cfg, bars)
    ensures var last := bars[|bars| - 1];
      ShootingStarShape(cfg, bars) <==>
        Body(last) > 0.0 && UpperWick(last) / Body(last) >= cfg.pinbarWickRatio &&
        last.high >= SeqMax(Highs(TailRows(bars, cfg.lookbackBars))) && ClosePosition(last) <= 0.5
  {
    var last := bars[|bars| - 1];
    HighestOfTailMeaning(bars, cfg.lookbackBars);
    if Body(last) > 0.0 {
      DivCompare(UpperWick(last), Body(last), cfg.pinbarWickRatio);
    }
  }

  lemma StarStrength(pos: real)
    requires pos <= 0.5
    ensures 60 <= MinI(Trunc(60.0 + (0.5 - pos) * 20.0), 70) <= 70
  {
    MulNonNeg(0.5 - pos, 20.0);
    TruncOfInt(60);
    TruncMonotone(60.0, 60.0 + (0.5 - pos) * 20.0);
  }

  lemma HighestOfTailMeaning(bars: seq<Bar>, k: nat)
    requires |bars| > 0
    ensures HighestOfTail(bars, k) <==> bars[|bars| - 1].high >= SeqMax(Highs(TailRows(bars, k)))
  {
    var recent := TailRows(bars, k);
    assert recent[|recent| - 1] == bars[|bars| - 1];
  }

  /** On a bar with a proper range, the shooting star is the pinbar seen upside down. */
  lemma PinbarMirror(cfg: Config, bars: seq<Bar>)
    requires |bars| > 0 && bars[|bars| - 1].high > bars[|bars| - 1].low
    ensures ShootingStar(cfg, MirrorAll(bars)).detected == Pinbar(cfg, bars).detected
  {
    ShapeMirror(cfg, bars);
  }

  lemma ShapeMirror(cfg: Config, bars: seq<Bar>)
    requires |bars| > 0 && bars[|bars| - 1].high > bars[|bars| - 1].low
    ensures ShootingStarShape(cfg, MirrorAll(bars)) == PinbarShape(cfg, bars)
  {
    var n := |bars|;
    var m := MirrorAll(bars);
    assert m[n - 1] == Mirror(bars[n - 1]);
    WickBarMirror(bars[n - 1], cfg.pinbarWickRatio);
    TailExtremeMirror(bars, cfg.lookbackBars);
  }

  lemma WickBarMirror(b: Bar, ratio: real)
    requires b.high > b.low
    ensures UpperWickBar(Mirror(b), ratio) == LowerWickBar(b, ratio)
  {
    assert UpperWick(Mirror(b)) == LowerWick(b);
  }

  lemma TailExtremeMirror(bars: seq<Bar>, k: nat)
    requires |bars| > 0
    ensures HighestOfTail(MirrorAll(bars), k) == LowestOfTail(bars, k)
  {
    MirrorTail(bars, k);
  }

  // ------------------------------------------------ consolidation after rally

  /** How many bars set a lower low than the bar before them. */
  function LowerLows(lows: seq<real>): (c: nat)
    ensures c <= |lows|
    ensures c == 0 <==> forall i :: 1 <= i < |lows| ==> lows[i] >= lows[i - 1]
  {
    if |lows| < 2 then 0
    else
      var init := lows[..|lows| - 1];
      var c := LowerLows(init);
      assert forall i :: 0 <= i < |init| ==> init[i] == lows[i];
      c + (if lows[|lows| - 1] < lows[|lows| - 2] then 1 else 0)
  }

  /** A bullish bar whose body fills at least 80% of its range (numpy division: an empty range passes). */
  predicate StrongRally(rally: Bar)
  {
    var body := rally.close - rally.open;
    body > 0.0 && !QuotLt(body, rally.high - rally.low, 0.8)
  }

  lemma StrongRallyMeaning(rally: Bar)
    ensures StrongRally(rally) <==>
      rally.close - rally.open > 0.0 && rally.high - rally.low >= 0.0 &&
      rally.close - rally.open >= 0.8 * (rally.high - rally.low)
  {
    QuotLtMeaning(rally.close - rally.open, rally.high - rally.low, 0.8);
    var range := rally.high - rally.low;
    if range < 0.0 && rally.close - rally.open > 0.0 {
      assert (rally.close - rally.open) / range < 0.0;
    }
  }

  /**
   * Small bars after the rally: mean body at most 30% of the rally body, at
   * most one lower low, and the last close not below their lowest low.
   */
  predicate QuietBase(base: seq<Bar>, rallyBody: real, lastClose: real)
  {
    |base| > 0 &&
    Mean(Bodies(base)) <= rallyBody * 0.3 &&
    LowerLows(Lows(base)) <= 1 &&
    lastClose >= SeqMin(Lows(base))
  }

  lemma QuietBaseMeaning(base: seq<Bar>, rallyBody: real, lastClose: real)
    requires |base| > 0
    ensures QuietBase(base, rallyBody, lastClose) <==>
      Mean(Bodies(base)) <= rallyBody * 0.3 &&
      LowerLows(Lows(base)) <= 1 &&
      exists i :: 0 <= i < |base| && base[i].low <= lastClose
  {
    var m := SeqMin(Lows(base));
    if lastClose >= m {
      var j :| 0 <= j < |base| && m == Lows(base)[j];
      assert base[j].low <= lastClose;
    }
  }

  /**
   * A strong rally bar followed by `consolidationBars` quiet bars. With
   * `consolidationBars` 0 the rally bar is the last bar and the quiet bars
   * are the whole frame, as `iloc[-0:]` makes them.
   */
  function ConsolidationAfterRally(cfg: Config, bars: seq<Bar>): (d: Detection)
    ensures d.detected ==> d.strength == 75
    ensures !d.detected ==> d == NotDetected
    ensures d.detected <==>
      |bars| >= cfg.consolidationBars + 1 &&
      StrongRally(bars[|bars| - (cfg.consolidationBars + 1)]) &&
      QuietBase(TailRows(bars, cfg.consolidationBars),
        bars[|bars| - (cfg.consolidationBars + 1)].close - bars[|bars| - (cfg.consolidationBars + 1)].open,
        bars[|bars| - 1].close)
  {
    var k := cfg.consolidationBars;
    var n := |bars|;
    if n < k + 1 then NotDetected
    else
      var rally := bars[n - (k + 1)];
      if !StrongRally(rally) then NotDetected
      else if QuietBase(TailRows(bars, k), rally.close - rally.open, bars[n - 1].close) then Detection(true, 75)
      else NotDetected
  }

  lemma FlatBodiesMean(bars: seq<Bar>)
    requires |bars| > 0 && forall i :: 0 <= i < |bars| ==> bars[i].open == bars[i].close
    ensures Mean(Bodies(bars)) == 0.0
  {
    SumBounds(Bodies(bars), 0.0, 0.0);
  }

  /**
   * The converse direction: a full-bodied rally bar followed by dojis whose
   * lows never fall and which close at or above their low is recognised.
   */
  lemma ConsolidationRecognisesQuietBase(cfg: Config, bars: seq<Bar>)
    requires cfg.consolidationBars >= 1 && |bars| >= cfg.consolidationBars + 1
    requires var rally := bars[|bars| - (cfg.consolidationBars + 1)];
      rally.open == rally.low && rally.close == rally.high && rally.high > rally.low
    requires forall i :: |bars| - cfg.consolidationBars <= i < |bars| ==> bars[i].open == bars[i].close
    requires forall i :: |bars| - cfg.consolidationBars < i < |bars| ==> bars[i - 1].low <= bars[i].low
    requires bars[|bars| - 1].low <= bars[|bars| - 1].close
    ensures ConsolidationAfterRally(cfg, bars).detected
  {
    var k := cfg.consolidationBars;
    var n := |bars|;
    var rally := bars[n - (k + 1)];
    StrongRallyMeaning(rally);
    var base := TailRows(bars, k);
    assert base == bars[n - k..];
    FlatBodiesMean(base);
    assert LowerLows(Lows(base)) == 0 by {
      forall i | 1 <= i < |base|
        ensures Lows(base)[i] >= Lows(base)[i - 1]
      {
        assert base[i] == bars[n - k + i];
      }
    }
    assert base[|base| - 1] == bars[n - 1];
    QuietBaseMeaning(base, rally.close - rally.open, bars[n - 1].close);
  }

  // ----------------------------------------------- support at a moving average

  /** How many rows have a defined average that `xs[i]` falls below by the given factor. */
  function CountBelow(xs: seq<real>, ms: seq<Option<real>>, factor: real): (c: nat)
    requires |xs| == |ms|
    ensures c <= |xs|
    ensures c == 0 <==> forall i :: 0 <= i < |xs| ==> !(ms[i].Some? && xs[i] < ms[i].value * factor)
  {
    if |xs| == 0 then 0
    else
      var c := CountBelow(xs[..|xs| - 1], ms[..|ms| - 1], factor);
      assert forall i :: 0 <= i < |xs| - 1 ==> xs[..|xs| - 1][i] == xs[i] && ms[..|ms| - 1][i] == ms[i];
      var last := ms[|ms| - 1];
      c + (if last.Some? && xs[|xs| - 1] < last.value * factor then 1 else 0)
  }

  /** Row `i` has a defined average that `xs[i]` falls below by the factor. */
  predicate Pierces(xs: seq<real>, ms: seq<Option<real>>, factor: real, i: int)
  {
    0 <= i < |xs| && i < |ms| && ms[i].Some? && xs[i] < ms[i].value * factor
  }

  /** No two rows from `start` on pierce their average. */
  predicate AtMostOnePierce(xs: seq<real>, ms: seq<Option<real>>, factor: real, start: int)
  {
    forall i, j :: start <= i < j < |xs| ==> !(Pierces(xs, ms, factor, i) && Pierces(xs, ms, factor, j))
  }

  /** A count of at most one means no two rows pierce. */
  lemma {:induction false} CountBelowAtMostOne(xs: seq<real>, ms: seq<Option<real>>, factor: real)
    requires |xs| == |ms|
    ensures CountBelow(xs, ms, factor) <= 1 <==> AtMostOnePierce(xs, ms, factor, 0)
  {
    if |xs| > 0 {
      var n := |xs| - 1;
      var xs', ms' := xs[..n], ms[..n];
      CountBelowAtMostOne(xs', ms', factor);
      assert forall i :: 0 <= i < n ==> (Pierces(xs', ms', factor, i) <==> Pierces(xs, ms, factor, i));
      if Pierces(xs, ms, factor, n) {
        if CountBelow(xs, ms, factor) <= 1 {
          assert CountBelow(xs', ms', factor) == 0;
          assert forall i :: 0 <= i < n ==> !Pierces(xs', ms', factor, i);
        } else {
          assert CountBelow(xs', ms', factor) != 0;
          var i :| 0 <= i < n && ms'[i].Some? && xs'[i] < ms'[i].value * factor;
          assert Pierces(xs, ms, factor, i);
        }
      } else {
        assert CountBelow(xs, ms, factor) == CountBelow(xs', ms', factor);
      }
    }
  }

  /** The at-most-one reading of a count over the rows from `start` on. */
  lemma CountBelowSuffixAtMostOne(xs: seq<real>, ms: seq<Option<real>>, factor: real, start: nat)
    requires |xs| == |ms| && start <= |xs|
    ensures CountBelow(xs[start..], ms[start..], factor) <= 1 <==> AtMostOnePierce(xs, ms, factor, start)
  {
    var a, b := xs[start..], ms[start..];
    CountBelowAtMostOne(a, b, factor);
    assert forall i :: start <= i < |xs| ==> (Pierces(a, b, factor, i - start) <==> Pierces(xs, ms, factor, i));
    if AtMostOnePierce(a, b, factor, 0) {
      forall i, j | start <= i < j < |xs|
        ensures !(Pierces(xs, ms, factor, i) && Pierces(xs, ms, factor, j))
      {
        assert !(Pierces(a, b, factor, i - start) && Pierces(a, b, factor, j - start));
      }
    } else {
      var i, j :| 0 <= i < j < |a| && Pierces(a, b, factor, i) && Pierces(a, b, factor, j);
      assert Pierces(xs, ms, factor, i + start) && Pierces(xs, ms, factor, j + start);
    }
  }

  /**
   * One moving average of the support check: the close lies within 3% of
   * the average (a zero average counts as a NaN deviation, which passes),
   * the last ten lows pierce the average by more than 3% at most once, and
   * the last ten bodies average under 70% of the ten before them.
   */
  predicate SupportedBy(bars: seq<Bar>, period: nat)
    requires |bars| >= 20 && 1 <= period <= 20
  {
    var n := |bars|;
    var mas := Sma(Closes(bars), period);
    var price := bars[n - 1].close;
    mas[n - 1].Some? &&
    !QuotGt(Abs(price - mas[n - 1].value), mas[n - 1].value, 0.03) &&
    CountBelow(Lows(bars)[n - 10..], mas[n - 10..], 0.97) <= 1 &&
    ShrinkingBodies(bars)
  }

  /** The last ten bodies average under 70% of the ten before them. */
  predicate ShrinkingBodies(bars: seq<Bar>)
    requires |bars| >= 20
  {
    var n := |bars|;
    Mean(Bodies(bars)[n - 10..]) < Mean(Bodies(bars)[n - 20..n - 10]) * 0.7
  }

  /** Fell at least 5% from the 20-bar high (a non-positive high counts as no fall). */
  predicate FellFromHigh(bars: seq<Bar>)
    requires |bars| >= 20
  {
    var high := SeqMax(Highs(bars[|bars| - 20..]));
    var price := bars[|bars| - 1].close;
    (if high > 0.0 then (high - price) / high else 0.0) >= 0.05
  }

  /** Price fell at least 5% from its 20-bar high and then steadied on the 5-, 10- or 20-bar mean. */
  function SupportAtMa(bars: seq<Bar>): (d: Detection)
    ensures !d.detected ==> d == NotDetected
    ensures d.detected ==> d.strength == 70
    ensures d.detected <==>
      |bars| >= 20 &&
      (exists i :: |bars| - 20 <= i < |bars| && bars[i].high > 0.0 && bars[|bars| - 1].close <= 0.95 * bars[i].high) &&
      (SupportedBy(bars, 5) || SupportedBy(bars, 10) || SupportedBy(bars, 20))
    ensures d.detected ==>
      |bars| >= 20 &&
      (exists i :: |bars| - 20 <= i < |bars| && bars[|bars| - 1].close <= 0.95 * bars[i].high) &&
      Mean(Bodies(bars)[|bars| - 10..]) < Mean(Bodies(bars)[|bars| - 20..|bars| - 10]) * 0.7
  {
    if |bars| < 20 then NotDetected
    else if !FellFromHigh(bars) then FellFromHighMeaning(bars); NotDetected
    else if SupportedBy(bars, 5) || SupportedBy(bars, 10) || SupportedBy(bars, 20) then
      FellFromHighMeaning(bars);
      Detection(true, 70)
    else NotDetected
  }

  lemma FellFromHighMeaning(bars: seq<Bar>)
    requires |bars| >= 20
    ensures FellFromHigh(bars) <==>
      exists i :: |bars| - 20 <= i < |bars| && bars[i].high > 0.0 && bars[|bars| - 1].close <= 0.95 * bars[i].high
  {
    var window := bars[|bars| - 20..];
    var high := SeqMax(Highs(window));
    var price := bars[|bars| - 1].close;
    var j :| 0 <= j < |window| && high == Highs(window)[j];
    assert window[j] == bars[|bars| - 20 + j];
    if high > 0.0 {
      DivCompare(high - price, high, 0.05);
      if !FellFromHigh(bars) {
        forall i | |bars| - 20 <= i < |bars| && bars[i].high > 0.0
          ensures price > 0.95 * bars[i].high
        {
          assert Highs(window)[i - (|bars| - 20)] == bars[i].high;
        }
      }
    } else {
      forall i | |bars| - 20 <= i < |bars|
        ensures bars[i].high <= 0.0
      {
        assert Highs(window)[i - (|bars| - 20)] == bars[i].high;
      }
    }
  }

  /**
   * With a positive average on the last row, support by that average means:
   * the close within 3% of it, at most one of the last ten lows more than
   * 3% below its own average, and the last ten bodies averaging under 70%
   * of the ten before. Without an average there is no support.
   */
  lemma SupportedByMeaning(bars: seq<Bar>, period: nat)
    requires |bars| >= 20 && 1 <= period <= 20
    ensures var n := |bars|; var ma := Sma(Closes(bars), period)[n - 1];
      ma.Some? && ma.value > 0.0 ==>
        (SupportedBy(bars, period) <==>
          Abs(bars[n - 1].close - ma.value) <= 0.03 * ma.value &&
          AtMostOnePierce(Lows(bars), Sma(Closes(bars), period), 0.97, n - 10) &&
          ShrinkingBodies(bars))
    ensures Sma(Closes(bars), period)[|bars| - 1].None? ==> !SupportedBy(bars, period)
  {
    var n := |bars|;
    var mas := Sma(Closes(bars), period);
    if mas[n - 1].Some? && mas[n - 1].value > 0.0 {
      var m := mas[n - 1].value;
      var gap := Abs(bars[n - 1].close - m);
      SupportTests(gap, m, Lows(bars), mas, n - 10);
    }
  }

  /** The closeness and piercing tests of `SupportedBy`, read without quotients and counts. */
  lemma SupportTests(gap: real, m: real, lows: seq<real>, mas: seq<Option<real>>, start: nat)
    requires |lows| == |mas| && start <= |lows| && m > 0.0
    ensures (!QuotGt(gap, m, 0.03) && CountBelow(lows[start..], mas[start..], 0.97) <= 1) <==>
      (gap <= 0.03 * m && AtMostOnePierce(lows, mas, 0.97, start))
  {
    QuotGtMeaning(gap, m, 0.03);
    CountBelowSuffixAtMostOne(lows, mas, 0.97, start);
  }

  // ------------------------------------------ oversold bounce, overbought pullback

  /** A bar of the given colour: bullish when `bullish`, bearish otherwise. */
  predicate Coloured(b: Bar, bullish: bool)
  {
    if bullish then IsBullish(b) else IsBearish(b)
  }

  /** Length of the run of `bullish`-coloured bars ending at the last bar of `bs`, counted back at most `cap` bars. */
  function RunEnding(bs: seq<Bar>, bullish: bool, cap: nat): (k: nat)
    ensures k <= cap && k <= |bs|
    ensures forall i :: |bs| - k <= i < |bs| ==> Coloured(bs[i], bullish)
    ensures k < cap && k < |bs| ==> !Coloured(bs[|bs| - 1 - k], bullish)
  {
    if cap == 0 || |bs| == 0 || !Coloured(bs[|bs| - 1], bullish) then 0
    else
      var k := RunEnding(bs[..|bs| - 1], bullish, cap - 1);
      assert forall i :: 0 <= i < |bs| - 1 ==> bs[..|bs| - 1][i] == bs[i];
      1 + k
  }

  lemma {:induction false} RunEndingMirror(bs: seq<Bar>, bullish: bool, cap: nat)
    ensures RunEnding(MirrorAll(bs), !bullish, cap) == RunEnding(bs, bullish, cap)
  {
    if cap > 0 && |bs| > 0 {
      assert MirrorAll(bs)[..|bs| - 1] == MirrorAll(bs[..|bs| - 1]);
      RunEndingMirror(bs[..|bs| - 1], bullish, cap - 1);
    }
  }

  /** The body of a reversal bar against a run: close - open after falls, open - close after rises. */
  function ReversalBody(b: Bar, runBullish: bool): real
  {
    if runBullish then b.open - b.close else b.close - b.open
  }

  /**
   * The shape both exhaustion detectors look for: at least six bars, the
   * last one coloured against a run of at least four bars before it (counted
   * back at most ten), with a proper range and a body of at least 40% of it.
   */
  predicate Exhausted(bars: seq<Bar>, runBullish: bool)
  {
    var n := |bars|;
    n >= 6 && ReversalBar(bars[n - 1], runBullish) && RunEnding(bars[..n - 1], runBullish, 10) >= 4
  }

  /** A bar coloured against the run, with a proper range and a body of at least 40% of it. */
  predicate ReversalBar(b: Bar, runBullish: bool)
  {
    Coloured(b, !runBullish) && b.high - b.low > 0.0 && ReversalBody(b, runBullish) >= 0.4 * (b.high - b.low)
  }

  /** For a positive body, `body / range >= 0.4` holds exactly for a positive range it fills to 40%. */
  lemma BodyShareMeaning(body: real, range: real)
    requires body > 0.0 && range != 0.0
    ensures body / range >= 0.4 <==> range > 0.0 && body >= 0.4 * range
  {
    if range > 0.0 {
      DivCompare(body, range, 0.4);
    } else {
      assert body / range == -(body / -range);
      DivCompare(body, -range, 0.0);
    }
  }

  /** Each run bar's move in the run's direction, as a fraction of its open. */
  function MoveFractions(run: seq<Bar>, rising: bool): (r: seq<real>)
    requires forall i :: 0 <= i < |run| ==> run[i].open != 0.0
    ensures |r| == |run|
  {
    seq(|run|, i requires 0 <= i < |run| =>
      if rising then (run[i].close - run[i].open) / run[i].open
      else (run[i].open - run[i].close) / run[i].open)
  }

  predicate HasZeroOpen(run: seq<Bar>)
  {
    exists i :: 0 <= i < |run| && run[i].open == 0.0
  }

  /** Along a run of its own colour with positive opens, the total move is not negative. */
  lemma MovesOfColouredRunNonNegative(run: seq<Bar>, rising: bool)
    requires !HasZeroOpen(run)
    ensures (forall i :: 0 <= i < |run| ==> run[i].open > 0.0 && Coloured(run[i], rising)) ==>
      Sum(MoveFractions(run, rising)) >= 0.0
  {
    if forall i :: 0 <= i < |run| ==> run[i].open > 0.0 && Coloured(run[i], rising) {
      var fs := MoveFractions(run, rising);
      forall i | 0 <= i < |run|
        ensures fs[i] >= 0.0
      {
        DivCompare(if rising then run[i].close - run[i].open else run[i].open - run[i].close, run[i].open, 0.0);
      }
      SumNonNegative(fs);
    }
  }

  /**
   * min(total move, 0.2) over a run. A bar with a zero open makes numpy's
   * total +inf (its move is a positive amount over zero), so the cap applies.
   */
  function CappedMove(run: seq<Bar>, rising: bool): (m: real)
    ensures m <= 0.2
    ensures HasZeroOpen(run) ==> m == 0.2
    ensures (forall i :: 0 <= i < |run| ==> run[i].open > 0.0 && Coloured(run[i], rising)) ==> m >= 0.0
  {
    if HasZeroOpen(run) then 0.2
    else
      var fs := MoveFractions(run, rising);
      MovesOfColouredRunNonNegative(run, rising);
      MinR(Sum(fs), 0.2)
  }

  /** The run of `k` bars just before the last bar; all of them have the run's colour. */
  function RunBeforeLast(bars: seq<Bar>, runBullish: bool, k: nat): (run: seq<Bar>)
    requires |bars| >= 1 && k == RunEnding(bars[..|bars| - 1], runBullish, 10)
    ensures |run| == k
    ensures forall i :: 0 <= i < k ==> run[i] == bars[|bars| - 1 - k + i]
    ensures forall i :: 0 <= i < k ==> Coloured(run[i], runBullish)
  {
    var n := |bars|;
    assert forall i :: n - 1 - k <= i < n - 1 ==> bars[..n - 1][i] == bars[i];
    bars[n - 1 - k..n - 1]
  }

  /**
   * An exhaustion strength: the base, plus `runStep` for each run bar past
   * four (at most six of them), plus the body share above 40% (at most 0.4)
   * times `shareWeight`, plus the capped move times `moveWeight`; truncated
   * and capped at `cap`.
   */
  function ExhaustionScore(base: int, runStep: real, shareWeight: real, moveWeight: real, cap: int,
                           k: nat, ratio: real, move: real): (s: int)
    requires k >= 4 && ratio >= 0.4 && runStep >= 0.0 && shareWeight >= 0.0 && moveWeight >= 0.0 && 0 <= base <= cap
    ensures s <= cap
    ensures move >= 0.0 ==> base <= s
  {
    var runPart := (MinI(k - 4, 6) as real) * runStep;
    var sharePart := MinR(ratio - 0.4, 0.4) * shareWeight;
    var score := base as real + runPart + sharePart + move * moveWeight;
    if move < 0.0 then MinI(Trunc(score), cap)
    else
      MulNonNeg(MinI(k - 4, 6) as real, runStep);
      MulNonNeg(MinR(ratio - 0.4, 0.4), shareWeight);
      MulNonNeg(move, moveWeight);
      TruncOfInt(base);
      TruncMonotone(base as real, score);
      MinI(Trunc(score), cap)
  }

  /**
   * Four to ten bearish bars followed by a solid bullish bar. The strength
   * starts at 65 and grows with the run length, the body share and the total
   * decline, capped at 90.
   */
  function OversoldBounce(bars: seq<Bar>): (d: Detection)
    ensures d.detected <==> Exhausted(bars, false)
    ensures !d.detected ==> d == NotDetected
    ensures d.detected ==> d.strength <= 90
    ensures d.detected && (forall i :: 0 <= i < |bars| ==> bars[i].open > 0.0) ==> 65 <= d.strength
  {
    var n := |bars|;
    if n < 6 then NotDetected
    else
      var last := bars[n - 1];
      if last.close <= last.open then NotDetected
      else
        var k := RunEnding(bars[..n - 1], false, 10);
        if k < 4 then NotDetected
        else
          var body := last.close - last.open;
          var range := last.high - last.low;
          if range == 0.0 then NotDetected
          else
            BodyShareMeaning(body, range);
            var ratio := body / range;
            if ratio < 0.4 then NotDetected
            else
              var run := RunBeforeLast(bars, false, k);
              Detection(true, ExhaustionScore(65, 2.5, 25.0, 50.0, 90, k, ratio, CappedMove(run, false)))
  }

  /**
   * Four to ten bullish bars followed by a solid bearish bar. The strength
   * starts at 55 and grows with the run length, the body share and the total
   * rise, capped at 75.
   */
  function OverboughtPullback(bars: seq<Bar>): (d: Detection)
    ensures d.detected <==> Exhausted(bars, true)
    ensures !d.detected ==> d == NotDetected
    ensures d.detected ==> d.strength <= 75
    ensures d.detected && (forall i :: 0 <= i < |bars| ==> bars[i].open > 0.0) ==> 55 <= d.strength
  {
    var n := |bars|;
    if n < 6 then NotDetected
    else
      var last := bars[n - 1];
      if last.close >= last.open then NotDetected
      else
        var k := RunEnding(bars[..n - 1], true, 10);
        if k < 4 then NotDetected
        else
          var body := last.open - last.close;
          var range := last.high - last.low;
          if range == 0.0 then NotDetected
          else
            BodyShareMeaning(body, range);
            var ratio := body / range;
            if ratio < 0.4 then NotDetected
            else
              var run := RunBeforeLast(bars, true, k);
              Detection(true, ExhaustionScore(55, 2.0, 20.0, 40.0, 75, k, ratio, CappedMove(run, true)))
  }

  /** The overbought pullback is the oversold bounce seen upside down. */
  lemma ExhaustionMirror(bars: seq<Bar>)
    ensures OverboughtPullback(MirrorAll(bars)).detected == OversoldBounce(bars).detected
  {
    ExhaustedMirror(bars);
  }

  lemma ExhaustedMirror(bars: seq<Bar>)
    ensures Exhausted(MirrorAll(bars), true) == Exhausted(bars, false)
  {
    var n := |bars|;
    if n >= 6 {
      var m := MirrorAll(bars);
      RunBeforeLastMirror(bars);
      ReversalBarMirror(bars[n - 1]);
      assert m[n - 1] == Mirror(bars[n - 1]);
      ExhaustedFromParts(m, bars, true, false);
    }
  }

  /** Two series of the same length agree on exhaustion when their last bars and runs agree. */
  lemma ExhaustedFromParts(a: seq<Bar>, b: seq<Bar>, ra: bool, rb: bool)
    requires |a| == |b| >= 1
    requires ReversalBar(a[|a| - 1], ra) == ReversalBar(b[|b| - 1], rb)
    requires RunEnding(a[..|a| - 1], ra, 10) == RunEnding(b[..|b| - 1], rb, 10)
    ensures Exhausted(a, ra) == Exhausted(b, rb)
  {
  }

  lemma RunBeforeLastMirror(bars: seq<Bar>)
    requires |bars| > 0
    ensures RunEnding(MirrorAll(bars)[..|bars| - 1], true, 10) == RunEnding(bars[..|bars| - 1], false, 10)
  {
    assert MirrorAll(bars)[..|bars| - 1] == MirrorAll(bars[..|bars| - 1]);
    RunEndingMirror(bars[..|bars| - 1], false, 10);
  }

  lemma ReversalBarMirror(b: Bar)
    ensures Mirror(b).high - Mirror(b).low == b.high - b.low
    ensures ReversalBody(Mirror(b), true) == ReversalBody(b, false)
    ensures Coloured(Mirror(b), false) == Coloured(b, true)
    ensures ReversalBar(Mirror(b), true) == ReversalBar(b, false)
  {
  }

  // ------------------------------------------------ support and resistance

  /** The 20-bar extremes and whether the last close sits within 3% under the high or over the low. */
  datatype Levels = Levels(nearResistance: bool, nearSupport: bool, resistance: real, support: real)

  /** Distance of a level from the price as a fraction of the price; 1 when the price is not positive. */
  function Distance(gap: real, price: real): real
  {
    if price > 0.0 then gap / price else 1.0
  }

  lemma DistanceMeaning(gap: real, price: real)
    ensures 0.0 <= Distance(gap, price) <= 0.03 <==> price > 0.0 && 0.0 <= gap <= 0.03 * price
  {
    if price > 0.0 {
      DivCompare(gap, price, 0.0);
      DivCompare(gap, price, 0.03);
    }
  }

  /** The highest high of the last 20 bars. */
  function RecentHigh(bars: seq<Bar>): (h: real)
    requires |bars| >= 20
    ensures forall i :: |bars| - 20 <= i < |bars| ==> bars[i].high <= h
    ensures exists i :: |bars| - 20 <= i < |bars| && h == bars[i].high
  {
    var n := |bars|;
    var recent := bars[n - 20..];
    var h := SeqMax(Highs(recent));
    assert forall i :: n - 20 <= i < n ==> recent[i - (n - 20)] == bars[i];
    var j :| 0 <= j < 20 && h == Highs(recent)[j];
    assert bars[n - 20 + j] == recent[j];
    h
  }

  /** The lowest low of the last 20 bars. */
  function RecentLow(bars: seq<Bar>): (m: real)
    requires |bars| >= 20
    ensures forall i :: |bars| - 20 <= i < |bars| ==> m <= bars[i].low
    ensures exists i :: |bars| - 20 <= i < |bars| && m == bars[i].low
  {
    var n := |bars|;
    var recent := bars[n - 20..];
    var m := SeqMin(Lows(recent));
    assert forall i :: n - 20 <= i < n ==> recent[i - (n - 20)] == bars[i];
    var j :| 0 <= j < 20 && m == Lows(recent)[j];
    assert bars[n - 20 + j] == recent[j];
    m
  }

  function SupportResistance(bars: seq<Bar>): (l: Levels)
    ensures |bars| < 20 ==> l == Levels(false, false, 0.0, 0.0)
    ensures |bars| >= 20 ==>
      (forall i :: |bars| - 20 <= i < |bars| ==> l.support <= bars[i].low && bars[i].high <= l.resistance) &&
      (exists i :: |bars| - 20 <= i < |bars| && l.resistance == bars[i].high) &&
      (exists i :: |bars| - 20 <= i < |bars| && l.support == bars[i].low)
    ensures |bars| >= 20 ==>
      var price := bars[|bars| - 1].close;
      (l.nearResistance <==> price > 0.0 && price <= l.resistance <= 1.03 * price) &&
      (l.nearSupport <==> price > 0.0 && 0.97 * price <= l.support <= price)
  {
    var n := |bars|;
    if n < 20 then Levels(false, false, 0.0, 0.0)
    else
      var price := bars[n - 1].close;
      var res := RecentHigh(bars);
      var sup := RecentLow(bars);
      var rd := Distance(res - price, price);
      var sd := Distance(price - sup, price);
      DistanceMeaning(res - price, price);
      DistanceMeaning(price - sup, price);
      Levels(rd <= 0.03 && rd >= 0.0, sd <= 0.03 && sd >= 0.0, res, sup)
  }

  /** Being near both levels at once means the whole 20-bar range spans at most 6% of the price. */
  lemma NearBothLevelsMeansNarrowRange(bars: seq<Bar>)
    requires |bars| >= 20
    requires SupportResistance(bars).nearResistance && SupportResistance(bars).nearSupport
    ensures forall i, j :: |bars| - 20 <= i < |bars| && |bars| - 20 <= j < |bars| ==>
      bars[i].high - bars[j].low <= 0.06 * bars[|bars| - 1].close
  {
  }

  // -------------------------------------------------------------- trend health

  /** Trend health: healthy with strength 90, 70 or 50 (too little data), or weak with 40. */
  datatype Health = Health(isHealthy: bool, strength: int)

  /** Of the last ten rows, how many close below a defined `period`-bar mean. */
  function ClosesBelowMean(bars: seq<Bar>, period: nat): (c: nat)
    requires |bars| >= 10 && period >= 1
    ensures c == 0 <==> forall i :: |bars| - 10 <= i < |bars| ==>
      !(Sma(Closes(bars), period)[i].Some? && bars[i].close < Sma(Closes(bars), period)[i].value)
    ensures c <= 1 <==> AtMostOnePierce(Closes(bars), Sma(Closes(bars), period), 1.0, |bars| - 10)
  {
    var n := |bars|;
    var ma := Sma(Closes(bars), period);
    CountBelowSuffix(Closes(bars), ma, n - 10);
    CountBelowSuffixAtMostOne(Closes(bars), ma, 1.0, n - 10);
    CountBelow(Closes(bars)[n - 10..], ma[n - 10..], 1.0)
  }

  /** Counting over the rows from `start` on finds none exactly when none of those rows is below. */
  lemma CountBelowSuffix(xs: seq<real>, ms: seq<Option<real>>, start: nat)
    requires |xs| == |ms| && start <= |xs|
    ensures CountBelow(xs[start..], ms[start..], 1.0) == 0 <==>
      forall i :: start <= i < |xs| ==> !(ms[i].Some? && xs[i] < ms[i].value)
  {
    var a, b := xs[start..], ms[start..];
    assert forall i :: start <= i < |xs| ==> a[i - start] == xs[i] && b[i - start] == ms[i];
  }

  /**
   * Strong (90) when none of the last ten closes is under the 5-bar mean,
   * healthy (70) when at most one is under the 20-bar mean, weak (40)
   * otherwise; fewer than 20 bars is healthy at 50.
   */
  function TrendHealth(bars: seq<Bar>): (h: Health)
    ensures |bars| < 20 ==> h == Health(true, 50)
    ensures h.strength in {40, 50, 70, 90}
    ensures h.isHealthy <==> h.strength != 40
    ensures |bars| >= 20 ==> (h.strength == 90 <==> forall i :: |bars| - 10 <= i < |bars| ==>
      !(Sma(Closes(bars), 5)[i].Some? && bars[i].close < Sma(Closes(bars), 5)[i].value))
    ensures |bars| >= 20 && h.strength == 40 ==> ClosesBelowMean(bars, 20) >= 2
    ensures |bars| >= 20 ==> h.strength != 50
    ensures |bars| >= 20 && h.strength != 90 ==>
      (h.strength == 70 <==> AtMostOnePierce(Closes(bars), Sma(Closes(bars), 20), 1.0, |bars| - 10))
  {
    if |bars| < 20 then Health(true, 50)
    else if ClosesBelowMean(bars, 5) == 0 then Health(true, 90)
    else if ClosesBelowMean(bars, 20) <= 1 then Health(true, 70)
    else Health(false, 40)
  }

  /** A series that never falls closes at or above each of its trailing means. */
  lemma RisingSeriesIsStrong(bars: seq<Bar>)
    requires |bars| >= 20
    requires forall i, j :: 0 <= i <= j < |bars| ==> bars[i].close <= bars[j].close
    ensures TrendHealth(bars) == Health(true, 90)
  {
    var n := |bars|;
    var cs := Closes(bars);
    forall i | n - 10 <= i < n
      ensures Sma(cs, 5)[i] == Some(Mean(cs[i - 4..i + 1]))
      ensures bars[i].close >= Mean(cs[i - 4..i + 1])
    {
      var w := cs[i - 4..i + 1];
      assert forall m :: 0 <= m < 5 ==> w[m] == bars[i - 4 + m].close;
      assert forall m :: 0 <= m < 5 ==> cs[i - 4] <= w[m] <= cs[i];
      MeanBounds(w, cs[i - 4], cs[i]);
    }
    assert ClosesBelowMean(bars, 5) == 0;
  }

  // ----------------------------------------------------------------- scoring

  /** The strengths of the detected patterns, in order. */
  function Strengths(ds: seq<Detection>): (r: seq<int>)
    ensures |r| <= |ds|
  {
    if |ds| == 0 then []
    else Strengths(ds[..|ds| - 1]) + (if ds[|ds| - 1].detected then [ds[|ds| - 1].strength] else [])
  }

  /** Bullish evidence: five patterns, nearness to support (60) and a healthy trend (its strength). */
  function BullishStrengths(cfg: Config, bars: seq<Bar>): seq<int>
  {
    var health := TrendHealth(bars);
    Strengths([BullishEngulfing(bars), Pinbar(cfg, bars), ConsolidationAfterRally(cfg, bars),
               SupportAtMa(bars), OversoldBounce(bars)]) +
    (if SupportResistance(bars).nearSupport then [60] else []) +
    (if health.isHealthy then [health.strength] else [])
  }

  /** Bearish evidence: three patterns, nearness to resistance (60) and a weak trend (100 - 40). */
  function BearishStrengths(cfg: Config, bars: seq<Bar>): seq<int>
  {
    var health := TrendHealth(bars);
    Strengths([BearishEngulfing(bars), ShootingStar(cfg, bars), OverboughtPullback(bars)]) +
    (if SupportResistance(bars).nearResistance then [60] else []) +
    (if health.isHealthy then [] else [100 - health.strength])
  }

  /** The trend-health verdict always lands on one side, so some evidence always exists. */
  lemma EvidenceNeverEmpty(cfg: Config, bars: seq<Bar>)
    ensures |BullishStrengths(cfg, bars)| + |BearishStrengths(cfg, bars)| >= 1
  {
  }

  predicate BuyWins(bull: int, bear: int) { bull as real > 0.7 * (bear as real) && bull > 70 }
  predicate SellWins(bull: int, bear: int) { 0.7 * (bear as real) > bull as real && 0.7 * (bear as real) > 60.0 }

  /**
   * Bearish evidence is discounted to 70%. Buy needs the bullish total to
   * beat it and exceed 70 (confidence: the mean bullish strength, floored,
   * at most 90); sell needs the discounted bearish total to beat the bullish
   * total and exceed 60 (confidence: its mean, truncated, at most 75);
   * otherwise hold at 50.
   */
  function Decide(bull: seq<int>, bear: seq<int>): (s: Signal)
    ensures s.action == Buy <==> BuyWins(SumI(bull), SumI(bear))
    ensures s.action == Sell <==> !BuyWins(SumI(bull), SumI(bear)) && SellWins(SumI(bull), SumI(bear))
    ensures s.action == Hold ==> s.confidence == 50
    ensures s.action == Buy ==> s.confidence <= 90
    ensures s.action == Sell ==> s.confidence <= 75
    ensures s.action == Buy ==> |bull| > 0 && s.confidence == MinI(90, SumI(bull) / |bull|)
    ensures s.action == Sell ==>
      |bear| > 0 && s.confidence == MinI(75, Trunc(0.7 * (SumI(bear) as real) / (|bear| as real)))
  {
    var b := SumI(bull);
    var adjusted := 0.7 * (SumI(bear) as real);
    if BuyWins(b, SumI(bear)) then
      Signal(Buy, if |bull| > 0 then MinI(90, b / |bull|) else 0)
    else if SellWins(b, SumI(bear)) then
      Signal(Sell, if |bear| > 0 then MinI(75, Trunc(adjusted / (|bear| as real))) else 0)
    else Signal(Hold, 50)
  }

  /** Floor division of a total by a positive count stays within the bounds its terms imply. */
  lemma FloorMeanBounds(total: int, n: int, lo: int, hi: int)
    requires n > 0 && lo * n <= total <= hi * n
    ensures lo <= total / n <= hi
  {
    var q := total / n;
    assert total == q * n + total % n && 0 <= total % n < n;
    assert lo * n < (q + 1) * n;
    MulCancel(lo, q + 1, n);
    assert q * n <= hi * n;
    MulCancelLe(q, hi, n);
  }

  lemma MulCancel(a: int, b: int, n: int)
    requires n > 0 && a * n < b * n
    ensures a < b
  {
  }

  lemma MulCancelLe(a: int, b: int, n: int)
    requires n > 0 && a * n <= b * n
    ensures a <= b
  {
  }

  /** A buy's confidence is the floor of the mean bullish strength, so it lies within their range (capped at 90). */
  lemma BuyConfidenceWithinEvidence(bull: seq<int>, bear: seq<int>, lo: int, hi: int)
    requires forall i :: 0 <= i < |bull| ==> lo <= bull[i] <= hi
    requires Decide(bull, bear).action == Buy
    ensures MinI(90, lo) <= Decide(bull, bear).confidence <= MinI(90, hi)
  {
    SumIBounds(bull, lo, hi);
    assert |bull| > 0;
    FloorMeanBounds(SumI(bull), |bull|, lo, hi);
  }

  /** More bullish evidence never loses a buy; more bearish evidence never loses a sell nor creates a buy. */
  lemma {:induction false} DecideMonotone(bull: seq<int>, bear: seq<int>, x: int)
    requires x >= 0
    ensures Decide(bull, bear).action == Buy ==> Decide(bull + [x], bear).action == Buy
    ensures Decide(bull, bear).action == Sell ==> Decide(bull, bear + [x]).action == Sell
    ensures Decide(bull, bear).action != Buy ==> Decide(bull, bear + [x]).action != Buy
  {
    SumIAppend(bull, x);
    SumIAppend(bear, x);
  }

  /**
   * `analyze_all_patterns`: hold at 0 when disabled or given fewer than
   * max(20, lookback) bars, otherwise the scoring of all the evidence.
   */
  function AnalyzeAllPatterns(cfg: Config, bars: seq<Bar>): (s: Signal)
    ensures !cfg.enabled || |bars| < 20 || |bars| < cfg.lookbackBars ==> s == Signal(Hold, 0)
    ensures cfg.enabled && |bars| >= 20 && |bars| >= cfg.lookbackBars ==>
      s == Decide(BullishStrengths(cfg, bars), BearishStrengths(cfg, bars))
    ensures s.confidence <= 90
  {
    if !cfg.enabled then Signal(Hold, 0)
    else if |bars| < 20 || |bars| < cfg.lookbackBars then Signal(Hold, 0)
    else Decide(BullishStrengths(cfg, bars), BearishStrengths(cfg, bars))
  }
}

=== FILE: common.dfy ===
/**
 * Shared vocabulary of the trading core: price bars, trade actions,
 * signals, and the numeric conventions of the Python runtime that the
 * decision logic depends on (int() truncation, numpy division by zero).
 */
module Common {

  /** A missing value: `None` stands for pandas' NaN / a missing column. */
  datatype Option<T> = None | Some(value: T)

  /** An outcome that may be a raised Python exception, kept as its message. */
  datatype Result<T> = Ok(value: T) | Failure(error: string)

  /** One OHLC price bar; timestamps and volume play no part in any decision. */
  datatype Bar = Bar(open: real, high: real, low: real, close: real)

  /** A bar whose open and close lie inside its [low, high] range. */
  predicate WellFormed(b: Bar)
  {
    b.low <= b.open <= b.high && b.low <= b.close <= b.high
  }

  predicate IsBearish(b: Bar) { b.close < b.open }
  predicate IsBullish(b: Bar) { b.close > b.open }

  function Body(b: Bar): real
    ensures Body(b) >= 0.0
  {
    Abs(b.close - b.open)
  }

  /** The bar seen upside down: prices negated, so high and low swap roles. */
  function Mirror(b: Bar): (m: Bar)
    ensures IsBullish(m) <==> IsBearish(b)
    ensures IsBearish(m) <==> IsBullish(b)
    ensures Body(m) == Body(b)
    ensures WellFormed(m) <==> WellFormed(b)
  {
    Bar(-b.open, -b.low, -b.high, -b.close)
  }

  function MirrorAll(bars: seq<Bar>): (m: seq<Bar>)
    ensures |m| == |bars| && forall i :: 0 <= i < |bars| ==> m[i] == Mirror(bars[i])
  {
    seq(|bars|, i requires 0 <= i < |bars| => Mirror(bars[i]))
  }

  /** The three trade actions every analyser emits. */
  datatype Action = Buy | Sell | Hold

  /** An analyser's verdict; confidences are whole percentages. */
  datatype Signal = Signal(action: Action, confidence: int)

  function Abs(x: real): real
  {
    if x < 0.0 then -x else x
  }

  function MinR(a: real, b: real): real
  {
    if a <= b then a else b
  }

  function MaxR(a: real, b: real): real
  {
    if a >= b then a else b
  }

  function MinI(a: int, b: int): int
  {
    if a <= b then a else b
  }

  /** Python's `int(x)` on a float: truncation toward zero. */
  function Trunc(x: real): (r: int)
    ensures 0.0 <= x ==> r as real <= x < r as real + 1.0
    ensures x < 0.0 ==> r as real - 1.0 < x <= r as real
    ensures 0.0 <= x ==> 0 <= r
  {
    if x >= 0.0 then x.Floor else -((-x).Floor)
  }

  lemma TruncMonotone(x: real, y: real)
    requires 0.0 <= x <= y
    ensures Trunc(x) <= Trunc(y)
  {
  }

  lemma TruncOfInt(n: int)
    ensures Trunc(n as real) == n
  {
  }

  /*
   * numpy float64 division never raises: a nonzero numerator over zero is
   * +inf or -inf, and 0/0 is NaN, which compares false with everything.
   * The predicates below give `a / b <op> t` exactly that meaning.
   */

  predicate QuotGt(a: real, b: real, t: real)
  {
    if b != 0.0 then a / b > t else a > 0.0
  }

  predicate QuotLt(a: real, b: real, t: real)
  {
    if b != 0.0 then a / b < t else a < 0.0
  }

  /** For b > 0, comparing a quotient with a threshold is comparing a with the scaled threshold. */
  lemma DivCompare(a: real, b: real, t: real)
    requires b > 0.0
    ensures a / b >= t <==> a >= t * b
    ensures a / b <= t <==> a <= t * b
  {
    var q := a / b;
    assert a == q * b;
    if q >= t {
      assert q * b >= t * b;
    }
    if q <= t {
      assert q * b <= t * b;
    }
  }

  /** With a positive divisor, the numpy comparisons are the plain ones. */
  lemma QuotLtMeaning(a: real, b: real, t: real)
    ensures b > 0.0 ==> (QuotLt(a, b, t) <==> a < t * b)
  {
    if b > 0.0 {
      DivCompare(a, b, t);
    }
  }

  lemma QuotGtMeaning(a: real, b: real, t: real)
    ensures b > 0.0 ==> (QuotGt(a, b, t) <==> a > t * b)
  {
    if b > 0.0 {
      DivCompare(a, b, t);
    }
  }

  /* Comparisons of possibly-NaN cells: anything compared with NaN is false. */

  predicate OptLe(a: Option<real>, b: Option<real>) { a.Some? && b.Some? && a.value <= b.value }
  predicate OptLt(a: Option<real>, b: Option<real>) { a.Some? && b.Some? && a.value < b.value }
  predicate OptGe(a: Option<real>, b: Option<real>) { a.Some? && b.Some? && a.value >= b.value }
  predicate OptGt(a: Option<real>, b: Option<real>) { a.Some? && b.Some? && a.value > b.value }

  function Sum(xs: seq<real>): real
  {
    if |xs| == 0 then 0.0 else Sum(xs[..|xs| - 1]) + xs[|xs| - 1]
  }

  function SumI(xs: seq<int>): int
  {
    if |xs| == 0 then 0 else SumI(xs[..|xs| - 1]) + xs[|xs| - 1]
  }

  /** pandas `.mean()` of a non-empty column. */
  function Mean(xs: seq<real>): real
    requires |xs| > 0
  {
    Sum(xs) / (|xs| as real)
  }

  lemma SumAppend(xs: seq<real>, x: real)
    ensures Sum(xs + [x]) == Sum(xs) + x
  {
    assert (xs + [x])[..|xs|] == xs;
  }

  lemma SumIAppend(xs: seq<int>, x: int)
    ensures SumI(xs + [x]) == SumI(xs) + x
  {
    assert (xs + [x])[..|xs|] == xs;
  }

  lemma {:induction false} SumIBounds(xs: seq<int>, lo: int, hi: int)
    requires forall i :: 0 <= i < |xs| ==> lo <= xs[i] <= hi
    ensures lo * |xs| <= SumI(xs) <= hi * |xs|
  {
    if |xs| > 0 {
      SumIBounds(xs[..|xs| - 1], lo, hi);
    }
  }

  lemma {:induction false} SumBounds(xs: seq<real>, lo: real, hi: real)
    requires forall i :: 0 <= i < |xs| ==> lo <= xs[i] <= hi
    ensures lo * (|xs| as real) <= Sum(xs) <= hi * (|xs| as real)
  {
    if |xs| > 0 {
      SumBounds(xs[..|xs| - 1], lo, hi);
    }
  }

  /** A mean lies within any bounds of its terms. */
  lemma MeanBounds(xs: seq<real>, lo: real, hi: real)
    requires |xs| > 0 && forall i :: 0 <= i < |xs| ==> lo <= xs[i] <= hi
    ensures lo <= Mean(xs) <= hi
  {
    SumBounds(xs, lo, hi);
    DivCompare(Sum(xs), |xs| as real, lo);
    DivCompare(Sum(xs), |xs| as real, hi);
  }

  /** pandas `df.iloc[-k:]`: the last k rows, where `-0` means every row. */
  function TailRows<T>(s: seq<T>, k: nat): (r: seq<T>)
    ensures k == 0 || k >= |s| ==> r == s
    ensures 0 < k <= |s| ==> |r| == k && r == s[|s| - k..]
  {
    if k == 0 || k >= |s| then s else s[|s| - k..]
  }

  /** pandas `df.tail(k)`: the last k rows, none when k is 0. */
  function LastRows<T>(s: seq<T>, k: nat): (r: seq<T>)
    ensures |r| == if k <= |s| then k else |s|
    ensures forall i :: 0 <= i < |r| ==> r[i] == s[|s| - |r| + i]
  {
    if k >= |s| then s else s[|s| - k..]
  }

  function SeqMin(xs: seq<real>): (m: real)
    requires |xs| > 0
    ensures forall i :: 0 <= i < |xs| ==> m <= xs[i]
    ensures exists i :: 0 <= i < |xs| && m == xs[i]
  {
    if |xs| == 1 then xs[0]
    else
      var m' := SeqMin(xs[..|xs| - 1]);
      assert forall i :: 0 <= i < |xs| - 1 ==> xs[..|xs| - 1][i] == xs[i];
      if xs[|xs| - 1] < m' then xs[|xs| - 1] else m'
  }

  function SeqMax(xs: seq<real>): (m: real)
    requires |xs| > 0
    ensures forall i :: 0 <= i < |xs| ==> xs[i] <= m
    ensures exists i :: 0 <= i < |xs| && m == xs[i]
  {
    if |xs| == 1 then xs[0]
    else
      var m' := SeqMax(xs[..|xs| - 1]);
      assert forall i :: 0 <= i < |xs| - 1 ==> xs[..|xs| - 1][i] == xs[i];
      if xs[|xs| - 1] > m' then xs[|xs| - 1] else m'
  }

  function Lows(bars: seq<Bar>): (r: seq<real>)
    ensures |r| == |bars| && forall i :: 0 <= i < |bars| ==> r[i] == bars[i].low
  {
    seq(|bars|, i requires 0 <= i < |bars| => bars[i].low)
  }

  function Highs(bars: seq<Bar>): (r: seq<real>)
    ensures |r| == |bars| && forall i :: 0 <= i < |bars| ==> r[i] == bars[i].high
  {
    seq(|bars|, i requires 0 <= i < |bars| => bars[i].high)
  }

  function Closes(bars: seq<Bar>): (r: seq<real>)
    ensures |r| == |bars| && forall i :: 0 <= i < |bars| ==> r[i] == bars[i].close
  {
    seq(|bars|, i requires 0 <= i < |bars| => bars[i].close)
  }

  function Bodies(bars: seq<Bar>): (r: seq<real>)
    ensures |r| == |bars| && forall i :: 0 <= i < |bars| ==> r[i] == Body(bars[i])
  {
    seq(|bars|, i requires 0 <= i < |bars| => Body(bars[i]))
  }
}

=== FILE: dashboard.dfy ===
/**
 * The dashboard's read-only views over all models: the aggregated portfolio
 * (totals summed across models, holdings merged per coin and side into a
 * quantity-weighted average) and the leaderboard ordered by return.
 */
module Dashboard {
  import opened Common
  import Engine

  /* ---------- Aggregated portfolio ---------- */

  /** One model's open holding as its portfolio reports it, with the market price of the coin. */
  datatype Holding = Holding(coin: string, side: Engine.Side, quantity: real, avgPrice: real, leverage: int, currentPrice: real)

  datatype ModelPortfolio = ModelPortfolio(
    totalValue: real, cash: real, positionsValue: real, realizedPnl: real,
    unrealizedPnl: real, initialCapital: real, holdings: seq<Holding>)

  datatype Totals = Totals(totalValue: real, cash: real, positionsValue: real, realizedPnl: real,
                           unrealizedPnl: real, initialCapital: real)

  const NoTotals := Totals(0.0, 0.0, 0.0, 0.0, 0.0, 0.0)

  /** A merged holding; leverage and current price are those of the first holding merged in. */
  datatype Entry = Entry(coin: string, side: Engine.Side, quantity: real, avgPrice: real, totalCost: real,
                         leverage: int, currentPrice: real, pnl: real)

  type Key = (string, Engine.Side)

  function KeyOf(h: Holding): Key { (h.coin, h.side) }

  function AddTotals(t: Totals, p: ModelPortfolio): Totals
  {
    Totals(t.totalValue + p.totalValue, t.cash + p.cash, t.positionsValue + p.positionsValue,
           t.realizedPnl + p.realizedPnl, t.unrealizedPnl + p.unrealizedPnl, t.initialCapital + p.initialCapital)
  }

  function Plus(a: Totals, b: Totals): Totals
  {
    Totals(a.totalValue + b.totalValue, a.cash + b.cash, a.positionsValue + b.positionsValue,
           a.realizedPnl + b.realizedPnl, a.unrealizedPnl + b.unrealizedPnl, a.initialCapital + b.initialCapital)
  }

  /** Totals over the models whose portfolio exists; a missing portfolio contributes nothing. */
  function SumTotals(ports: seq<Option<ModelPortfolio>>): Totals
  {
    if |ports| == 0 then NoTotals
    else
      var t := SumTotals(ports[..|ports| - 1]);
      var last := ports[|ports| - 1];
      if last.Some? then AddTotals(t, last.value) else t
  }

  /** Totals are additive over any split of the model list. */
  lemma {:induction false} TotalsAdditive(a: seq<Option<ModelPortfolio>>, b: seq<Option<ModelPortfolio>>)
    ensures SumTotals(a + b) == Plus(SumTotals(a), SumTotals(b))
    decreases |b|
  {
    if |b| == 0 {
      assert a + b == a;
    } else {
      assert (a + b)[..|a + b| - 1] == a + b[..|b| - 1];
      TotalsAdditive(a, b[..|b| - 1]);
    }
  }

  /** The holdings of every model whose portfolio exists, in model order. */
  function AllHoldings(ports: seq<Option<ModelPortfolio>>): seq<Holding>
  {
    if |ports| == 0 then []
    else
      var last := ports[|ports| - 1];
      AllHoldings(ports[..|ports| - 1]) + (if last.Some? then last.value.holdings else [])
  }

  /** Quantity times price: a holding's cost at its average price, or its value at the market price. */
  function Notional(quantity: real, price: real): real
  {
    quantity * price
  }

  /** The direction of the reported profit: the source always uses long's; the corrected view flips shorts. */
  function Signed(side: Engine.Side, sideAware: bool, x: real): real
  {
    if sideAware && side == Engine.Short then -x else x
  }

  /** The average price of a merged holding. */
  function Mean(cost: real, total: real): (avg: real)
    requires total > 0.0
    ensures Notional(total, avg) == cost
  {
    cost / total
  }

  lemma NotionalDifference(q: real, a: real, b: real)
    ensures Notional(q, a - b) == Notional(q, a) - Notional(q, b)
  {
  }

  /** Fold one more holding into an entry whose merged quantity stays positive. */
  function Merge(e: Entry, h: Holding, sideAware: bool): (r: Entry)
    requires e.quantity + h.quantity > 0.0
    ensures r.quantity == e.quantity + h.quantity
    ensures r.totalCost == Notional(e.quantity, e.avgPrice) + Notional(h.quantity, h.avgPrice)
    ensures Notional(r.quantity, r.avgPrice) == r.totalCost
    ensures r.pnl == Signed(e.side, sideAware, Notional(r.quantity, h.currentPrice) - r.totalCost)
    ensures r.coin == e.coin && r.side == e.side && r.leverage == e.leverage && r.currentPrice == e.currentPrice
  {
    var cost := Notional(e.quantity, e.avgPrice) + Notional(h.quantity, h.avgPrice);
    var total := e.quantity + h.quantity;
    var avg := Mean(cost, total);
    NotionalDifference(total, h.currentPrice, avg);
    NotionalDifference(total, avg, h.currentPrice);
    var pnl := if sideAware && e.side == Engine.Short then Notional(total, avg - h.currentPrice) else Notional(total, h.currentPrice - avg);
    e.(quantity := total, avgPrice := avg, totalCost := cost, pnl := pnl)
  }

  /** A merged average always lies between the two averages it mixes. */
  lemma WeightedMeanBetween(e: Entry, h: Holding, sideAware: bool)
    requires e.quantity > 0.0 && h.quantity > 0.0
    ensures MinR(e.avgPrice, h.avgPrice) <= Merge(e, h, sideAware).avgPrice <= MaxR(e.avgPrice, h.avgPrice)
  {
    var lo, hi := MinR(e.avgPrice, h.avgPrice), MaxR(e.avgPrice, h.avgPrice);
    var total := e.quantity + h.quantity;
    var cost := Notional(e.quantity, e.avgPrice) + Notional(h.quantity, h.avgPrice);
    assert e.quantity * lo <= e.quantity * e.avgPrice <= e.quantity * hi;
    assert h.quantity * lo <= h.quantity * h.avgPrice <= h.quantity * hi;
    assert lo * total <= cost <= hi * total;
    DivCompare(cost, total, lo);
    DivCompare(cost, total, hi);
  }

  function Fresh(h: Holding): Entry
  {
    Entry(h.coin, h.side, 0.0, 0.0, 0.0, h.leverage, h.currentPrice, 0.0)
  }

  /** One step of the merge: the entry for the holding's coin and side is created if new, and absorbs the holding when the merged quantity is positive. */
  function Absorb(entries: map<Key, Entry>, h: Holding, sideAware: bool): (r: map<Key, Entry>)
    ensures r.Keys == entries.Keys + {KeyOf(h)}
    ensures forall k :: k in entries && k != KeyOf(h) ==> r[k] == entries[k]
  {
    var k := KeyOf(h);
    var e := Prior(entries, h);
    if e.quantity + h.quantity > 0.0 then entries[k := Merge(e, h, sideAware)] else entries[k := e]
  }

  /** The entry a holding is merged into: the existing one for its key, or a fresh one. */
  function Prior(entries: map<Key, Entry>, h: Holding): Entry
  {
    if KeyOf(h) in entries then entries[KeyOf(h)] else Fresh(h)
  }

  /** The entry of the last holding's key is the merge of that holding into its prior entry. */
  lemma OwnLookup(hs: seq<Holding>, sideAware: bool)
    requires |hs| > 0
    requires Prior(MergeAll(hs[..|hs| - 1], sideAware), hs[|hs| - 1]).quantity + hs[|hs| - 1].quantity > 0.0
    ensures MergeAll(hs, sideAware)[KeyOf(hs[|hs| - 1])] ==
      Merge(Prior(MergeAll(hs[..|hs| - 1], sideAware), hs[|hs| - 1]), hs[|hs| - 1], sideAware)
  {
  }

  predicate Occurs(hs: seq<Holding>, k: Key)
  {
    exists i :: 0 <= i < |hs| && KeyOf(hs[i]) == k
  }

  /** Merged entries for a sequence of holdings, one per coin and side that occurs. */
  function MergeAll(hs: seq<Holding>, sideAware: bool): (r: map<Key, Entry>)
    ensures forall k :: k in r <==> Occurs(hs, k)
  {
    if |hs| == 0 then map[]
    else
      var prev := MergeAll(hs[..|hs| - 1], sideAware);
      KeysOfPrefix(hs);
      Absorb(prev, hs[|hs| - 1], sideAware)
  }

  lemma KeysOfPrefix(hs: seq<Holding>)
    requires |hs| > 0
    ensures forall k :: Occurs(hs, k) <==> Occurs(hs[..|hs| - 1], k) || k == KeyOf(hs[|hs| - 1])
  {
    var init := hs[..|hs| - 1];
    forall k | Occurs(hs, k)
      ensures Occurs(init, k) || k == KeyOf(hs[|hs| - 1])
    {
      var i :| 0 <= i < |hs| && KeyOf(hs[i]) == k;
      if i < |hs| - 1 {
        assert init[i] == hs[i];
      }
    }
    forall k | Occurs(init, k)
      ensures Occurs(hs, k)
    {
      var i :| 0 <= i < |init| && KeyOf(init[i]) == k;
      assert init[i] == hs[i];
    }
  }

  /** Where a key first occurs among the holdings. */
  function FirstIndex(hs: seq<Holding>, k: Key): (i: nat)
    requires Occurs(hs, k)
    ensures i < |hs| && KeyOf(hs[i]) == k
    ensures forall a :: 0 <= a < i ==> KeyOf(hs[a]) != k
  {
    if KeyOf(hs[0]) == k then 0
    else
      var j :| 0 <= j < |hs| && KeyOf(hs[j]) == k;
      assert hs[1..][j - 1] == hs[j];
      1 + FirstIndex(hs[1..], k)
  }

  /** Dropping the last holding moves no key's first occurrence. */
  lemma FirstIndexOfPrefix(hs: seq<Holding>, k: Key)
    requires |hs| > 0 && Occurs(hs[..|hs| - 1], k)
    ensures Occurs(hs, k) && FirstIndex(hs, k) == FirstIndex(hs[..|hs| - 1], k)
  {
    var init := hs[..|hs| - 1];
    var b := FirstIndex(init, k);
    assert init[b] == hs[b];
    var a := FirstIndex(hs, k);
    assert a <= b;
    assert init[a] == hs[a];
  }

  lemma PrefixHolding(hs: seq<Holding>, i: nat)
    ensures i < |hs| - 1 ==> hs[..|hs| - 1][i] == hs[i]
  {
  }

  /** A key new in the last holding first occurs there. */
  lemma FirstIndexOfLast(hs: seq<Holding>)
    requires |hs| > 0 && !Occurs(hs[..|hs| - 1], KeyOf(hs[|hs| - 1]))
    ensures Occurs(hs, KeyOf(hs[|hs| - 1])) && FirstIndex(hs, KeyOf(hs[|hs| - 1])) == |hs| - 1
  {
    var init := hs[..|hs| - 1];
    var k := KeyOf(hs[|hs| - 1]);
    var a := FirstIndex(hs, k);
    PrefixHolding(hs, a);
  }

  /** The distinct keys in order of first appearance (the insertion order of the source's dictionary). */
  function FirstSeen(hs: seq<Holding>): (r: seq<Key>)
    ensures forall k :: k in r <==> Occurs(hs, k)
    ensures forall i, j :: 0 <= i < j < |r| ==> r[i] != r[j]
    ensures forall i, j :: 0 <= i < j < |r| ==> FirstIndex(hs, r[i]) < FirstIndex(hs, r[j])
  {
    if |hs| == 0 then []
    else
      var prev := FirstSeen(hs[..|hs| - 1]);
      var k := KeyOf(hs[|hs| - 1]);
      KeysOfPrefix(hs);
      forall k' | k' in prev ensures FirstIndex(hs, k') == FirstIndex(hs[..|hs| - 1], k') {
        FirstIndexOfPrefix(hs, k');
      }
      if k in prev then prev
      else
        FirstIndexOfLast(hs);
        prev + [k]
  }

  datatype Aggregate = Aggregate(totals: Totals, entries: map<Key, Entry>, order: seq<Key>)

  /** The aggregated view over all models; `sideAware` false is the source's formula, true the corrected one. */
  function AggregatePortfolios(ports: seq<Option<ModelPortfolio>>, sideAware: bool): (r: Aggregate)
    ensures r.totals == SumTotals(ports)
    ensures forall k :: k in r.entries <==> k in r.order
    ensures forall i, j :: 0 <= i < j < |r.order| ==> r.order[i] != r.order[j]
    ensures forall k :: k in r.order <==> Occurs(AllHoldings(ports), k)
    ensures forall i, j :: 0 <= i < j < |r.order| ==>
      FirstIndex(AllHoldings(ports), r.order[i]) < FirstIndex(AllHoldings(ports), r.order[j])
  {
    var hs := AllHoldings(ports);
    Aggregate(SumTotals(ports), MergeAll(hs, sideAware), FirstSeen(hs))
  }

  /* ---------- Reference sums per coin and side ---------- */

  function QtySum(hs: seq<Holding>, k: Key): real
  {
    if |hs| == 0 then 0.0
    else QtySum(hs[..|hs| - 1], k) + (if KeyOf(hs[|hs| - 1]) == k then hs[|hs| - 1].quantity else 0.0)
  }

  function CostSum(hs: seq<Holding>, k: Key): real
  {
    if |hs| == 0 then 0.0
    else
      var h := hs[|hs| - 1];
      CostSum(hs[..|hs| - 1], k) + (if KeyOf(h) == k then Notional(h.quantity, h.avgPrice) else 0.0)
  }

  /** Each holding's own unrealised profit, as the ledger defines it for its side. */
  function HoldingPnl(h: Holding): real
  {
    Engine.GrossPnl(Engine.LedgerPosition(h.coin, h.quantity, h.avgPrice, h.leverage, h.side), h.currentPrice)
  }

  function PnlSum(hs: seq<Holding>, k: Key): real
  {
    if |hs| == 0 then 0.0
    else
      var h := hs[|hs| - 1];
      PnlSum(hs[..|hs| - 1], k) + (if KeyOf(h) == k then HoldingPnl(h) else 0.0)
  }

  /** The price of the last holding with this key: the one the merged profit is computed at. */
  function LastPrice(hs: seq<Holding>, k: Key): real
  {
    if |hs| == 0 then 0.0
    else if KeyOf(hs[|hs| - 1]) == k then hs[|hs| - 1].currentPrice
    else LastPrice(hs[..|hs| - 1], k)
  }

  predicate AllPositive(hs: seq<Holding>)
  {
    forall i :: 0 <= i < |hs| ==> hs[i].quantity > 0.0
  }

  /** Every holding of a coin is valued at the same market price. */
  predicate SamePrice(hs: seq<Holding>)
  {
    forall i, j :: 0 <= i < |hs| && 0 <= j < |hs| && hs[i].coin == hs[j].coin ==> hs[i].currentPrice == hs[j].currentPrice
  }

  /** A merged entry agrees with the reference sums of its key. */
  predicate EntryMatches(hs: seq<Holding>, e: Entry, k: Key, sideAware: bool)
  {
    e.side == k.1 &&
    e.quantity == QtySum(hs, k) > 0.0 &&
    e.totalCost == CostSum(hs, k) &&
    Notional(e.quantity, e.avgPrice) == e.totalCost
  }

  lemma {:induction false} SumsOfAbsentKey(hs: seq<Holding>, k: Key)
    requires forall i :: 0 <= i < |hs| ==> KeyOf(hs[i]) != k
    ensures QtySum(hs, k) == 0.0 && CostSum(hs, k) == 0.0 && PnlSum(hs, k) == 0.0
  {
    if |hs| > 0 {
      SumsOfAbsentKey(hs[..|hs| - 1], k);
    }
  }

  /** Appending a holding leaves the sums of every other key alone. */
  lemma {:induction false} SumsOfOtherKey(hs: seq<Holding>, j: Key)
    requires |hs| > 0 && KeyOf(hs[|hs| - 1]) != j
    ensures QtySum(hs, j) == QtySum(hs[..|hs| - 1], j) && CostSum(hs, j) == CostSum(hs[..|hs| - 1], j)
    ensures LastPrice(hs, j) == LastPrice(hs[..|hs| - 1], j)
  {
  }

  /** Appending a holding adds it to the sums of its own key. */
  lemma {:induction false} SumsOfOwnKey(hs: seq<Holding>)
    requires |hs| > 0
    ensures var h := hs[|hs| - 1];
      QtySum(hs, KeyOf(h)) == QtySum(hs[..|hs| - 1], KeyOf(h)) + h.quantity &&
      CostSum(hs, KeyOf(h)) == CostSum(hs[..|hs| - 1], KeyOf(h)) + Notional(h.quantity, h.avgPrice) &&
      LastPrice(hs, KeyOf(h)) == h.currentPrice
  {
  }

  /** The entry a holding merges into, before the merge, agrees with the sums so far. */
  lemma PriorEntry(init: seq<Holding>, h: Holding, sideAware: bool) returns (e: Entry)
    requires AllPositive(init)
    ensures e == Prior(MergeAll(init, sideAware), h)
    ensures e.side == h.side && e.quantity >= 0.0 && e.quantity == QtySum(init, KeyOf(h)) && Notional(e.quantity, e.avgPrice) == CostSum(init, KeyOf(h))
    decreases |init|, 1
  {
    var k := KeyOf(h);
    var prev := MergeAll(init, sideAware);
    if k in prev {
      e := prev[k];
      MergedEntryMatches(init, sideAware, k);
    } else {
      e := Fresh(h);
      assert Notional(e.quantity, e.avgPrice) == 0.0;
      forall i | 0 <= i < |init| ensures KeyOf(init[i]) != k {
        assert !Occurs(init, k);
      }
      SumsOfAbsentKey(init, k);
    }
  }

  /**
   * With positive quantities, each merged entry holds the total quantity and
   * total cost of its coin and side, its average is the quantity-weighted
   * mean.
   */
  lemma {:induction false} MergedEntryMatches(hs: seq<Holding>, sideAware: bool, k: Key)
    requires AllPositive(hs) && k in MergeAll(hs, sideAware)
    ensures EntryMatches(hs, MergeAll(hs, sideAware)[k], k, sideAware)
    decreases |hs|, 0
  {
    var init := hs[..|hs| - 1];
    var h := hs[|hs| - 1];
    assert AllPositive(init) by {
      assert forall i :: 0 <= i < |init| ==> init[i] == hs[i];
    }
    var prev := MergeAll(init, sideAware);
    if KeyOf(h) == k {
      var e := PriorEntry(init, h, sideAware);
      SumsOfOwnKey(hs);
      assert h.quantity > 0.0;
      OwnLookup(hs, sideAware);
      MergeMatches(init, hs, e, h, sideAware);
    } else {
      SumsOfOtherKey(hs, k);
      KeysOfPrefix(hs);
      assert k in prev;
      MergedEntryMatches(init, sideAware, k);
      assert MergeAll(hs, sideAware)[k] == prev[k];
    }
  }

  lemma MergeMatches(init: seq<Holding>, hs: seq<Holding>, e: Entry, h: Holding, sideAware: bool)
    requires e.side == h.side && e.quantity >= 0.0 && h.quantity > 0.0
    requires e.quantity == QtySum(init, KeyOf(h)) && Notional(e.quantity, e.avgPrice) == CostSum(init, KeyOf(h))
    requires QtySum(hs, KeyOf(h)) == QtySum(init, KeyOf(h)) + h.quantity
    requires CostSum(hs, KeyOf(h)) == CostSum(init, KeyOf(h)) + Notional(h.quantity, h.avgPrice)
    ensures EntryMatches(hs, Merge(e, h, sideAware), KeyOf(h), sideAware)
  {
  }

  predicate PnlMatches(hs: seq<Holding>, e: Entry, k: Key, sideAware: bool)
  {
    e.pnl == Signed(k.1, sideAware, Notional(e.quantity, LastPrice(hs, k)) - e.totalCost)
  }

  /** The entry a holding merges into takes its profit at that holding's price. */
  lemma PnlAtOwnKey(hs: seq<Holding>, sideAware: bool)
    requires AllPositive(hs) && |hs| > 0
    ensures PnlMatches(hs, MergeAll(hs, sideAware)[KeyOf(hs[|hs| - 1])], KeyOf(hs[|hs| - 1]), sideAware)
  {
    var init := hs[..|hs| - 1];
    var h := hs[|hs| - 1];
    assert AllPositive(init) by {
      assert forall i :: 0 <= i < |init| ==> init[i] == hs[i];
    }
    var e := PriorEntry(init, h, sideAware);
    SumsOfOwnKey(hs);
    assert h.quantity > 0.0;
    OwnLookup(hs, sideAware);
    MergePnlMatches(hs, e, h, sideAware);
  }

  lemma MergePnlMatches(hs: seq<Holding>, e: Entry, h: Holding, sideAware: bool)
    requires e.side == h.side && e.quantity >= 0.0 && h.quantity > 0.0
    requires LastPrice(hs, KeyOf(h)) == h.currentPrice
    ensures PnlMatches(hs, Merge(e, h, sideAware), KeyOf(h), sideAware)
  {
  }

  /** Each merged entry's profit is its merged quantity and cost valued at the last holding's price. */
  lemma {:induction false} MergedPnl(hs: seq<Holding>, sideAware: bool, k: Key)
    requires AllPositive(hs) && k in MergeAll(hs, sideAware)
    ensures PnlMatches(hs, MergeAll(hs, sideAware)[k], k, sideAware)
    decreases |hs|, 1
  {
    if KeyOf(hs[|hs| - 1]) == k {
      PnlAtOwnKey(hs, sideAware);
    } else {
      PnlAtOtherKey(hs, sideAware, k);
    }
  }

  /** A later holding of another coin or side leaves an entry and its profit alone. */
  lemma {:induction false} PnlAtOtherKey(hs: seq<Holding>, sideAware: bool, k: Key)
    requires AllPositive(hs) && k in MergeAll(hs, sideAware) && KeyOf(hs[|hs| - 1]) != k
    ensures PnlMatches(hs, MergeAll(hs, sideAware)[k], k, sideAware)
    decreases |hs|, 0
  {
    var init := hs[..|hs| - 1];
    assert AllPositive(init) by {
      assert forall i :: 0 <= i < |init| ==> init[i] == hs[i];
    }
    KeysOfPrefix(hs);
    assert k in MergeAll(init, sideAware);
    var e := MergeAll(hs, sideAware)[k];
    assert e == MergeAll(init, sideAware)[k];
    MergedPnl(init, sideAware, k);
    SumsOfOtherKey(hs, k);
    PnlMatchesTransfer(init, hs, e, k, sideAware);
  }

  lemma PnlMatchesTransfer(a: seq<Holding>, b: seq<Holding>, e: Entry, k: Key, sideAware: bool)
    requires PnlMatches(a, e, k, sideAware) && LastPrice(a, k) == LastPrice(b, k)
    ensures PnlMatches(b, e, k, sideAware)
  {
  }

  /** A holding's own profit, written as its value at the current price less its cost. */
  lemma HoldingPnlSigned(h: Holding)
    ensures HoldingPnl(h) == Signed(h.side, true, Notional(h.quantity, h.currentPrice) - Notional(h.quantity, h.avgPrice))
  {
  }

  /** The profit of a key's holdings, when they share one price, is that price against the merged cost. */
  lemma {:induction false} PnlSumLinear(hs: seq<Holding>, k: Key, c: real)
    requires forall i :: 0 <= i < |hs| && KeyOf(hs[i]) == k ==> hs[i].currentPrice == c
    ensures PnlSum(hs, k) == Signed(k.1, true, Notional(QtySum(hs, k), c) - CostSum(hs, k))
  {
    if |hs| > 0 {
      var init := hs[..|hs| - 1];
      var h := hs[|hs| - 1];
      assert forall i :: 0 <= i < |init| ==> init[i] == hs[i];
      PnlSumLinear(init, k, c);
      if KeyOf(h) == k {
        HoldingPnlSigned(h);
        assert Notional(QtySum(hs, k), c) == Notional(QtySum(init, k), c) + Notional(h.quantity, c);
      }
    }
  }

  lemma {:induction false} LastPriceIsAPrice(hs: seq<Holding>, k: Key)
    requires exists i :: 0 <= i < |hs| && KeyOf(hs[i]) == k
    ensures exists i :: 0 <= i < |hs| && KeyOf(hs[i]) == k && hs[i].currentPrice == LastPrice(hs, k)
  {
    var n := |hs| - 1;
    if KeyOf(hs[n]) != k {
      var init := hs[..n];
      var i :| 0 <= i < |hs| && KeyOf(hs[i]) == k;
      assert init[i] == hs[i];
      LastPriceIsAPrice(init, k);
      var j :| 0 <= j < |init| && KeyOf(init[j]) == k && init[j].currentPrice == LastPrice(init, k);
      assert hs[j] == init[j];
    }
  }

  /**
   * The corrected aggregation reports, for every coin and side, exactly the
   * sum of the individual holdings' profits, when all holdings of a coin
   * share its market price and quantities are positive.
   */
  lemma CorrectedPnlIsSum(hs: seq<Holding>, k: Key)
    requires AllPositive(hs) && SamePrice(hs)
    requires k in MergeAll(hs, true)
    ensures MergeAll(hs, true)[k].pnl == PnlSum(hs, k)
  {
    var e := MergeAll(hs, true)[k];
    MergedEntryMatches(hs, true, k);
    MergedPnl(hs, true, k);
    PnlSumAtLastPrice(hs, k);
    EntryPnlIsSum(hs, e, k);
  }

  predicate PnlSumAtLast(hs: seq<Holding>, k: Key)
  {
    PnlSum(hs, k) == Signed(k.1, true, Notional(QtySum(hs, k), LastPrice(hs, k)) - CostSum(hs, k))
  }

  lemma EntryPnlIsSum(hs: seq<Holding>, e: Entry, k: Key)
    requires EntryMatches(hs, e, k, true) && PnlMatches(hs, e, k, true) && PnlSumAtLast(hs, k)
    ensures e.pnl == PnlSum(hs, k)
  {
  }

  /** When a coin has one market price, its holdings' profits add up to the merged quantity and cost at the last price. */
  lemma PnlSumAtLastPrice(hs: seq<Holding>, k: Key)
    requires SamePrice(hs) && Occurs(hs, k)
    ensures PnlSumAtLast(hs, k)
  {
    LastPriceIsAPrice(hs, k);
    PnlSumLinear(hs, k, LastPrice(hs, k));
  }


  lemma SingleHolding(h: Holding, sideAware: bool)
    requires h.quantity > 0.0
    ensures MergeAll([h], sideAware) == map[KeyOf(h) := Merge(Fresh(h), h, sideAware)]
  {
    assert [h][..0] == [];
  }

  /** A first holding merged into a fresh entry keeps its own quantity and average price. */
  lemma MergeIntoFresh(h: Holding, sideAware: bool)
    requires h.quantity > 0.0
    ensures var r := Merge(Fresh(h), h, sideAware);
      r.quantity == h.quantity && r.avgPrice == h.avgPrice &&
      r.pnl == Signed(h.side, sideAware, Notional(h.quantity, h.currentPrice) - Notional(h.quantity, h.avgPrice))
  {
    var r := Merge(Fresh(h), h, sideAware);
    assert Notional(h.quantity, r.avgPrice) == Notional(h.quantity, h.avgPrice);
    assert h.quantity * (r.avgPrice - h.avgPrice) == 0.0;
  }

  /** As written, a profitable short is reported as a loss: bought back at 90 after selling at 100. */
  lemma ShortProfitReportedAsLoss()
    ensures MergeAll([Holding("BTC", Engine.Short, 1.0, 100.0, 1, 90.0)], false)[("BTC", Engine.Short)].pnl == -10.0
  {
    var h := Holding("BTC", Engine.Short, 1.0, 100.0, 1, 90.0);
    SingleHolding(h, false);
    MergeIntoFresh(h, false);
    assert Notional(1.0, 90.0) - Notional(1.0, 100.0) == -10.0;
  }

  /** The corrected view reports the same short's actual profit. */
  lemma CorrectedShortProfit()
    ensures MergeAll([Holding("BTC", Engine.Short, 1.0, 100.0, 1, 90.0)], true)[("BTC", Engine.Short)].pnl == 10.0
  {
    var h := Holding("BTC", Engine.Short, 1.0, 100.0, 1, 90.0);
    SingleHolding(h, true);
    MergeIntoFresh(h, true);
    assert Notional(1.0, 90.0) - Notional(1.0, 100.0) == -10.0;
  }

  /* ---------- Leaderboard ---------- */

  /** A model's row: its starting capital and, when its portfolio reports one, its current total value. */
  datatype ModelRecord = ModelRecord(id: int, name: string, initialCapital: real, totalValue: Option<real>)

  datatype Standing = Standing(modelId: int, name: string, accountValue: real, returnPct: real, initialCapital: real)

  /** The model's return in percent; a zero starting capital raises ZeroDivisionError. */
  function StandingFor(m: ModelRecord): (r: Result<Standing>)
    ensures r.Failure? <==> m.initialCapital == 0.0
    ensures r.Ok? ==> r.value.modelId == m.id && r.value.initialCapital == m.initialCapital
    ensures r.Ok? && m.totalValue.None? ==> r.value.returnPct == 0.0 && r.value.accountValue == m.initialCapital
    ensures r.Ok? && m.totalValue.Some? ==> r.value.accountValue == m.totalValue.value
    ensures r.Ok? ==> r.value.returnPct * m.initialCapital == (r.value.accountValue - m.initialCapital) * 100.0
    ensures r.Ok? && m.initialCapital > 0.0 ==> (r.value.returnPct > 0.0 <==> r.value.accountValue > m.initialCapital)
  {
    if m.initialCapital == 0.0 then Failure("division by zero")
    else
      var value := if m.totalValue.Some? then m.totalValue.value else m.initialCapital;
      var gain := value - m.initialCapital;
      ReturnSign(gain, m.initialCapital);
      Ok(Standing(m.id, m.name, value, gain / m.initialCapital * 100.0, m.initialCapital))
  }

  lemma ReturnSign(gain: real, capital: real)
    ensures capital > 0.0 ==> (gain / capital * 100.0 > 0.0 <==> gain > 0.0)
  {
    if capital > 0.0 {
      DivCompare(gain, capital, 0.0);
    }
  }

  predicate SortedByReturns(s: seq<Standing>)
  {
    forall i, j :: 0 <= i < j < |s| ==> s[i].returnPct >= s[j].returnPct
  }

  lemma SortedCons(a: Standing, t: seq<Standing>)
    requires SortedByReturns(t) && forall i :: 0 <= i < |t| ==> a.returnPct >= t[i].returnPct
    ensures SortedByReturns([a] + t)
  {
  }

  /** Place a standing after every one with at least its return, so earlier equals stay first. */
  function InsertByReturns(x: Standing, s: seq<Standing>): (r: seq<Standing>)
    requires SortedByReturns(s)
    ensures SortedByReturns(r)
    ensures forall i :: 0 <= i < |r| ==> r[i] == x || r[i] in s
    ensures multiset(r) == multiset(s) + multiset{x}
  {
    if |s| == 0 then [x]
    else if s[0].returnPct >= x.returnPct then
      var rest := InsertByReturns(x, s[1..]);
      InsertBehindHead(x, s, rest);
      [s[0]] + rest
    else
      SortedCons(x, s);
      [x] + s
  }

  /** Keeping the head in front of the insertion into the tail preserves the three promises. */
  lemma InsertBehindHead(x: Standing, s: seq<Standing>, rest: seq<Standing>)
    requires |s| > 0 && SortedByReturns(s) && s[0].returnPct >= x.returnPct
    requires SortedByReturns(rest)
    requires forall i :: 0 <= i < |rest| ==> rest[i] == x || rest[i] in s[1..]
    requires multiset(rest) == multiset(s[1..]) + multiset{x}
    ensures SortedByReturns([s[0]] + rest)
    ensures forall i :: 0 <= i < |[s[0]] + rest| ==> ([s[0]] + rest)[i] == x || ([s[0]] + rest)[i] in s
    ensures multiset([s[0]] + rest) == multiset(s) + multiset{x}
  {
    assert s == [s[0]] + s[1..];
    forall i | 0 <= i < |rest|
      ensures s[0].returnPct >= rest[i].returnPct
    {
      if rest[i] != x {
        var j :| 0 <= j < |s[1..]| && s[1..][j] == rest[i];
        assert s[j + 1] == rest[i];
      }
    }
    SortedCons(s[0], rest);
  }

  /** A stable sort by return, highest first. */
  function SortByReturns(s: seq<Standing>): (r: seq<Standing>)
    ensures SortedByReturns(r)
    ensures multiset(r) == multiset(s)
  {
    if |s| == 0 then []
    else
      assert s == s[..|s| - 1] + [s[|s| - 1]];
      InsertByReturns(s[|s| - 1], SortByReturns(s[..|s| - 1]))
  }

  function Standings(ms: seq<ModelRecord>): (r: Result<seq<Standing>>)
    ensures r.Ok? <==> forall i :: 0 <= i < |ms| ==> ms[i].initialCapital != 0.0
    ensures r.Ok? ==> |r.value| == |ms| && forall i :: 0 <= i < |ms| ==> r.value[i] == StandingFor(ms[i]).value
  {
    if |ms| == 0 then Ok([])
    else
      var init := Standings(ms[..|ms| - 1]);
      var last := StandingFor(ms[|ms| - 1]);
      assert forall i :: 0 <= i < |ms| - 1 ==> ms[..|ms| - 1][i] == ms[i];
      if init.Failure? then init
      else if last.Failure? then Failure(last.error)
      else Ok(init.value + [last.value])
  }

  /** The leaderboard: every model once, highest return first; one model with zero capital fails the request. */
  function Leaderboard(ms: seq<ModelRecord>): (r: Result<seq<Standing>>)
    ensures r.Ok? <==> forall i :: 0 <= i < |ms| ==> ms[i].initialCapital != 0.0
    ensures r.Ok? ==> SortedByReturns(r.value) && multiset(r.value) == multiset(Standings(ms).value)
  {
    var s := Standings(ms);
    if s.Failure? then Failure(s.error) else Ok(SortByReturns(s.value))
  }

  /** Every model appears on the leaderboard, and the leader has the best return. */
  lemma LeaderHasBestReturn(ms: seq<ModelRecord>, i: nat)
    requires Leaderboard(ms).Ok? && i < |ms|
    ensures StandingFor(ms[i]).value in Leaderboard(ms).value
    ensures Leaderboard(ms).value[0].returnPct >= StandingFor(ms[i]).value.returnPct
  {
    var board := Leaderboard(ms).value;
    var st := Standings(ms).value;
    assert st[i] in multiset(st);
    assert StandingFor(ms[i]).value in multiset(board);
    var j :| 0 <= j < |board| && board[j] == StandingFor(ms[i]).value;
  }
}

=== FILE: engine.dfy ===
/**
 * The simulated trading engine: it dispatches the model's per-coin
 * decisions to ledger mutations and mirrors them to the live executor.
 *
 * The database is not modelled: a step reads a portfolio snapshot and
 * returns the ledger calls it issues (position updates, position closes,
 * trade records), in order.
 */
module Engine {
  import opened Common
  import Risk
  import Executor

  datatype Side = Long | Short

  /** An open position as the portfolio snapshot lists it. */
  datatype LedgerPosition = LedgerPosition(coin: string, quantity: real, avgPrice: real, leverage: int, side: Side)

  datatype Portfolio = Portfolio(cash: real, positions: seq<LedgerPosition>)

  /** One decision of the model for a coin; absent keys are None (signal '' when absent). */
  datatype Decision = Decision(signal: string, quantity: Option<real>, leverage: Option<real>, confidence: Option<real>)

  datatype TradeKind = BuyToEnter | SellToEnter | CloseTrade

  datatype Trade = Trade(coin: string, kind: TradeKind, quantity: real, price: real, leverage: int, side: Side, pnl: real, fee: real)

  datatype LedgerCall =
    | UpdatePosition(coin: string, quantity: real, price: real, leverage: int, side: Side)
    | ClosePosition(coin: string, side: Side)
    | AddTrade(trade: Trade)

  datatype EngineResult =
    | Opened(trade: Trade)
    | ClosedPosition(trade: Trade)
    | Held
    | Error(message: string)

  datatype Step = Step(result: EngineResult, calls: seq<LedgerCall>)

  /* ---------- Opening ---------- */

  /** Margin plus the fee on the notional: what an opening trade must find in cash. */
  function Required(quantity: real, price: real, leverage: int, feeRate: real): real
    requires leverage != 0
  {
    quantity * price / (leverage as real) + quantity * price * feeRate
  }

  /** The record of an opening trade: no realised result yet, the fee charged on the notional. */
  function OpeningTrade(coin: string, quantity: real, price: real, leverage: int, side: Side, feeRate: real): (t: Trade)
    ensures t.pnl == 0.0 && t.fee == quantity * price * feeRate
    ensures t.kind == (if side == Long then BuyToEnter else SellToEnter) && t.side == side
  {
    Trade(coin, if side == Long then BuyToEnter else SellToEnter, quantity, price, leverage, side, 0.0, quantity * price * feeRate)
  }

  /** The leverage a decision asks for: `int()` of the given number, 1 when absent. */
  function LeverageOf(d: Decision): int
  {
    if d.leverage.Some? then Trunc(d.leverage.value) else 1
  }

  /**
   * Open a long (buy_to_enter) or a short (sell_to_enter). The price is
   * read before the quantity check, so an unpriced coin raises first; a zero
   * leverage raises on the margin division.
   */
  function Open(coin: string, d: Decision, market: map<string, real>, portfolio: Portfolio, feeRate: real, side: Side): (s: Step)
    ensures s.result.Error? <==> s.calls == []
    ensures s.result.Error? || s.result.Opened?
    ensures coin in market && (d.quantity.None? || d.quantity.value <= 0.0) ==> s.result.Error?
    ensures s.result.Opened? ==> (coin in market && d.quantity.Some? &&
      var q, p, lev := d.quantity.value, market[coin], s.result.trade.leverage;
      lev != 0 && q > 0.0 && Required(q, p, lev, feeRate) <= portfolio.cash &&
      s.result.trade == OpeningTrade(coin, q, p, lev, side, feeRate) &&
      s.calls == [UpdatePosition(coin, q, p, lev, side), AddTrade(s.result.trade)])
    ensures s.result.Opened? ==> s.result.trade.leverage == LeverageOf(d)
    ensures coin !in market ==> s.result.Error?
    ensures (coin in market && d.quantity.Some? && d.quantity.value > 0.0 && LeverageOf(d) != 0 &&
             Required(d.quantity.value, market[coin], LeverageOf(d), feeRate) <= portfolio.cash) ==> s.result.Opened?
    ensures coin in market && d.quantity.Some? && d.quantity.value > 0.0 && LeverageOf(d) == 0 ==> s.result.Error?
  {
    var quantity := if d.quantity.Some? then d.quantity.value else 0.0;
    var leverage := LeverageOf(d);
    if coin !in market then Step(Error("KeyError: " + coin), [])
    else
      var price := market[coin];
      if quantity <= 0.0 then Step(Error("Invalid quantity"), [])
      else if leverage == 0 then Step(Error("division by zero"), [])
      else if Required(quantity, price, leverage, feeRate) > portfolio.cash then
        Step(Error("Insufficient cash (including fees)"), [])
      else
        var trade := OpeningTrade(coin, quantity, price, leverage, side, feeRate);
        Step(Opened(trade), [UpdatePosition(coin, quantity, price, leverage, side), AddTrade(trade)])
  }

  /** The cash check never depends on the side: a short needs exactly what a long needs. */
  lemma OpenSidesNeedSameCash(coin: string, d: Decision, market: map<string, real>, portfolio: Portfolio, feeRate: real)
    ensures Open(coin, d, market, portfolio, feeRate, Long).result.Error? <==>
            Open(coin, d, market, portfolio, feeRate, Short).result.Error?
  {
  }

  /* ---------- Closing ---------- */

  /** The first listed position for the coin, whatever its side. */
  function FirstPosition(positions: seq<LedgerPosition>, coin: string): (r: Option<nat>)
    ensures r.None? <==> forall i :: 0 <= i < |positions| ==> positions[i].coin != coin
    ensures r.Some? ==> (r.value < |positions| && positions[r.value].coin == coin &&
      forall i :: 0 <= i < r.value ==> positions[i].coin != coin)
  {
    if |positions| == 0 then None
    else if positions[0].coin == coin then Some(0)
    else
      var rest := FirstPosition(positions[1..], coin);
      assert forall i :: 1 <= i < |positions| ==> positions[1..][i - 1] == positions[i];
      if rest.None? then None else Some(rest.value + 1)
  }

  /** Profit before fees: a long gains from a rise, a short from a fall. */
  function GrossPnl(p: LedgerPosition, exit: real): real
  {
    if p.side == Long then (exit - p.avgPrice) * p.quantity else (p.avgPrice - exit) * p.quantity
  }

  /** The record of a closing trade: the gross result less the fee on the exit notional. */
  function ClosingTrade(coin: string, p: LedgerPosition, exit: real, feeRate: real): (t: Trade)
    ensures t.fee == p.quantity * exit * feeRate && t.pnl == GrossPnl(p, exit) - t.fee
    ensures t.kind == CloseTrade && t.side == p.side && t.quantity == p.quantity && t.price == exit
  {
    var fee := p.quantity * exit * feeRate;
    Trade(coin, CloseTrade, p.quantity, exit, p.leverage, p.side, GrossPnl(p, exit) - fee, fee)
  }

  function Close(coin: string, market: map<string, real>, portfolio: Portfolio, feeRate: real): (s: Step)
    ensures s.result.Error? <==> s.calls == []
    ensures s.result.Error? || s.result.ClosedPosition?
    ensures FirstPosition(portfolio.positions, coin).None? ==> s.result.Error?
    ensures s.result.ClosedPosition? ==> (coin in market && FirstPosition(portfolio.positions, coin).Some? &&
      var p := portfolio.positions[FirstPosition(portfolio.positions, coin).value];
      s.result.trade == ClosingTrade(coin, p, market[coin], feeRate) &&
      s.calls == [ClosePosition(coin, p.side), AddTrade(s.result.trade)])
    ensures FirstPosition(portfolio.positions, coin).Some? && coin in market ==> s.result.ClosedPosition?
    ensures coin !in market ==> s.result.Error?
  {
    match FirstPosition(portfolio.positions, coin)
    case None => Step(Error("Position not found"), [])
    case Some(i) =>
      if coin !in market then Step(Error("KeyError: " + coin), [])
      else
        var p, price := portfolio.positions[i], market[coin];
        assert FirstPosition(portfolio.positions, coin).value == i;
        var trade := ClosingTrade(coin, p, price, feeRate);
        Step(ClosedPosition(trade), [ClosePosition(coin, p.side), AddTrade(trade)])
  }

  /** Opening a position and closing it at the entry price loses exactly the two fees. */
  lemma RoundTripCostsFees(coin: string, d: Decision, price: real, cash: real, feeRate: real, side: Side)
    requires Open(coin, d, map[coin := price], Portfolio(cash, []), feeRate, side).result.Opened?
    ensures var t := Open(coin, d, map[coin := price], Portfolio(cash, []), feeRate, side).result.trade;
      var held := LedgerPosition(coin, t.quantity, t.price, t.leverage, side);
      var c := Close(coin, map[coin := price], Portfolio(cash, [held]), feeRate).result;
      c.ClosedPosition? && t.fee + c.trade.fee == 2.0 * t.fee && t.pnl + c.trade.pnl == -t.fee
  {
  }

  /** A long and a short of the same size and entry book opposite gross results. */
  lemma GrossPnlAntisymmetric(p: LedgerPosition, exit: real)
    ensures GrossPnl(p.(side := Long), exit) == -GrossPnl(p.(side := Short), exit)
  {
  }

  /* ---------- Signals ---------- */

  function LowerChar(c: char): char
  {
    if 'A' <= c <= 'Z' then (c as int + 32) as char else c
  }

  /** Python's `str.lower()` on ASCII letters. */
  function Lower(s: string): (r: string)
    ensures |r| == |s| && forall i :: 0 <= i < |s| ==> r[i] == LowerChar(s[i])
  {
    seq(|s|, i requires 0 <= i < |s| => LowerChar(s[i]))
  }

  /** The live action for a simulated signal: entering long buys; entering short and closing both sell. */
  function ConvertToLiveAction(signal: string): (a: Action)
    ensures a == Buy <==> signal == "buy_to_enter"
    ensures a == Sell <==> signal == "sell_to_enter" || signal == "close_position"
  {
    if signal == "buy_to_enter" then Buy
    else if signal == "sell_to_enter" then Sell
    else if signal == "close_position" then Sell
    else Hold
  }

  function Dispatch(coin: string, d: Decision, market: map<string, real>, portfolio: Portfolio, feeRate: real): (s: Step)
    ensures s.result.Error? || s.result.Held? ==> s.calls == []
    ensures s.result.Opened? || s.result.ClosedPosition? ==> |s.calls| == 2
    ensures s.result == Held <==> Lower(d.signal) == "hold"
    ensures s.result.Opened? ==> Lower(d.signal) in {"buy_to_enter", "sell_to_enter"}
    ensures s.result.ClosedPosition? ==> Lower(d.signal) == "close_position"
    ensures Lower(d.signal) == "buy_to_enter" ==> s == Open(coin, d, market, portfolio, feeRate, Long)
    ensures Lower(d.signal) == "sell_to_enter" ==> s == Open(coin, d, market, portfolio, feeRate, Short)
    ensures Lower(d.signal) == "close_position" ==> s == Close(coin, market, portfolio, feeRate)
    ensures Lower(d.signal) !in {"buy_to_enter", "sell_to_enter", "close_position", "hold"} ==>
      s == Step(Error("Unknown signal: " + Lower(d.signal)), [])
  {
    var signal := Lower(d.signal);
    if signal == "buy_to_enter" then Open(coin, d, market, portfolio, feeRate, Long)
    else if signal == "sell_to_enter" then Open(coin, d, market, portfolio, feeRate, Short)
    else if signal == "close_position" then Close(coin, market, portfolio, feeRate)
    else if signal == "hold" then Step(Held, [])
    else Step(Error("Unknown signal: " + signal), [])
  }

  /** The signal is read case-insensitively: re-casing it never changes the step. */
  lemma DispatchIgnoresCase(coin: string, d: Decision, market: map<string, real>, portfolio: Portfolio, feeRate: real)
    ensures Dispatch(coin, d.(signal := Lower(d.signal)), market, portfolio, feeRate) == Dispatch(coin, d, market, portfolio, feeRate)
  {
    assert Lower(Lower(d.signal)) == Lower(d.signal);
  }

  /* ---------- Live mirroring ---------- */

  /**
   * The live confidence as written: `int(confidence)`, 75 when absent. The
   * model's decisions carry confidence as a fraction (0.75), which truncates to 0.
   */
  function LiveConfidenceAsWritten(confidence: Option<real>): (c: int)
    ensures confidence.Some? && 0.0 <= confidence.value < 1.0 ==> c == 0
    ensures confidence.Some? && confidence.value >= 0.0 ==> (c as real) <= confidence.value < (c as real) + 1.0
    ensures confidence.None? ==> c == 75
  {
    if confidence.Some? then Trunc(confidence.value) else 75
  }

  /** A fractional confidence scaled to the executor's percentage scale. */
  function LiveConfidence(confidence: Option<real>): (c: int)
    ensures confidence.Some? && confidence.value >= 0.0 ==>
      (c as real) <= 100.0 * confidence.value < (c as real) + 1.0
    ensures confidence.None? ==> c == 75
  {
    if confidence.Some? then Trunc(100.0 * confidence.value) else 75
  }

  /** How the model is wired to an exchange; an empty exchange id is an unset one. */
  datatype LiveSetup = LiveSetup(
    executor: Option<Executor.State>,
    liveEnabled: bool,
    exchangeId: string,
    symbol: string,
    exchanges: map<string, Executor.Exchange>)

  datatype LiveResult = NotConfigured | Executed(outcome: Executor.Outcome)

  /** The live signal for a decision, as written: the confidence goes through `int()` unscaled. */
  function LiveSignalFor(signal: string, d: Decision): (sig: Executor.LiveSignal)
    ensures sig.action == ConvertToLiveAction(signal)
    ensures sig.confidence == LiveConfidenceAsWritten(d.confidence) as real
  {
    Executor.LiveSignal(ConvertToLiveAction(signal), LiveConfidenceAsWritten(d.confidence) as real)
  }

  /** The live signal with the confidence scaled to a percentage. */
  function LiveSignalForCorrected(signal: string, d: Decision): (sig: Executor.LiveSignal)
    ensures sig.action == ConvertToLiveAction(signal)
    ensures sig.confidence == LiveConfidence(d.confidence) as real
  {
    Executor.LiveSignal(ConvertToLiveAction(signal), LiveConfidence(d.confidence) as real)
  }

  /**
   * Mirror a simulated trade to the exchange, as written; None when live
   * trading is off, a not-configured answer without an exchange id.
   */
  function LiveTrade(setup: LiveSetup, signal: string, d: Decision): (r: (Option<LiveResult>, LiveSetup))
    ensures setup.executor.None? || !setup.liveEnabled ==> r == (None, setup)
    ensures setup.executor.Some? && setup.liveEnabled && setup.exchangeId == "" ==> r == (Some(NotConfigured), setup)
    ensures r.1.executor.Some? <==> setup.executor.Some?
    ensures r.0.Some? && r.0.value.Executed? ==> (setup.executor.Some? &&
      r.0.value.outcome == Executor.ExecuteSignal(setup.executor.value, setup.exchanges, setup.exchangeId, setup.symbol,
                                                  Executor.LiveSignal(ConvertToLiveAction(signal), LiveConfidenceAsWritten(d.confidence) as real)) &&
      r.1.executor.value.history == r.0.value.outcome.history)
    ensures !(r.0.Some? && r.0.value.Executed?) ==> r.1 == setup
    ensures r.1 == setup.(executor := r.1.executor)
    ensures (r.0.Some? && r.0.value.Executed? && d.confidence.Some? && 0.0 <= d.confidence.value < 1.0 &&
             setup.executor.value.risk.minConfidence > 0.0) ==> !r.0.value.outcome.taken.Bought?
  {
    if setup.executor.None? || !setup.liveEnabled then (None, setup)
    else if setup.exchangeId == "" then (Some(NotConfigured), setup)
    else
      var st := setup.executor.value;
      var o := Executor.ExecuteSignal(st, setup.exchanges, setup.exchangeId, setup.symbol, LiveSignalFor(signal, d));
      (Some(Executed(o)), setup.(executor := Some(st.(history := o.history))))
  }

  /** The live mirror with the confidence scaled and the dry run honoured for closing a short. */
  function LiveTradeCorrected(setup: LiveSetup, signal: string, d: Decision): (r: (Option<LiveResult>, LiveSetup))
    ensures setup.executor.None? || !setup.liveEnabled ==> r == (None, setup)
    ensures setup.executor.Some? && setup.liveEnabled && setup.exchangeId == "" ==> r == (Some(NotConfigured), setup)
    ensures r.1.executor.Some? <==> setup.executor.Some?
    ensures r.0.Some? && r.0.value.Executed? ==> (setup.executor.Some? &&
      r.0.value.outcome == Executor.ExecuteSignalCorrected(setup.executor.value, setup.exchanges, setup.exchangeId, setup.symbol,
                                                           Executor.LiveSignal(ConvertToLiveAction(signal), LiveConfidence(d.confidence) as real)) &&
      r.1.executor.value.history == r.0.value.outcome.history)
    ensures !(r.0.Some? && r.0.value.Executed?) ==> r.1 == setup
    ensures r.0.Some? && r.0.value.Executed? && setup.executor.value.dryRun ==>
      Executor.NoMutation(r.0.value.outcome.calls) && r.1 == setup
  {
    if setup.executor.None? || !setup.liveEnabled then (None, setup)
    else if setup.exchangeId == "" then (Some(NotConfigured), setup)
    else
      var st := setup.executor.value;
      var o := Executor.ExecuteSignalCorrected(st, setup.exchanges, setup.exchangeId, setup.symbol, LiveSignalForCorrected(signal, d));
      (Some(Executed(o)), setup.(executor := Some(st.(history := o.history))))
  }

  /** With the confidence truncated as written, no live buy can pass a positive confidence gate. */
  lemma FractionalConfidenceNeverBuys(st: Executor.State, exchanges: map<string, Executor.Exchange>,
                                       exchangeId: string, symbol: string, confidence: real)
    requires 0.0 <= confidence < 1.0 && st.risk.minConfidence > 0.0
    ensures var sig := Executor.LiveSignal(Buy, LiveConfidenceAsWritten(Some(confidence)) as real);
      !Executor.ExecuteSignal(st, exchanges, exchangeId, symbol, sig).taken.Bought?
  {
  }

  /** Scaled, a decision at 0.7 or more clears the executor's default 70% gate. */
  lemma ScaledConfidenceClearsDefaultGate(confidence: real)
    requires 0.7 <= confidence
    ensures LiveConfidence(Some(confidence)) as real >= Risk.DefaultRisk.minConfidence
  {
    TruncMonotone(70.0, 100.0 * confidence);
    TruncOfInt(70);
  }

  /* ---------- The decision loop ---------- */

  datatype CoinResult = CoinResult(coin: string, result: EngineResult, live: Option<LiveResult>)

  datatype Cycle = Cycle(results: seq<CoinResult>, calls: seq<LedgerCall>, setup: LiveSetup)

  /** The decisions for the model's own coins, in order: only these get a result. */
  function Listed(coins: seq<string>, decisions: seq<(string, Decision)>): (r: seq<(string, Decision)>)
    ensures |r| <= |decisions|
    ensures forall i :: 0 <= i < |r| ==> r[i].0 in coins && r[i] in decisions
    ensures forall x :: x in r <==> x in decisions && x.0 in coins
  {
    if |decisions| == 0 then []
    else
      var init := decisions[..|decisions| - 1];
      var prefix := Listed(coins, init);
      var last := decisions[|decisions| - 1];
      assert decisions == init + [last];
      prefix + (if last.0 in coins then [last] else [])
  }

  /** The ledger calls of dispatching each listed decision against the same snapshot, concatenated. */
  function LedgerCalls(listed: seq<(string, Decision)>, market: map<string, real>, portfolio: Portfolio,
                       feeRate: real): seq<LedgerCall>
  {
    if |listed| == 0 then []
    else
      var last := listed[|listed| - 1];
      LedgerCalls(listed[..|listed| - 1], market, portfolio, feeRate) + Dispatch(last.0, last.1, market, portfolio, feeRate).calls
  }

  /** Results that changed the ledger. */
  function Mutations(results: seq<CoinResult>): nat
  {
    if |results| == 0 then 0
    else
      var last := results[|results| - 1];
      Mutations(results[..|results| - 1]) + (if last.result.Opened? || last.result.ClosedPosition? then 1 else 0)
  }

  /** One decision for a listed coin: the ledger step, then the live mirror unless it held or failed. */
  function DecisionStep(coin: string, d: Decision, market: map<string, real>, portfolio: Portfolio,
                        feeRate: real, setup: LiveSetup): (r: (CoinResult, seq<LedgerCall>, LiveSetup))
    ensures r.0.coin == coin
    ensures r.0.live.Some? ==> !r.0.result.Held? && !r.0.result.Error?
    ensures |r.1| == if r.0.result.Opened? || r.0.result.ClosedPosition? then 2 else 0
    ensures r.2.executor.Some? <==> setup.executor.Some?
    ensures r.2 == setup.(executor := r.2.executor)
    ensures r.0.result == Dispatch(coin, d, market, portfolio, feeRate).result
    ensures r.1 == Dispatch(coin, d, market, portfolio, feeRate).calls
    ensures Lower(d.signal) != "hold" && !r.0.result.Error? ==> (r.0.live, r.2) == LiveTrade(setup, Lower(d.signal), d)
    ensures Lower(d.signal) == "hold" || r.0.result.Error? ==> r.0.live.None? && r.2 == setup
  {
    var s := Dispatch(coin, d, market, portfolio, feeRate);
    var signal := Lower(d.signal);
    if signal != "hold" && !s.result.Error? then
      var live := LiveTrade(setup, signal, d);
      (CoinResult(coin, s.result, live.0), s.calls, live.1)
    else (CoinResult(coin, s.result, None), s.calls, setup)
  }

  lemma MutationsAppend(results: seq<CoinResult>, r: CoinResult)
    ensures Mutations(results + [r]) == Mutations(results) + (if r.result.Opened? || r.result.ClosedPosition? then 1 else 0)
  {
    assert (results + [r])[..|results|] == results;
  }

  /**
   * Process the decisions in order against one portfolio snapshot (the
   * snapshot is not refreshed between coins), mirroring every result that
   * is neither a hold nor an error to the live executor. The exchange is
   * read afresh for each mirrored decision: `answersAt(i)` is what it
   * reports when the i-th decision of the cycle is mirrored.
   */
  function ExecuteDecisions(coins: seq<string>, decisions: seq<(string, Decision)>, market: map<string, real>,
                            portfolio: Portfolio, feeRate: real, setup: LiveSetup,
                            answersAt: nat -> map<string, Executor.Exchange>): (c: Cycle)
    ensures forall i :: 0 <= i < |c.results| ==> Recorded(coins, c.results[i])
    ensures ResultsFollow(c.results, Listed(coins, decisions), market, portfolio, feeRate)
    ensures c.calls == LedgerCalls(Listed(coins, decisions), market, portfolio, feeRate)
    ensures |c.calls| == 2 * Mutations(c.results)
    ensures c.setup.executor.Some? <==> setup.executor.Some?
    ensures c.setup.liveEnabled == setup.liveEnabled && c.setup.exchangeId == setup.exchangeId && c.setup.symbol == setup.symbol
    ensures setup.executor.None? || !setup.liveEnabled ==> Offline(c.results)
  {
    if |decisions| == 0 then Cycle([], [], setup)
    else
      var prev := ExecuteDecisions(coins, decisions[..|decisions| - 1], market, portfolio, feeRate, setup, answersAt);
      var coin, d := decisions[|decisions| - 1].0, decisions[|decisions| - 1].1;
      var before := Listed(coins, decisions[..|decisions| - 1]);
      if coin !in coins then
        assert Listed(coins, decisions) == before;
        prev
      else
        var now := prev.setup.(exchanges := answersAt(|decisions| - 1));
        var step := DecisionStep(coin, d, market, portfolio, feeRate, now);
        assert Listed(coins, decisions) == before + [(coin, d)];
        CycleAppend(coins, before, market, portfolio, feeRate, setup, prev, coin, d, now, step);
        Cycle(prev.results + [step.0], prev.calls + step.1, step.2)
  }

  /**
   * One result per listed decision, in order: the i-th names the i-th
   * listed coin and carries the step that decision gets against the snapshot.
   */
  predicate ResultsFollow(results: seq<CoinResult>, listed: seq<(string, Decision)>, market: map<string, real>,
                          portfolio: Portfolio, feeRate: real)
  {
    |results| == |listed| &&
    forall i :: 0 <= i < |results| ==>
      results[i].coin == listed[i].0 &&
      results[i].result == Dispatch(listed[i].0, listed[i].1, market, portfolio, feeRate).result
  }

  lemma ResultsFollowAppend(results: seq<CoinResult>, listed: seq<(string, Decision)>, r: CoinResult,
                            market: map<string, real>, portfolio: Portfolio, feeRate: real, coin: string, d: Decision)
    requires ResultsFollow(results, listed, market, portfolio, feeRate)
    requires r.coin == coin && r.result == Dispatch(coin, d, market, portfolio, feeRate).result
    ensures ResultsFollow(results + [r], listed + [(coin, d)], market, portfolio, feeRate)
  {
    var rs, ls := results + [r], listed + [(coin, d)];
    assert forall i :: 0 <= i < |results| ==> rs[i] == results[i] && ls[i] == listed[i];
  }

  /** A result row for one of the model's coins, mirrored live only when it neither held nor failed. */
  predicate Recorded(coins: seq<string>, r: CoinResult)
  {
    r.coin in coins && (r.live.Some? ==> !r.result.Held? && !r.result.Error?)
  }

  lemma RecordedAppend(coins: seq<string>, results: seq<CoinResult>, r: CoinResult)
    requires forall i :: 0 <= i < |results| ==> Recorded(coins, results[i])
    requires Recorded(coins, r)
    ensures forall i :: 0 <= i < |results + [r]| ==> Recorded(coins, (results + [r])[i])
  {
  }

  /** No result was mirrored to the exchange. */
  predicate Offline(results: seq<CoinResult>)
  {
    forall i :: 0 <= i < |results| ==> results[i].live.None?
  }

  lemma OfflineAppend(results: seq<CoinResult>, r: CoinResult)
    ensures Offline(results) && r.live.None? ==> Offline(results + [r])
  {
    assert forall i :: 0 <= i < |results| ==> (results + [r])[i] == results[i];
  }

  /** Every ensures of `ExecuteDecisions`, for the cycle `c` over the listed decisions. */
  predicate CycleFollows(coins: seq<string>, listed: seq<(string, Decision)>, market: map<string, real>,
                         portfolio: Portfolio, feeRate: real, setup: LiveSetup, c: Cycle)
  {
    (forall i :: 0 <= i < |c.results| ==> Recorded(coins, c.results[i])) &&
    ResultsFollow(c.results, listed, market, portfolio, feeRate) &&
    c.calls == LedgerCalls(listed, market, portfolio, feeRate) &&
    |c.calls| == 2 * Mutations(c.results) &&
    (c.setup.executor.Some? <==> setup.executor.Some?) &&
    c.setup.liveEnabled == setup.liveEnabled && c.setup.exchangeId == setup.exchangeId && c.setup.symbol == setup.symbol &&
    (setup.executor.None? || !setup.liveEnabled ==> Offline(c.results))
  }

  /** Appending one listed decision's step to a cycle keeps every fact of `CycleFollows`. */
  lemma CycleAppend(coins: seq<string>, before: seq<(string, Decision)>, market: map<string, real>,
                    portfolio: Portfolio, feeRate: real, setup: LiveSetup, prev: Cycle, coin: string, d: Decision,
                    now: LiveSetup, step: (CoinResult, seq<LedgerCall>, LiveSetup))
    requires CycleFollows(coins, before, market, portfolio, feeRate, setup, prev)
    requires coin in coins && now == prev.setup.(exchanges := now.exchanges)
    requires step == DecisionStep(coin, d, market, portfolio, feeRate, now)
    ensures CycleFollows(coins, before + [(coin, d)], market, portfolio, feeRate, setup,
                         Cycle(prev.results + [step.0], prev.calls + step.1, step.2))
  {
    var listed := before + [(coin, d)];
    assert listed[..|listed| - 1] == before;
    assert LedgerCalls(listed, market, portfolio, feeRate) == prev.calls + step.1;
    ResultsFollowAppend(prev.results, before, step.0, market, portfolio, feeRate, coin, d);
    MutationsAppend(prev.results, step.0);
    RecordedAppend(coins, prev.results, step.0);
    OfflineAppend(prev.results, step.0);
  }

  /**
   * The exchange is read afresh for each decision: a mirrored last decision
   * trades against the setup the earlier decisions left behind (their live
   * history included), with the answers the exchange gives at that point.
   */
  lemma LastDecisionRereads(coins: seq<string>, decisions: seq<(string, Decision)>, market: map<string, real>,
                            portfolio: Portfolio, feeRate: real, setup: LiveSetup,
                            answersAt: nat -> map<string, Executor.Exchange>)
    requires |decisions| > 0
    requires var last := decisions[|decisions| - 1];
      last.0 in coins && Lower(last.1.signal) != "hold" && !Dispatch(last.0, last.1, market, portfolio, feeRate).result.Error?
    ensures var c := ExecuteDecisions(coins, decisions, market, portfolio, feeRate, setup, answersAt);
      var prev := ExecuteDecisions(coins, decisions[..|decisions| - 1], market, portfolio, feeRate, setup, answersAt);
      var last := decisions[|decisions| - 1];
      var mirrored := LiveTrade(prev.setup.(exchanges := answersAt(|decisions| - 1)), Lower(last.1.signal), last.1);
      c.results == prev.results + [c.results[|c.results| - 1]] &&
      c.results[|c.results| - 1].live == mirrored.0 && c.setup == mirrored.1
  {
  }
}

=== FILE: executor.dfy ===
/**
 * The live trade executor: it routes a buy / sell / hold signal to an
 * exchange. The exchange is an oracle whose answers are inputs, and every
 * outcome carries the exchange calls that were issued, in order, so that
 * the routing rules (dry-run, no fresh shorts) can be stated about them.
 */
module Executor {
  import opened Common
  import opened Risk

  /** The first position the exchange reports for the symbol; missing keys are None. */
  datatype ExchangePosition = ExchangePosition(side: Option<string>, contracts: Option<real>, entryPrice: Option<real>)

  /** What the exchange answers during one signal; a Failure is the exception the call raised. */
  datatype Exchange = Exchange(
    lastPrice: Result<real>,
    freeUsdt: Result<real>,
    positions: Result<seq<ExchangePosition>>,
    closeResult: Result<string>,
    orderResult: Result<string>)

  datatype Call = FetchTicker | FetchBalance | FetchPositions | ClosePosition | CreateOrder(size: real)

  /** The calls that change the account. */
  predicate Mutating(c: Call)
  {
    c.ClosePosition? || c.CreateOrder?
  }

  predicate NoMutation(calls: seq<Call>)
  {
    forall i :: 0 <= i < |calls| ==> !Mutating(calls[i])
  }

  datatype TradeRecord = TradeRecord(symbol: string, size: real, price: real, orderId: string, confidence: real)

  /** The executor's own state: the mode, the risk limits and the trade history. */
  datatype State = State(dryRun: bool, risk: RiskConfig, history: seq<TradeRecord>)

  /** The signal handed over: an action and a confidence percentage. */
  datatype LiveSignal = LiveSignal(action: Action, confidence: real)

  /** What the executor reports; `Failed` is the only unsuccessful outcome. */
  datatype Taken =
    | Failed
    | Holding                      // plain hold, nothing open
    | Skip
    | BuySimulated(size: real)
    | Bought(orderId: string, size: real)
    | CloseLongSimulated
    | ClosedLong(orderId: string)
    | CloseSimulated(reason: CloseReason)
    | Closed(orderId: string, reason: CloseReason)
    | Monitoring                   // hold with an open position and no exit due

  datatype Outcome = Outcome(taken: Taken, calls: seq<Call>, history: seq<TradeRecord>)

  predicate IsLong(p: ExchangePosition) { p.side == Some("long") }
  predicate IsShort(p: ExchangePosition) { p.side == Some("short") }

  /* ---------- Buy ---------- */

  /**
   * The buy path as the source writes it: an existing short is closed on
   * the exchange before the dry-run test, so a dry run still mutates.
   */
  function ExecuteBuyAsWritten(st: State, ex: Exchange, symbol: string, sig: LiveSignal,
                               price: real, balance: real, existing: Option<ExchangePosition>): (o: Outcome)
    ensures o.taken.Bought? ==> !st.dryRun
    ensures existing.Some? && IsLong(existing.value) ==> o == Outcome(Skip, [], st.history)
    ensures existing.Some? && IsShort(existing.value) ==>
      |o.calls| >= 1 && o.calls[0] == ClosePosition
    ensures existing.Some? && IsShort(existing.value) && ex.closeResult.Failure? ==>
      o.taken == Failed && o.history == st.history
    ensures !(existing.Some? && (IsLong(existing.value) || IsShort(existing.value))) ==>
      o == OpenLong(st, ex, symbol, sig, price, balance)
  {
    if existing.Some? && IsLong(existing.value) then Outcome(Skip, [], st.history)
    else if existing.Some? && IsShort(existing.value) && ex.closeResult.Failure? then
      Outcome(Failed, [ClosePosition], st.history)
    else
      var closing := if existing.Some? && IsShort(existing.value) then [ClosePosition] else [];
      var o := OpenLong(st, ex, symbol, sig, price, balance);
      o.(calls := closing + o.calls)
  }

  /** The buy path with the dry-run test honoured for the closing of a short too. */
  function ExecuteBuy(st: State, ex: Exchange, symbol: string, sig: LiveSignal,
                      price: real, balance: real, existing: Option<ExchangePosition>): (o: Outcome)
    ensures st.dryRun ==> NoMutation(o.calls)
    ensures existing.Some? && IsLong(existing.value) ==> o == Outcome(Skip, [], st.history)
    ensures o.taken.Bought? ==> !st.dryRun && |o.calls| > 0 && o.calls[|o.calls| - 1] == CreateOrder(o.taken.size)
  {
    if existing.Some? && IsLong(existing.value) then Outcome(Skip, [], st.history)
    else if !st.dryRun && existing.Some? && IsShort(existing.value) && ex.closeResult.Failure? then
      Outcome(Failed, [ClosePosition], st.history)
    else
      var closing := if !st.dryRun && existing.Some? && IsShort(existing.value) then [ClosePosition] else [];
      var o := OpenLong(st, ex, symbol, sig, price, balance);
      o.(calls := closing + o.calls)
  }

  /** Size the order and place it, or simulate it in a dry run. */
  function OpenLong(st: State, ex: Exchange, symbol: string, sig: LiveSignal, price: real, balance: real): (o: Outcome)
    ensures st.dryRun ==> o.calls == []
    ensures o.taken.Bought? <==> (!st.dryRun && ex.orderResult.Ok? &&
      var size := PositionSize(st.risk, sig.confidence, price, balance, 0.0);
      size.Ok? && size.value > 0.0)
    ensures o.taken.Bought? ==> (o.calls == [CreateOrder(o.taken.size)] && o.taken.size > 0.0 &&
      o.history == st.history + [TradeRecord(symbol, o.taken.size, price, o.taken.orderId, sig.confidence)])
    ensures !o.taken.Bought? ==> o.history == st.history
    ensures sig.confidence < st.risk.minConfidence ==> o == Outcome(Skip, [], st.history)
  {
    match PositionSize(st.risk, sig.confidence, price, balance, 0.0)
    case Failure(_) => Outcome(Failed, [], st.history)
    case Ok(size) =>
      if size <= 0.0 then Outcome(Skip, [], st.history)
      else if st.dryRun then Outcome(BuySimulated(size), [], st.history)
      else match ex.orderResult
        case Failure(_) => Outcome(Failed, [CreateOrder(size)], st.history)
        case Ok(id) => Outcome(Bought(id, size), [CreateOrder(size)],
                               st.history + [TradeRecord(symbol, size, price, id, sig.confidence)])
  }

  /** Outside a dry run, or without a short to close, the two buy paths coincide. */
  lemma BuyPathsAgree(st: State, ex: Exchange, symbol: string, sig: LiveSignal,
                      price: real, balance: real, existing: Option<ExchangePosition>)
    requires !st.dryRun || existing.None? || !IsShort(existing.value)
    ensures ExecuteBuyAsWritten(st, ex, symbol, sig, price, balance, existing) ==
            ExecuteBuy(st, ex, symbol, sig, price, balance, existing)
  {
  }

  /** A dry-run buy with a short open still asks the exchange to close the short. */
  lemma DryRunBuyClosesShort()
    ensures var st := State(true, DefaultRisk, []);
      var ex := Exchange(Ok(100.0), Ok(1000.0), Ok([]), Ok("close-1"), Ok("order-1"));
      var o := ExecuteBuyAsWritten(st, ex, "BTC/USDT", LiveSignal(Buy, 80.0), 100.0, 1000.0,
                                   Some(ExchangePosition(Some("short"), Some(1.0), Some(90.0))));
      o.calls[0] == ClosePosition && !NoMutation(o.calls)
  {
  }

  /* ---------- Sell and the exit check ---------- */

  /** A sell only ever closes an open long; it never opens a short. */
  function ExecuteSell(st: State, ex: Exchange, existing: Option<ExchangePosition>): (o: Outcome)
    ensures o.history == st.history
    ensures forall i :: 0 <= i < |o.calls| ==> o.calls[i] == ClosePosition
    ensures |o.calls| > 0 <==> existing.Some? && IsLong(existing.value) && !st.dryRun
    ensures o.taken == Skip <==> !(existing.Some? && IsLong(existing.value))
  {
    if existing.Some? && IsLong(existing.value) then
      if st.dryRun then Outcome(CloseLongSimulated, [], st.history)
      else match ex.closeResult
        case Failure(_) => Outcome(Failed, [ClosePosition], st.history)
        case Ok(id) => Outcome(ClosedLong(id), [ClosePosition], st.history)
    else Outcome(Skip, [], st.history)
  }

  /** Hold with an open position: exit when the stop-loss or take-profit level is reached. */
  function CheckExits(st: State, ex: Exchange, position: ExchangePosition, price: real): (o: Outcome)
    ensures o.history == st.history
    ensures forall i :: 0 <= i < |o.calls| ==> o.calls[i] == ClosePosition
    ensures |o.calls| > 0 ==> !st.dryRun
    ensures o.taken == Monitoring <==> ShouldClosePosition(st.risk, OrZero(position.entryPrice), price, IsLong(position)) == Ok(KeepOpen)
  {
    match ShouldClosePosition(st.risk, OrZero(position.entryPrice), price, IsLong(position))
    case Failure(_) => Outcome(Failed, [], st.history)
    case Ok(KeepOpen) => Outcome(Monitoring, [], st.history)
    case Ok(reason) =>
      if st.dryRun then Outcome(CloseSimulated(reason), [], st.history)
      else match ex.closeResult
        case Failure(_) => Outcome(Failed, [ClosePosition], st.history)
        case Ok(id) => Outcome(Closed(id, reason), [ClosePosition], st.history)
  }

  /* ---------- Routing ---------- */

  const Fetches: seq<Call> := [FetchTicker, FetchBalance, FetchPositions]

  /**
   * Route once the ticker, balance and positions are known. A buy takes the
   * path as written, or the corrected one when `corrected` is set.
   */
  function Route(st: State, ex: Exchange, symbol: string, sig: LiveSignal,
                 price: real, balance: real, existing: Option<ExchangePosition>, corrected: bool): (o: Outcome)
    ensures sig.action == Buy ==> o == (if corrected then ExecuteBuy(st, ex, symbol, sig, price, balance, existing)
                                        else ExecuteBuyAsWritten(st, ex, symbol, sig, price, balance, existing))
    ensures sig.action == Sell ==> o == ExecuteSell(st, ex, existing)
    ensures sig.action == Hold && existing.Some? && OrZero(existing.value.contracts) > 0.0 ==>
      o == CheckExits(st, ex, existing.value, price)
    ensures sig.action == Hold && !(existing.Some? && OrZero(existing.value.contracts) > 0.0) ==>
      o == Outcome(Holding, [], st.history)
  {
    match sig.action
    case Buy =>
      if corrected then ExecuteBuy(st, ex, symbol, sig, price, balance, existing)
      else ExecuteBuyAsWritten(st, ex, symbol, sig, price, balance, existing)
    case Sell => ExecuteSell(st, ex, existing)
    case Hold =>
      if existing.Some? && OrZero(existing.value.contracts) > 0.0 then CheckExits(st, ex, existing.value, price)
      else Outcome(Holding, [], st.history)
  }

  /**
   * Fetch the ticker, the balance and the positions, then route. An unknown
   * exchange id fails before any call; a failing fetch ends the signal with
   * a failure after that fetch. The first reported position is the one held.
   */
  function RunSignal(st: State, exchanges: map<string, Exchange>, exchangeId: string,
                     symbol: string, sig: LiveSignal, corrected: bool): (o: Outcome)
    ensures exchangeId !in exchanges ==> o == Outcome(Failed, [], st.history)
    ensures exchangeId in exchanges && o.taken != Failed ==> |o.calls| >= 3 && o.calls[..3] == Fetches
    ensures (exchangeId in exchanges && exchanges[exchangeId].lastPrice.Ok? && exchanges[exchangeId].freeUsdt.Ok? &&
             exchanges[exchangeId].positions.Ok?) ==>
        var ex := exchanges[exchangeId];
        var ps := ex.positions.value;
        var r := Route(st, ex, symbol, sig, ex.lastPrice.value, ex.freeUsdt.value,
                       if |ps| > 0 then Some(ps[0]) else None, corrected);
        o == r.(calls := Fetches + r.calls)
  {
    if exchangeId !in exchanges then Outcome(Failed, [], st.history)
    else
      var ex := exchanges[exchangeId];
      match ex.lastPrice
      case Failure(_) => Outcome(Failed, [FetchTicker], st.history)
      case Ok(price) =>
        match ex.freeUsdt
        case Failure(_) => Outcome(Failed, [FetchTicker, FetchBalance], st.history)
        case Ok(balance) =>
          match ex.positions
          case Failure(_) => Outcome(Failed, Fetches, st.history)
          case Ok(ps) =>
            var existing := if |ps| > 0 then Some(ps[0]) else None;
            var o := Route(st, ex, symbol, sig, price, balance, existing, corrected);
            o.(calls := Fetches + o.calls)
  }

  /**
   * Execute one signal as the source does. In a dry run the history never
   * changes, and the only mutating call is the close of a short by a buy.
   */
  function ExecuteSignal(st: State, exchanges: map<string, Exchange>, exchangeId: string,
                         symbol: string, sig: LiveSignal): (o: Outcome)
    ensures exchangeId !in exchanges ==> o == Outcome(Failed, [], st.history)
    ensures exchangeId in exchanges && o.taken != Failed ==> |o.calls| >= 3 && o.calls[..3] == Fetches
    ensures st.dryRun ==> o.history == st.history
    ensures st.dryRun && !NoMutation(o.calls) ==>
      sig.action == Buy && |o.calls| >= 4 && o.calls[3] == ClosePosition && NoMutation(o.calls[4..])
  {
    DryRunMutatesOnlyByClosing(st, exchanges, exchangeId, symbol, sig);
    RunSignal(st, exchanges, exchangeId, symbol, sig, false)
  }

  /** The dry-run facts of the signal path as written. */
  lemma DryRunMutatesOnlyByClosing(st: State, exchanges: map<string, Exchange>, exchangeId: string,
                                   symbol: string, sig: LiveSignal)
    ensures var o := RunSignal(st, exchanges, exchangeId, symbol, sig, false);
      st.dryRun ==>
        o.history == st.history &&
        (!NoMutation(o.calls) ==>
          sig.action == Buy && |o.calls| >= 4 && o.calls[3] == ClosePosition && NoMutation(o.calls[4..]))
  {
    var o := RunSignal(st, exchanges, exchangeId, symbol, sig, false);
    if st.dryRun && exchangeId in exchanges && sig.action == Buy {
      var ex := exchanges[exchangeId];
      if ex.lastPrice.Ok? && ex.freeUsdt.Ok? && ex.positions.Ok? {
        var ps := ex.positions.value;
        var existing := if |ps| > 0 then Some(ps[0]) else None;
        var b := ExecuteBuyAsWritten(st, ex, symbol, sig, ex.lastPrice.value, ex.freeUsdt.value, existing);
        assert o.calls == Fetches + b.calls;
        if existing.Some? && IsShort(existing.value) && !(existing.Some? && IsLong(existing.value)) {
          assert b.calls[0] == ClosePosition;
          assert o.calls[4..] == b.calls[1..];
        }
      }
    }
  }

  /** Execute one signal with a dry run that never closes anything either. */
  function ExecuteSignalCorrected(st: State, exchanges: map<string, Exchange>, exchangeId: string,
                                  symbol: string, sig: LiveSignal): (o: Outcome)
    ensures exchangeId !in exchanges ==> o == Outcome(Failed, [], st.history)
    ensures exchangeId in exchanges && o.taken != Failed ==> |o.calls| >= 3 && o.calls[..3] == Fetches
    ensures st.dryRun ==> NoMutation(o.calls) && o.history == st.history
  {
    RunSignal(st, exchanges, exchangeId, symbol, sig, true)
  }

  /** Outside a dry run, and for anything but a buy, the two signal paths coincide. */
  lemma SignalPathsAgree(st: State, exchanges: map<string, Exchange>, exchangeId: string, symbol: string, sig: LiveSignal)
    requires !st.dryRun || sig.action != Buy
    ensures ExecuteSignal(st, exchanges, exchangeId, symbol, sig) == ExecuteSignalCorrected(st, exchanges, exchangeId, symbol, sig)
  {
  }

  /** As written, a dry-run buy with a short open sends a close to the exchange. */
  lemma DryRunSignalClosesShort()
    ensures var st := State(true, DefaultRisk, []);
      var ex := Exchange(Ok(100.0), Ok(1000.0), Ok([ExchangePosition(Some("short"), Some(1.0), Some(90.0))]),
                         Ok("close-1"), Ok("order-1"));
      var o := ExecuteSignal(st, map["okx" := ex], "okx", "BTC/USDT", LiveSignal(Buy, 80.0));
      o.calls[3] == ClosePosition && !NoMutation(o.calls)
  {
  }

  /** The corrected path: a dry run never asks the exchange to change anything. */
  lemma DryRunIssuesNoMutation(st: State, exchanges: map<string, Exchange>, exchangeId: string, symbol: string, sig: LiveSignal)
    requires st.dryRun
    ensures NoMutation(ExecuteSignalCorrected(st, exchanges, exchangeId, symbol, sig).calls)
    ensures ExecuteSignalCorrected(st, exchanges, exchangeId, symbol, sig).history == st.history
  {
  }

  /** A sell signal never places an order, so no short is ever opened. */
  lemma SellNeverOrders(st: State, exchanges: map<string, Exchange>, exchangeId: string, symbol: string, sig: LiveSignal)
    requires sig.action == Sell
    ensures forall i :: 0 <= i < |ExecuteSignal(st, exchanges, exchangeId, symbol, sig).calls| ==>
      !ExecuteSignal(st, exchanges, exchangeId, symbol, sig).calls[i].CreateOrder?
  {
  }

  /**
   * The history grows by exactly one record, for a live buy that the
   * exchange filled, and is otherwise untouched.
   */
  lemma HistoryRecordsOnlyLiveBuys(st: State, exchanges: map<string, Exchange>, exchangeId: string, symbol: string, sig: LiveSignal)
    ensures var o := ExecuteSignal(st, exchanges, exchangeId, symbol, sig);
      (o.taken.Bought? ==> (!st.dryRun && sig.action == Buy &&
         exchangeId in exchanges && exchanges[exchangeId].lastPrice.Ok? &&
         o.history == st.history + [TradeRecord(symbol, o.taken.size, exchanges[exchangeId].lastPrice.value,
                                                o.taken.orderId, sig.confidence)])) &&
      (!o.taken.Bought? ==> o.history == st.history)
  {
  }

  /** Holding with nothing open only reads from the exchange. */
  lemma HoldWithoutPositionOnlyReads(st: State, ex: Exchange, exchangeId: string, symbol: string, confidence: real)
    requires ex.lastPrice.Ok? && ex.freeUsdt.Ok? && ex.positions.Ok? && ex.positions.value == []
    ensures ExecuteSignal(st, map[exchangeId := ex], exchangeId, symbol, LiveSignal(Hold, confidence)) ==
      Outcome(Holding, Fetches, st.history)
  {
  }
}

=== FILE: fusion.dfy ===
/**
 * The multi-indicator analyser: per-indicator threshold rules over the
 * latest row of an indicator frame, and the two-tier fusion of their
 * verdicts with the trend-strength and candlestick analysers.
 *
 * The indicator columns are inputs: a frame is the number of rows plus the
 * cells the rules read, where `None` is NaN and a `has…` flag (or a missing
 * map key) says that the column was never added to the frame.
 */
module Fusion {
  import opened Common
  import Candlestick
  import TrendStrength

  /* ---------- Column periods ---------- */

  predicate IsLeast(m: nat, s: set<nat>)
  {
    m in s && forall x :: x in s ==> m <= x
  }

  lemma {:induction false} LeastExists(s: set<nat>)
    requires s != {}
    ensures exists m :: IsLeast(m, s)
    decreases |s|
  {
    var y :| y in s;
    if s == {y} {
      assert IsLeast(y, s);
    } else {
      var rest := s - {y};
      LeastExists(rest);
      var m :| IsLeast(m, rest);
      var w := if y < m then y else m;
      forall x | x in s
        ensures w <= x
      {
        if x != y {
          assert x in rest;
        }
      }
      assert IsLeast(w, s);
    }
  }

  function Least(s: set<nat>): (m: nat)
    requires s != {}
    ensures m in s && forall x :: x in s ==> m <= x
  {
    LeastExists(s);
    var m :| IsLeast(m, s);
    m
  }

  predicate Increasing(r: seq<nat>)
  {
    forall i, j :: 0 <= i < j < |r| ==> r[i] < r[j]
  }

  /** The periods of a family of columns, shortest first: the source sorts `MA_<p>` columns by p. */
  function SortedPeriods(s: set<nat>): (r: seq<nat>)
    ensures |r| == |s|
    ensures forall i :: 0 <= i < |r| ==> r[i] in s
    ensures forall p :: p in s ==> p in r
    ensures Increasing(r)
    decreases |s|
  {
    if s == {} then []
    else
      var m := Least(s);
      var rest := SortedPeriods(s - {m});
      assert |s - {m}| == |s| - 1;
      PrependLeast(m, s, rest);
      [m] + rest
  }

  lemma PrependLeast(m: nat, s: set<nat>, rest: seq<nat>)
    requires m in s && forall x :: x in s ==> m <= x
    requires Increasing(rest)
    requires forall i :: 0 <= i < |rest| ==> rest[i] in s - {m}
    requires forall p :: p in s - {m} ==> p in rest
    ensures Increasing([m] + rest)
    ensures forall i :: 0 <= i < |[m] + rest| ==> ([m] + rest)[i] in s
    ensures forall p :: p in s ==> p in [m] + rest
  {
    var r := [m] + rest;
    assert forall i :: 1 <= i < |r| ==> r[i] == rest[i - 1];
    assert forall i :: 0 <= i < |rest| ==> m < rest[i];
  }

  /** The latest row's cells of a column family, in period order. */
  function Stack(columns: map<nat, Option<real>>): (cells: seq<Option<real>>)
    ensures |cells| == |columns|
    ensures forall i :: 0 <= i < |cells| ==> cells[i] == columns[SortedPeriods(columns.Keys)[i]]
  {
    var ps := SortedPeriods(columns.Keys);
    assert |ps| == |columns|;
    Cells(columns, ps)
  }

  function Cells(columns: map<nat, Option<real>>, ps: seq<nat>): (cells: seq<Option<real>>)
    requires forall i :: 0 <= i < |ps| ==> ps[i] in columns
    ensures |cells| == |ps| && forall i :: 0 <= i < |ps| ==> cells[i] == columns[ps[i]]
  {
    seq(|ps|, i requires 0 <= i < |ps| => columns[ps[i]])
  }

  /* ---------- MA / EMA stack alignment ---------- */

  /** Bullish stack: no adjacent pair of defined cells has the shorter average at or below the longer. */
  predicate BullishStack(cells: seq<Option<real>>)
  {
    forall i :: 0 <= i < |cells| - 1 ==> !OptLe(cells[i], cells[i + 1])
  }

  predicate BearishStack(cells: seq<Option<real>>)
  {
    forall i :: 0 <= i < |cells| - 1 ==> !OptGe(cells[i], cells[i + 1])
  }

  /** The adjacent-pair scan as the source writes it, skipping pairs with a NaN cell. */
  method ScanStack(cells: seq<Option<real>>) returns (bullish: bool, bearish: bool)
    ensures bullish <==> BullishStack(cells)
    ensures bearish <==> BearishStack(cells)
  {
    bullish, bearish := true, true;
    var i := 0;
    while i + 1 < |cells|
      invariant 0 <= i <= if |cells| == 0 then 0 else |cells| - 1
      invariant bullish <==> forall k :: 0 <= k < i ==> !OptLe(cells[k], cells[k + 1])
      invariant bearish <==> forall k :: 0 <= k < i ==> !OptGe(cells[k], cells[k + 1])
    {
      var short, long := cells[i], cells[i + 1];
      if short.Some? && long.Some? {
        if short.value <= long.value {
          bullish := false;
        }
        if short.value >= long.value {
          bearish := false;
        }
      }
      i := i + 1;
    }
  }

  function NegateCell(c: Option<real>): Option<real>
  {
    if c.Some? then Some(-c.value) else None
  }

  function NegateColumns(columns: map<nat, Option<real>>): (r: map<nat, Option<real>>)
    ensures r.Keys == columns.Keys
    ensures forall p :: p in r ==> r[p] == NegateCell(columns[p])
  {
    map p | p in columns :: NegateCell(columns[p])
  }

  /**
   * The MA (strength 80) and EMA (strength 85) trend rules over the stacked
   * cells: a bullish stack with the price above the shortest average buys,
   * the mirror sells. A NaN shortest average stands in for the price itself,
   * so it never triggers.
   */
  function StackRule(rows: nat, cells: seq<Option<real>>, price: real, strength: int): (s: Signal)
    ensures rows < 2 || |cells| == 0 ==> s == Signal(Hold, 0)
    ensures s.action == Buy <==> (rows >= 2 && |cells| > 0 &&
      BullishStack(cells) && OptLt(cells[0], Some(price)))
    ensures s.action == Sell <==> (rows >= 2 && |cells| > 0 &&
      !(BullishStack(cells) && OptLt(cells[0], Some(price))) &&
      BearishStack(cells) && OptGt(cells[0], Some(price)))
    ensures s.action != Hold ==> s.confidence == strength
    ensures s.action == Hold ==> s.confidence in {0, 50}
  {
    if rows < 2 then Signal(Hold, 0)
    else if |cells| == 0 then Signal(Hold, 0)
    else
      var shortest := if cells[0].Some? then cells[0].value else price;
      if BullishStack(cells) && price > shortest then Signal(Buy, strength)
      else if BearishStack(cells) && price < shortest then Signal(Sell, strength)
      else Signal(Hold, 50)
  }

  function StackSignal(rows: nat, columns: map<nat, Option<real>>, price: real, strength: int): Signal
  {
    StackRule(rows, Stack(columns), price, strength)
  }

  function MaTrend(rows: nat, ma: map<nat, Option<real>>, price: real): Signal
  {
    StackSignal(rows, ma, price, 80)
  }

  function EmaTrend(rows: nat, ema: map<nat, Option<real>>, price: real): Signal
  {
    StackSignal(rows, ema, price, 85)
  }

  function NegateCells(cells: seq<Option<real>>): (r: seq<Option<real>>)
    ensures |r| == |cells| && forall i :: 0 <= i < |cells| ==> r[i] == NegateCell(cells[i])
  {
    seq(|cells|, i requires 0 <= i < |cells| => NegateCell(cells[i]))
  }

  lemma NegateStack(columns: map<nat, Option<real>>)
    ensures Stack(NegateColumns(columns)) == NegateCells(Stack(columns))
  {
  }

  /** Negated cells swap the two alignments. */
  lemma NegatedStackAlignment(cells: seq<Option<real>>)
    ensures BullishStack(NegateCells(cells)) <==> BearishStack(cells)
    ensures BearishStack(NegateCells(cells)) <==> BullishStack(cells)
  {
    var neg := NegateCells(cells);
    assert forall i :: 0 <= i < |cells| - 1 ==> (OptLe(neg[i], neg[i + 1]) <==> OptGe(cells[i], cells[i + 1]));
    assert forall i :: 0 <= i < |cells| - 1 ==> (OptGe(neg[i], neg[i + 1]) <==> OptLe(cells[i], cells[i + 1]));
  }

  lemma StackRuleMirror(rows: nat, cells: seq<Option<real>>, price: real, strength: int)
    ensures StackRule(rows, NegateCells(cells), -price, strength).action == Buy <==>
            StackRule(rows, cells, price, strength).action == Sell
    ensures StackRule(rows, NegateCells(cells), -price, strength).action == Sell <==>
            StackRule(rows, cells, price, strength).action == Buy
  {
    NegatedStackAlignment(cells);
  }

  /** Turning every price upside down turns a bullish stack into a bearish one and back. */
  lemma StackMirror(columns: map<nat, Option<real>>, price: real, rows: nat, strength: int)
    ensures StackSignal(rows, NegateColumns(columns), -price, strength).action == Buy <==>
            StackSignal(rows, columns, price, strength).action == Sell
    ensures StackSignal(rows, NegateColumns(columns), -price, strength).action == Sell <==>
            StackSignal(rows, columns, price, strength).action == Buy
  {
    NegateStack(columns);
    StackRuleMirror(rows, Stack(columns), price, strength);
  }

  /* ---------- EMA alignment (tier one) ---------- */

  datatype AlignmentCells = AlignmentCells(ema144: real, ema576: real, ema169: real, ema676: real)

  /** The four long EMAs of the latest row, when every column exists and no cell is NaN. */
  function AlignmentInputs(ema: map<nat, Option<real>>): (c: Option<AlignmentCells>)
    ensures c.Some? <==> (144 in ema && 576 in ema && 169 in ema && 676 in ema &&
      ema[144].Some? && ema[576].Some? && ema[169].Some? && ema[676].Some?)
    ensures c.Some? ==> c.value == AlignmentCells(ema[144].value, ema[576].value, ema[169].value, ema[676].value)
  {
    if 144 !in ema || 576 !in ema || 169 !in ema || 676 !in ema then None
    else if ema[144].None? || ema[576].None? || ema[169].None? || ema[676].None? then None
    else Some(AlignmentCells(ema[144].value, ema[576].value, ema[169].value, ema[676].value))
  }

  /** Percentage gap of a fast EMA from its slow partner; 0 unless the slow one is positive. */
  function Deviation(fast: real, slow: real): (d: real)
    ensures d >= 0.0
    ensures slow > 0.0 ==> d * slow == Abs(fast - slow) * 100.0
  {
    if slow > 0.0 then Abs(fast - slow) / slow * 100.0 else 0.0
  }

  function Spread(c: AlignmentCells): (d: real)
    ensures d >= 0.0
  {
    (Deviation(c.ema144, c.ema576) + Deviation(c.ema169, c.ema676)) / 2.0
  }

  predicate BullishPairs(c: AlignmentCells) { c.ema144 > c.ema576 && c.ema169 > c.ema676 }
  predicate BearishPairs(c: AlignmentCells) { c.ema144 < c.ema576 && c.ema169 < c.ema676 }

  function EmaAlignment(rows: nat, ema: map<nat, Option<real>>): (s: Signal)
    ensures rows < 1 || AlignmentInputs(ema).None? ==> s == Signal(Hold, 0)
    ensures s.action == Buy <==> rows >= 1 && AlignmentInputs(ema).Some? && BullishPairs(AlignmentInputs(ema).value)
    ensures s.action == Sell <==> rows >= 1 && AlignmentInputs(ema).Some? && BearishPairs(AlignmentInputs(ema).value)
    ensures s.action == Buy ==> 80 <= s.confidence <= 95
    ensures s.action == Sell ==> 60 <= s.confidence <= 75
    ensures s.action == Hold ==> s.confidence in {0, 40}
    ensures s == Signal(Hold, 40) <==> (rows >= 1 && AlignmentInputs(ema).Some? &&
      !BullishPairs(AlignmentInputs(ema).value) && !BearishPairs(AlignmentInputs(ema).value))
  {
    if rows < 1 then Signal(Hold, 0)
    else
      match AlignmentInputs(ema)
      case None => Signal(Hold, 0)
      case Some(c) =>
        if BullishPairs(c) then Signal(Buy, MinI(95, Trunc(80.0 + Spread(c) * 3.0)))
        else if BearishPairs(c) then Signal(Sell, MinI(75, Trunc(60.0 + Spread(c) * 3.0)))
        else Signal(Hold, 40)
  }

  /** An average gap of five percent already earns the full alignment confidence. */
  lemma AlignmentSaturates(rows: nat, ema: map<nat, Option<real>>)
    requires rows >= 1 && AlignmentInputs(ema).Some? && Spread(AlignmentInputs(ema).value) >= 5.0
    ensures EmaAlignment(rows, ema).action == Buy ==> EmaAlignment(rows, ema).confidence == 95
    ensures EmaAlignment(rows, ema).action == Sell ==> EmaAlignment(rows, ema).confidence == 75
  {
    var d := Spread(AlignmentInputs(ema).value);
    TruncMonotone(95.0, 80.0 + d * 3.0);
    TruncOfInt(95);
    TruncMonotone(75.0, 60.0 + d * 3.0);
    TruncOfInt(75);
  }

  /* ---------- Bollinger bands, RSI, MACD ---------- */

  function BollSignal(rows: nat, hasBoll: bool, price: real, upper: Option<real>, middle: Option<real>, lower: Option<real>): (s: Signal)
    ensures !hasBoll || rows < 2 || upper.None? || middle.None? || lower.None? ==> s == Signal(Hold, 0)
    ensures s.action == Buy <==> hasBoll && rows >= 2 && upper.Some? && middle.Some? && OptGe(lower, Some(price))
    ensures s.action == Sell <==> (hasBoll && rows >= 2 && lower.Some? && middle.Some? &&
      !OptGe(lower, Some(price)) && OptLe(upper, Some(price)))
    ensures s.action != Hold ==> s.confidence == 80
    ensures s.action == Hold ==> s.confidence in {0, 60}
  {
    if !hasBoll then Signal(Hold, 0)
    else if rows < 2 then Signal(Hold, 0)
    else if upper.None? || middle.None? || lower.None? then Signal(Hold, 0)
    else if price <= lower.value then Signal(Buy, 80)
    else if price >= upper.value then Signal(Sell, 80)
    else Signal(Hold, 60)
  }

  /** Mirrored bands swap the two touches, except on a band of zero width touched from both sides. */
  lemma BollMirror(rows: nat, hasBoll: bool, price: real, upper: Option<real>, middle: Option<real>, lower: Option<real>)
    requires !(OptGe(lower, Some(price)) && OptLe(upper, Some(price)))
    ensures BollSignal(rows, hasBoll, -price, NegateCell(lower), NegateCell(middle), NegateCell(upper)).action == Buy <==>
            BollSignal(rows, hasBoll, price, upper, middle, lower).action == Sell
    ensures BollSignal(rows, hasBoll, -price, NegateCell(lower), NegateCell(middle), NegateCell(upper)).action == Sell <==>
            BollSignal(rows, hasBoll, price, upper, middle, lower).action == Buy
  {
  }

  function RsiSignal(rows: nat, hasRsi: bool, rsi: Option<real>): (s: Signal)
    ensures !hasRsi || rows < 2 || rsi.None? ==> s == Signal(Hold, 0)
    ensures s.action == Buy <==> hasRsi && rows >= 2 && OptLt(rsi, Some(30.0))
    ensures s.action == Sell <==> hasRsi && rows >= 2 && OptGt(rsi, Some(70.0))
    ensures s.action != Hold ==> s.confidence == 75
    ensures s.action == Hold ==> s.confidence in {0, 50}
  {
    if !hasRsi then Signal(Hold, 0)
    else if rows < 2 then Signal(Hold, 0)
    else if rsi.None? then Signal(Hold, 0)
    else if rsi.value < 30.0 then Signal(Buy, 75)
    else if rsi.value > 70.0 then Signal(Sell, 75)
    else Signal(Hold, 50)
  }

  /** Reading the RSI as 100 - RSI swaps oversold and overbought. */
  lemma RsiMirror(rows: nat, hasRsi: bool, rsi: real)
    ensures RsiSignal(rows, hasRsi, Some(100.0 - rsi)) ==
      var s := RsiSignal(rows, hasRsi, Some(rsi));
      Signal(if s.action == Buy then Sell else if s.action == Sell then Buy else Hold, s.confidence)
  {
  }

  datatype MacdCells = MacdCells(macd: Option<real>, signal: Option<real>, prevMacd: Option<real>, prevSignal: Option<real>)

  function NegateMacd(c: MacdCells): MacdCells
  {
    MacdCells(NegateCell(c.macd), NegateCell(c.signal), NegateCell(c.prevMacd), NegateCell(c.prevSignal))
  }

  /** Golden and death crosses of the MACD line over its signal line; a NaN previous row is no cross. */
  function MacdSignal(rows: nat, hasMacd: bool, c: MacdCells): (s: Signal)
    ensures !hasMacd || rows < 2 || c.macd.None? || c.signal.None? ==> s == Signal(Hold, 0)
    ensures s.action == Buy <==> hasMacd && rows >= 2 && OptLe(c.prevMacd, c.prevSignal) && OptGt(c.macd, c.signal)
    ensures s.action == Sell <==> hasMacd && rows >= 2 && OptGe(c.prevMacd, c.prevSignal) && OptLt(c.macd, c.signal)
    ensures s.action != Hold ==> s.confidence == 80
    ensures s.action == Hold ==> s.confidence in {0, 50}
  {
    if !hasMacd then Signal(Hold, 0)
    else if rows < 2 then Signal(Hold, 0)
    else if c.macd.None? || c.signal.None? then Signal(Hold, 0)
    else if OptLe(c.prevMacd, c.prevSignal) && c.macd.value > c.signal.value then Signal(Buy, 80)
    else if OptGe(c.prevMacd, c.prevSignal) && c.macd.value < c.signal.value then Signal(Sell, 80)
    else Signal(Hold, 50)
  }

  lemma MacdMirror(rows: nat, hasMacd: bool, c: MacdCells)
    ensures MacdSignal(rows, hasMacd, NegateMacd(c)).action == Buy <==> MacdSignal(rows, hasMacd, c).action == Sell
    ensures MacdSignal(rows, hasMacd, NegateMacd(c)).action == Sell <==> MacdSignal(rows, hasMacd, c).action == Buy
  {
  }

  /* ---------- Two-tier fusion ---------- */

  /** Sum of the confidences of the signals backing action a. */
  function Backing(sigs: seq<Signal>, a: Action): int
  {
    if |sigs| == 0 then 0
    else Backing(sigs[..|sigs| - 1], a) + (if sigs[|sigs| - 1].action == a then sigs[|sigs| - 1].confidence else 0)
  }

  function Backers(sigs: seq<Signal>, a: Action): nat
  {
    if |sigs| == 0 then 0
    else Backers(sigs[..|sigs| - 1], a) + (if sigs[|sigs| - 1].action == a then 1 else 0)
  }

  lemma SingleBacker(x: Signal, a: Action)
    ensures Backers([x], a) == (if x.action == a then 1 else 0)
    ensures Backing([x], a) == (if x.action == a then x.confidence else 0)
  {
    assert [x][..0] == [];
  }

  predicate Percentages(sigs: seq<Signal>)
  {
    forall i :: 0 <= i < |sigs| ==> 0 <= sigs[i].confidence <= 100
  }

  lemma {:induction false} BackingBounds(sigs: seq<Signal>, a: Action)
    requires Percentages(sigs)
    ensures 0 <= Backing(sigs, a) <= 100 * |sigs|
    ensures Backers(sigs, a) == 0 ==> Backing(sigs, a) == 0
    ensures Backers(sigs, a) <= |sigs|
  {
    if |sigs| > 0 {
      BackingBounds(sigs[..|sigs| - 1], a);
    }
  }

  /** A tier's support for an action: its backers' confidences summed over the whole tier's size. */
  function TierMean(sigs: seq<Signal>, a: Action): (m: real)
    ensures Backers(sigs, a) == 0 ==> m == 0.0
    ensures Percentages(sigs) ==> 0.0 <= m <= 100.0
  {
    BackingBounds'(sigs, a);
    if Backers(sigs, a) == 0 then 0.0 else Backing(sigs, a) as real / |sigs| as real
  }

  /** The conditional form of BackingBounds that a function body can call. */
  lemma BackingBounds'(sigs: seq<Signal>, a: Action)
    ensures Percentages(sigs) ==> 0 <= Backing(sigs, a) <= 100 * |sigs| && Backers(sigs, a) <= |sigs|
    ensures Percentages(sigs) && Backers(sigs, a) > 0 ==> 0.0 <= Backing(sigs, a) as real / |sigs| as real <= 100.0
  {
    if Percentages(sigs) {
      BackingBounds(sigs, a);
      if Backers(sigs, a) > 0 {
        DivCompare(Backing(sigs, a) as real, |sigs| as real, 100.0);
        DivCompare(Backing(sigs, a) as real, |sigs| as real, 0.0);
      }
    }
  }

  function Boost(tier2Agrees: bool, auxAgrees: bool): (b: real)
    ensures 0.0 <= b <= 8.0
  {
    (if tier2Agrees then 5.0 else 0.0) + (if auxAgrees then 3.0 else 0.0)
  }

  /** Tier one dominates when either of its averages exceeds 60. */
  predicate Dominant(tier1: seq<Signal>)
  {
    TierMean(tier1, Buy) > 60.0 || TierMean(tier1, Sell) > 60.0
  }

  /** The 0.5 / 0.3 / 0.2 blend of the three tiers' support for an action. */
  function Blend(tier1: seq<Signal>, tier2: seq<Signal>, aux: seq<Signal>, a: Action): real
  {
    TierMean(tier1, a) * 0.5 + TierMean(tier2, a) * 0.3 + TierMean(aux, a) * 0.2
  }

  function Fuse(tier1: seq<Signal>, tier2: seq<Signal>, aux: seq<Signal>): (s: Signal)
    ensures |tier1| + |tier2| + |aux| == 0 ==> s == Signal(Hold, 0)
    ensures Dominant(tier1) ==> s.action != Hold
    ensures Dominant(tier1) ==> (s.action == Buy <==> TierMean(tier1, Buy) > TierMean(tier1, Sell))
    ensures !Dominant(tier1) && |tier1| + |tier2| + |aux| > 0 ==>
      (s.action == Buy <==> Blend(tier1, tier2, aux, Buy) > Blend(tier1, tier2, aux, Sell) && Blend(tier1, tier2, aux, Buy) > 40.0) &&
      (s.action == Sell <==> Blend(tier1, tier2, aux, Sell) > Blend(tier1, tier2, aux, Buy) && Blend(tier1, tier2, aux, Sell) > 40.0) &&
      (s.action == Hold ==> s.confidence == 50)
    ensures Dominant(tier1) && s.action == Buy ==>
      s.confidence == Trunc(MinR(95.0, TierMean(tier1, Buy) +
        Boost(TierMean(tier2, Buy) > TierMean(tier2, Sell), TierMean(aux, Buy) > TierMean(aux, Sell))))
    ensures Dominant(tier1) && s.action == Sell ==>
      s.confidence == Trunc(MinR(80.0, TierMean(tier1, Sell) +
        Boost(TierMean(tier2, Sell) > TierMean(tier2, Buy), TierMean(aux, Sell) > TierMean(aux, Buy))))
    ensures !Dominant(tier1) && s.action == Buy ==> s.confidence == Trunc(Blend(tier1, tier2, aux, Buy))
    ensures !Dominant(tier1) && s.action == Sell ==> s.confidence == Trunc(0.85 * Blend(tier1, tier2, aux, Sell))
  {
    if |tier1| + |tier2| + |aux| == 0 then Signal(Hold, 0)
    else
      var b1, s1 := TierMean(tier1, Buy), TierMean(tier1, Sell);
      var b2, s2 := TierMean(tier2, Buy), TierMean(tier2, Sell);
      var ba, sa := TierMean(aux, Buy), TierMean(aux, Sell);
      if b1 > 60.0 || s1 > 60.0 then
        if b1 > s1 then Signal(Buy, Trunc(MinR(95.0, b1 + Boost(b2 > s2, ba > sa))))
        else Signal(Sell, Trunc(MinR(80.0, s1 + Boost(s2 > b2, sa > ba))))
      else
        var buy, sell := Blend(tier1, tier2, aux, Buy), Blend(tier1, tier2, aux, Sell);
        if buy > sell && buy > 40.0 then Signal(Buy, Trunc(buy))
        else if sell > buy && sell > 40.0 then Signal(Sell, Trunc(0.85 * sell))
        else Signal(Hold, 50)
  }

  /** With percentage inputs the fused confidence is a percentage; the caps 95 and 80 bind tier one. */
  lemma FuseConfidenceRange(tier1: seq<Signal>, tier2: seq<Signal>, aux: seq<Signal>)
    requires Percentages(tier1) && Percentages(tier2) && Percentages(aux)
    ensures 0 <= Fuse(tier1, tier2, aux).confidence <= 100
    ensures Dominant(tier1) && Fuse(tier1, tier2, aux).action == Buy ==> Fuse(tier1, tier2, aux).confidence <= 95
    ensures Fuse(tier1, tier2, aux).action == Sell ==> Fuse(tier1, tier2, aux).confidence <= 85
    ensures Dominant(tier1) && Fuse(tier1, tier2, aux).action == Sell ==> Fuse(tier1, tier2, aux).confidence <= 80
  {
    var s := Fuse(tier1, tier2, aux);
    if |tier1| + |tier2| + |aux| > 0 {
      var b1, s1 := TierMean(tier1, Buy), TierMean(tier1, Sell);
      if b1 > 60.0 || s1 > 60.0 {
        if b1 > s1 {
          TruncMonotone(MinR(95.0, b1 + Boost(TierMean(tier2, Buy) > TierMean(tier2, Sell), TierMean(aux, Buy) > TierMean(aux, Sell))), 95.0);
          TruncOfInt(95);
        } else {
          TruncMonotone(MinR(80.0, s1 + Boost(TierMean(tier2, Sell) > TierMean(tier2, Buy), TierMean(aux, Sell) > TierMean(aux, Buy))), 80.0);
          TruncOfInt(80);
        }
      } else {
        var buy, sell := Blend(tier1, tier2, aux, Buy), Blend(tier1, tier2, aux, Sell);
        assert 0.0 <= buy <= 100.0 && 0.0 <= sell <= 100.0;
        TruncMonotone(buy, 100.0);
        TruncOfInt(100);
        TruncMonotone(sell * 0.85, 85.0);
        TruncOfInt(85);
      }
    }
  }

  /** Once tier one dominates, the lower tiers can move the confidence but never the direction. */
  lemma TierOneDecidesDirection(tier1: seq<Signal>, tier2: seq<Signal>, aux: seq<Signal>, tier2': seq<Signal>, aux': seq<Signal>)
    requires Dominant(tier1)
    ensures Fuse(tier1, tier2, aux).action == Fuse(tier1, tier2', aux').action
  {
  }

  /** The boost from agreeing lower tiers is at most 8 points above tier one's own average. */
  lemma {:induction false} DominantBuyBoost(tier1: seq<Signal>, tier2: seq<Signal>, aux: seq<Signal>)
    requires Dominant(tier1) && Fuse(tier1, tier2, aux).action == Buy
    ensures Trunc(MinR(95.0, TierMean(tier1, Buy))) <= Fuse(tier1, tier2, aux).confidence
    ensures Fuse(tier1, tier2, aux).confidence <= Trunc(TierMean(tier1, Buy)) + 8
  {
    var b1 := TierMean(tier1, Buy);
    var boost := Boost(TierMean(tier2, Buy) > TierMean(tier2, Sell), TierMean(aux, Buy) > TierMean(aux, Sell));
    assert Fuse(tier1, tier2, aux).confidence == Trunc(MinR(95.0, b1 + boost));
    TruncMonotone(MinR(95.0, b1), MinR(95.0, b1 + boost));
    TruncMonotone(MinR(95.0, b1 + boost), b1 + 8.0);
    assert Trunc(b1 + 8.0) == Trunc(b1) + 8;
  }

  /** Without tier-one evidence the blend can reach at most 50: tiers two and auxiliary weigh 0.3 and 0.2. */
  lemma WithoutTierOneAtMostFifty(tier2: seq<Signal>, aux: seq<Signal>)
    requires Percentages(tier2) && Percentages(aux)
    ensures Fuse([], tier2, aux).confidence <= 50
  {
    var buy, sell := Blend([], tier2, aux, Buy), Blend([], tier2, aux, Sell);
    assert TierMean([], Buy) == 0.0 && TierMean([], Sell) == 0.0;
    assert buy <= 50.0 && sell <= 50.0;
    TruncMonotone(buy, 50.0);
    TruncMonotone(sell * 0.85, 50.0);
    TruncOfInt(50);
  }

  /** The blend compares undiscounted supports, so a winning sell can come out below the 40 threshold. */
  lemma SellDiscountAfterComparison()
    ensures Fuse([Signal(Sell, 60)], [], [Signal(Sell, 60)]) == Signal(Sell, 35)
  {
    var t := [Signal(Sell, 60)];
    assert Backers(t, Buy) == 0 && Backers(t, Sell) == 1 && Backing(t, Sell) == 60;
    assert TierMean(t, Sell) == 60.0 && TierMean(t, Buy) == 0.0;
    assert Blend(t, [], t, Sell) == 42.0;
  }

  /* ---------- Candidate collection ---------- */

  /** Sub-signals with zero confidence are dropped before fusion. */
  function Keep(sigs: seq<Signal>): (r: seq<Signal>)
    ensures |r| <= |sigs|
    ensures forall i :: 0 <= i < |r| ==> r[i].confidence > 0 && r[i] in sigs
    ensures forall i :: 0 <= i < |sigs| && sigs[i].confidence > 0 ==> sigs[i] in r
    ensures (forall i :: 0 <= i < |sigs| ==> sigs[i].confidence <= 100) ==> Percentages(r)
  {
    if |sigs| == 0 then []
    else
      var rest := Keep(sigs[..|sigs| - 1]);
      assert forall i :: 0 <= i < |sigs| - 1 ==> sigs[..|sigs| - 1][i] == sigs[i];
      if sigs[|sigs| - 1].confidence > 0 then rest + [sigs[|sigs| - 1]] else rest
  }

  /** Filtering is done signal by signal: the survivors keep their order. */
  lemma {:induction false} KeepAppend(a: seq<Signal>, b: seq<Signal>)
    ensures Keep(a + b) == Keep(a) + Keep(b)
  {
    if |b| > 0 {
      var b', x := b[..|b| - 1], b[|b| - 1];
      assert a + b == (a + b') + [x];
      assert (a + b)[..|a + b| - 1] == a + b';
      assert b[..|b| - 1] == b';
      KeepAppend(a, b');
    } else {
      assert a + b == a;
    }
  }

  /** Every surviving signal occurs as often as in the input, so the tier means see each one. */
  lemma {:induction false} KeepCounts(sigs: seq<Signal>)
    ensures forall x :: multiset(Keep(sigs))[x] == (if x.confidence > 0 then multiset(sigs)[x] else 0)
  {
    if |sigs| > 0 {
      var init, last := sigs[..|sigs| - 1], sigs[|sigs| - 1];
      assert sigs == init + [last];
      KeepCounts(init);
      assert multiset(sigs) == multiset(init) + multiset{last};
      if last.confidence > 0 {
        assert multiset(Keep(init) + [last]) == multiset(Keep(init)) + multiset{last};
      }
    }
  }

  /** The indicator cells of the latest row (and the MACD cells of the one before). */
  datatype Columns = Columns(
    ma: map<nat, Option<real>>,
    ema: map<nat, Option<real>>,
    hasBoll: bool, upper: Option<real>, middle: Option<real>, lower: Option<real>,
    hasRsi: bool, rsi: Option<real>,
    hasMacd: bool, macd: MacdCells)

  /** Which optional analysers were configured; an absent one contributes nothing. */
  datatype Analysers = Analysers(trend: Option<TrendStrength.Config>, candles: Option<Candlestick.Config>)

  function TrendSignal(an: Analysers, frames: map<string, Option<seq<Bar>>>): Signal
  {
    if an.trend.None? then Signal(Hold, 0) else TrendStrength.AnalyzeMultiTimeframe(an.trend.value, frames)
  }

  /** Tier one: the EMA alignment and, when timeframe data was given, the multi-timeframe trend. */
  function TierOne(bars: seq<Bar>, cols: Columns, an: Analysers, frames: map<string, Option<seq<Bar>>>): (r: seq<Signal>)
    ensures |r| <= (if |frames| > 0 then 2 else 1)
    ensures forall x :: x in r <==>
      (x.confidence > 0 && (x == EmaAlignment(|bars|, cols.ema) || (|frames| > 0 && x == TrendSignal(an, frames))))
    ensures EmaAlignment(|bars|, cols.ema).confidence > 0 ==> r[0] == EmaAlignment(|bars|, cols.ema)
  {
    KeepAppend([EmaAlignment(|bars|, cols.ema)], if |frames| > 0 then [TrendSignal(an, frames)] else []);
    Keep([EmaAlignment(|bars|, cols.ema)] + if |frames| > 0 then [TrendSignal(an, frames)] else [])
  }

  /** Tier two: the candlestick analysis, when that analyser is configured. */
  function TierTwo(bars: seq<Bar>, an: Analysers): (r: seq<Signal>)
    ensures an.candles.None? ==> r == []
    ensures an.candles.Some? ==>
      var c := Candlestick.AnalyzeAllPatterns(an.candles.value, bars);
      r == (if c.confidence > 0 then [c] else [])
  {
    if an.candles.None? then [] else Keep([Candlestick.AnalyzeAllPatterns(an.candles.value, bars)])
  }

  /** The five single-indicator rules on the latest row. */
  function AuxCandidates(bars: seq<Bar>, cols: Columns): (c: seq<Signal>)
    ensures |c| == 5
  {
    var rows, price := |bars|, if |bars| > 0 then bars[|bars| - 1].close else 0.0;
    [MaTrend(rows, cols.ma, price), EmaTrend(rows, cols.ema, price),
     BollSignal(rows, cols.hasBoll, price, cols.upper, cols.middle, cols.lower),
     RsiSignal(rows, cols.hasRsi, cols.rsi), MacdSignal(rows, cols.hasMacd, cols.macd)]
  }

  /** The auxiliary tier: those of the five rules that reported a positive confidence. */
  function Auxiliary(bars: seq<Bar>, cols: Columns): (r: seq<Signal>)
    ensures |r| <= 5
    ensures forall x :: x in r <==> x in AuxCandidates(bars, cols) && x.confidence > 0
  {
    KeepMembers(AuxCandidates(bars, cols));
    Keep(AuxCandidates(bars, cols))
  }

  /** A signal survives filtering exactly when it occurs with a positive confidence. */
  lemma KeepMembers(sigs: seq<Signal>)
    ensures forall x :: x in Keep(sigs) <==> x in sigs && x.confidence > 0
  {
  }

  lemma TierOnePercentages(bars: seq<Bar>, cols: Columns, an: Analysers, frames: map<string, Option<seq<Bar>>>)
    ensures Percentages(TierOne(bars, cols, an, frames))
  {
    var t := TrendSignal(an, frames);
    assert t.confidence <= 100;
    var cand := [EmaAlignment(|bars|, cols.ema)] + if |frames| > 0 then [t] else [];
    assert forall i :: 0 <= i < |cand| ==> cand[i].confidence <= 100;
  }

  lemma TierTwoPercentages(bars: seq<Bar>, an: Analysers)
    ensures Percentages(TierTwo(bars, an))
  {
    if an.candles.Some? {
      var c := Candlestick.AnalyzeAllPatterns(an.candles.value, bars);
      OnePercentage(c);
    }
  }

  lemma OnePercentage(c: Signal)
    requires c.confidence <= 100
    ensures Percentages(if c.confidence > 0 then [c] else [])
  {
  }

  lemma AuxiliaryPercentages(bars: seq<Bar>, cols: Columns)
    ensures Percentages(Auxiliary(bars, cols))
  {
    var rows, price := |bars|, if |bars| > 0 then bars[|bars| - 1].close else 0.0;
    var ma, ema := MaTrend(rows, cols.ma, price), EmaTrend(rows, cols.ema, price);
    var boll := BollSignal(rows, cols.hasBoll, price, cols.upper, cols.middle, cols.lower);
    var rsi, macd := RsiSignal(rows, cols.hasRsi, cols.rsi), MacdSignal(rows, cols.hasMacd, cols.macd);
    assert ma.confidence <= 100 && ema.confidence <= 100;
    assert boll.confidence <= 100;
    assert rsi.confidence <= 100 && macd.confidence <= 100;
    AtMostHundred(ma, ema, boll, rsi, macd);
  }

  lemma AtMostHundred(a: Signal, b: Signal, c: Signal, d: Signal, e: Signal)
    requires a.confidence <= 100 && b.confidence <= 100 && c.confidence <= 100
    requires d.confidence <= 100 && e.confidence <= 100
    ensures Percentages(Keep([a, b, c, d, e]))
  {
    var cand := [a, b, c, d, e];
    assert forall i :: 0 <= i < |cand| ==> cand[i].confidence <= 100;
  }

  /** Every analyser reports a percentage, so every kept candidate is one. */
  lemma CandidatesArePercentages(bars: seq<Bar>, cols: Columns, an: Analysers, frames: map<string, Option<seq<Bar>>>)
    ensures Percentages(TierOne(bars, cols, an, frames))
    ensures Percentages(TierTwo(bars, an))
    ensures Percentages(Auxiliary(bars, cols))
  {
    TierOnePercentages(bars, cols, an, frames);
    TierTwoPercentages(bars, an);
    AuxiliaryPercentages(bars, cols);
  }

  /**
   * The combined signal. An empty timeframe map stands for the source's
   * missing or empty `price_data_by_timeframe`.
   */
  function CombinedSignal(bars: seq<Bar>, cols: Columns, an: Analysers, frames: map<string, Option<seq<Bar>>>): (s: Signal)
    ensures 0 <= s.confidence <= 100
    ensures s.action == Sell ==> s.confidence <= 85
    ensures |TierOne(bars, cols, an, frames)| + |TierTwo(bars, an)| + |Auxiliary(bars, cols)| == 0 ==> s == Signal(Hold, 0)
  {
    CandidatesArePercentages(bars, cols, an, frames);
    var t1, t2, aux := TierOne(bars, cols, an, frames), TierTwo(bars, an), Auxiliary(bars, cols);
    FuseConfidenceRange(t1, t2, aux);
    Fuse(t1, t2, aux)
  }

  /** A lone tier-one buy of at least 80 dominates, and the fusion buys with at least that confidence. */
  lemma SoleStrongBuyLeads(a: Signal, t2: seq<Signal>, aux: seq<Signal>)
    requires a.action == Buy && 80 <= a.confidence <= 100
    requires Percentages(t2) && Percentages(aux)
    ensures Fuse([a], t2, aux).action == Buy
    ensures Fuse([a], t2, aux).confidence >= 80
  {
    SingleBacker(a, Buy);
    SingleBacker(a, Sell);
    assert TierMean([a], Buy) == a.confidence as real;
    assert TierMean([a], Sell) == 0.0;
    DominantBuyBoost([a], t2, aux);
    TruncMonotone(80.0, MinR(95.0, a.confidence as real));
    TruncOfInt(80);
  }

  /** A bullish EMA alignment with no timeframe data carries tier one alone, and the fusion buys. */
  lemma BullishAlignmentLeads(bars: seq<Bar>, cols: Columns, an: Analysers)
    requires EmaAlignment(|bars|, cols.ema).action == Buy
    ensures CombinedSignal(bars, cols, an, map[]).action == Buy
    ensures CombinedSignal(bars, cols, an, map[]).confidence >= 80
  {
    var a := EmaAlignment(|bars|, cols.ema);
    var t1 := TierOne(bars, cols, an, map[]);
    assert t1 == [a];
    CandidatesArePercentages(bars, cols, an, map[]);
    SoleStrongBuyLeads(a, TierTwo(bars, an), Auxiliary(bars, cols));
  }
}

=== FILE: indicators.dfy ===
/**
 * The indicator primitives of strategy.py as sequence functions over a
 * closing-price column: trailing mean, exponential mean (pandas
 * `ewm(adjust=False)`), MACD, Bollinger bands and RSI. A `None` cell is
 * pandas' NaN.
 */
module Indicators {
  import opened Common

  // ---------------------------------------------------------------- SMA

  /** Reference definition of `rolling(window=period).mean()`. */
  function Sma(xs: seq<real>, period: nat): (r: seq<Option<real>>)
    requires period >= 1
    ensures |r| == |xs|
  {
    seq(|xs|, i requires 0 <= i < |xs| =>
      if i < period - 1 then None else Some(Mean(xs[i - period + 1..i + 1])))
  }

  lemma {:induction false} SumFront(s: seq<real>)
    requires |s| > 0
    ensures Sum(s) == s[0] + Sum(s[1..])
  {
    if |s| > 1 {
      SumFront(s[..|s| - 1]);
      assert s[..|s| - 1][1..] == s[1..][..|s| - 2];
    }
  }

  /** Where the running window of the first `i` rows starts. */
  function WindowStart(i: nat, period: nat): nat
  {
    if i >= period then i - period else 0
  }

  /** Moving the window one row on adds the new row and drops the one that left. */
  lemma WindowStep(xs: seq<real>, period: nat, i: nat)
    requires period >= 1 && i < |xs|
    ensures Sum(xs[WindowStart(i + 1, period)..i + 1]) ==
      Sum(xs[WindowStart(i, period)..i]) + xs[i] - (if i + 1 > period then xs[i - period] else 0.0)
  {
    var lo := WindowStart(i, period);
    assert xs[lo..i + 1] == xs[lo..i] + [xs[i]];
    SumAppend(xs[lo..i], xs[i]);
    if i + 1 > period {
      SumFront(xs[lo..i + 1]);
      assert xs[lo..i + 1][1..] == xs[i + 1 - period..i + 1];
    }
  }

  /** What the sliding loop knows after `i` rows: the cells so far and the running window's sum. */
  predicate SlidingState(xs: seq<real>, period: nat, i: nat, r: seq<Option<real>>, window: real)
    requires period >= 1
  {
    i <= |xs| && |r| == i &&
    (forall j :: 0 <= j < i ==> r[j] == Sma(xs, period)[j]) &&
    window == Sum(xs[WindowStart(i, period)..i])
  }

  /** One row of the sliding loop keeps its state. */
  lemma SlidingStep(xs: seq<real>, period: nat, i: nat, r: seq<Option<real>>, window: real)
    requires period >= 1 && i < |xs| && SlidingState(xs, period, i, r, window)
    ensures var w := window + xs[i] - (if i + 1 > period then xs[i - period] else 0.0);
      SlidingState(xs, period, i + 1, r + [if i < period - 1 then None else Some(w / (period as real))], w)
  {
    WindowStep(xs, period, i);
  }

  /**
   * Sliding-window evaluation of the trailing mean: one addition and at
   * most one subtraction per row, agreeing with the reference definition.
   */
  method SlidingSma(xs: seq<real>, period: nat) returns (r: seq<Option<real>>)
    requires period >= 1
    ensures r == Sma(xs, period)
  {
    r := [];
    var window := 0.0;
    var i := 0;
    while i < |xs|
      invariant SlidingState(xs, period, i, r, window)
    {
      SlidingStep(xs, period, i, r, window);
      window := window + xs[i] - (if i + 1 > period then xs[i - period] else 0.0);
      r := r + [if i < period - 1 then None else Some(window / (period as real))];
      i := i + 1;
    }
  }

  // ---------------------------------------------------------------- EMA

  /** Smoothing factor of `ewm(span=period)`. */
  function Alpha(period: nat): (a: real)
    requires period >= 1
    ensures 0.0 < a <= 1.0
  {
    2.0 / ((period + 1) as real)
  }

  /** One smoothing step: the new value weighted by `alpha`, the previous mean by the rest. */
  function Smooth(alpha: real, x: real, prev: real): real
  {
    alpha * x + (1.0 - alpha) * prev
  }

  /** The last exponential mean of a non-empty prefix, seeded by its first value. */
  function EmaLast(xs: seq<real>, alpha: real): real
    requires |xs| > 0
  {
    if |xs| == 1 then xs[0]
    else Smooth(alpha, xs[|xs| - 1], EmaLast(xs[..|xs| - 1], alpha))
  }

  /** `ewm(span=period, adjust=False).mean()`: defined at every row, no NaN prefix. */
  function Ema(xs: seq<real>, period: nat): (r: seq<real>)
    requires period >= 1
    ensures |r| == |xs|
    ensures |xs| > 0 ==> r[0] == xs[0]
    ensures forall i :: 1 <= i < |xs| ==> r[i] == Smooth(Alpha(period), xs[i], r[i - 1])
  {
    var r := PrefixAverages(xs, Alpha(period));
    EmaCells(xs, Alpha(period), r);
    r
  }

  /** The smoothed value of every prefix. */
  function PrefixAverages(xs: seq<real>, alpha: real): (r: seq<real>)
    ensures |r| == |xs| && forall i :: 0 <= i < |xs| ==> r[i] == EmaLast(xs[..i + 1], alpha)
  {
    seq(|xs|, i requires 0 <= i < |xs| => EmaLast(xs[..i + 1], alpha))
  }

  /** A row of prefix averages follows the smoothing recurrence. */
  lemma EmaCells(xs: seq<real>, alpha: real, r: seq<real>)
    requires |r| == |xs| && forall i :: 0 <= i < |xs| ==> r[i] == EmaLast(xs[..i + 1], alpha)
    ensures |xs| > 0 ==> r[0] == xs[0]
    ensures forall i :: 1 <= i < |xs| ==> r[i] == Smooth(alpha, xs[i], r[i - 1])
  {
    if |xs| > 0 {
      assert r[0] == EmaLast(xs[..1], alpha);
      assert xs[..1] == [xs[0]];
    }
    forall i | 1 <= i < |xs|
      ensures r[i] == Smooth(alpha, xs[i], r[i - 1])
    {
      assert r[i - 1] == EmaLast(xs[..i], alpha);
      EmaStep(xs, i, alpha);
    }
  }

  /** The average of a prefix folds its newest value into the shorter prefix's average. */
  lemma EmaStep(xs: seq<real>, i: nat, alpha: real)
    requires 1 <= i < |xs|
    ensures EmaLast(xs[..i + 1], alpha) == Smooth(alpha, xs[i], EmaLast(xs[..i], alpha))
  {
    assert xs[..i + 1][..i] == xs[..i];
    assert xs[..i + 1][i] == xs[i];
  }

  lemma MulNonNeg(a: real, b: real)
    requires a >= 0.0 && b >= 0.0
    ensures a * b >= 0.0
  {
  }

  /** A weighted mean of two values inside [lo, hi] stays inside. */
  lemma Convex(a: real, x: real, y: real, lo: real, hi: real)
    requires 0.0 < a <= 1.0 && lo <= x <= hi && lo <= y <= hi
    ensures lo <= a * x + (1.0 - a) * y <= hi
  {
    MulNonNeg(a, x - lo);
    MulNonNeg(1.0 - a, y - lo);
    MulNonNeg(a, hi - x);
    MulNonNeg(1.0 - a, hi - y);
  }

  lemma {:induction false} EmaLastBounded(xs: seq<real>, alpha: real, lo: real, hi: real)
    requires |xs| > 0 && 0.0 < alpha <= 1.0
    requires forall i :: 0 <= i < |xs| ==> lo <= xs[i] <= hi
    ensures lo <= EmaLast(xs, alpha) <= hi
  {
    if |xs| > 1 {
      EmaLastBounded(xs[..|xs| - 1], alpha, lo, hi);
      Convex(alpha, xs[|xs| - 1], EmaLast(xs[..|xs| - 1], alpha), lo, hi);
    }
  }

  /** Every exponential mean lies within the range of the prices it averages. */
  lemma EmaBounded(xs: seq<real>, period: nat, lo: real, hi: real)
    requires period >= 1
    requires forall i :: 0 <= i < |xs| ==> lo <= xs[i] <= hi
    ensures forall i :: 0 <= i < |xs| ==> lo <= Ema(xs, period)[i] <= hi
  {
    forall i | 0 <= i < |xs|
      ensures lo <= Ema(xs, period)[i] <= hi
    {
      EmaLastBounded(xs[..i + 1], Alpha(period), lo, hi);
    }
  }

  /** Iterative evaluation of the recursion, as pandas does it row by row. */
  method IterativeEma(xs: seq<real>, period: nat) returns (r: seq<real>)
    requires period >= 1
    ensures r == Ema(xs, period)
  {
    r := [];
    var a := Alpha(period);
    var i := 0;
    while i < |xs|
      invariant 0 <= i <= |xs|
      invariant |r| == i
      invariant forall j :: 0 <= j < i ==> r[j] == Ema(xs, period)[j]
    {
      var v := if i == 0 then xs[0] else Smooth(a, xs[i], r[i - 1]);
      r := r + [v];
      i := i + 1;
    }
  }

  // --------------------------------------------------------------- MACD

  datatype MacdRow = MacdRow(macd: real, signal: real, hist: real)

  /** `calculate_macd`: fast EMA minus slow EMA, its EMA as signal line, and the gap. */
  function Macd(xs: seq<real>, fast: nat, slow: nat, signal: nat): (r: seq<MacdRow>)
    requires fast >= 1 && slow >= 1 && signal >= 1
    ensures |r| == |xs|
    ensures forall i :: 0 <= i < |xs| ==> r[i].hist + r[i].signal == r[i].macd
  {
    var line := seq(|xs|, i requires 0 <= i < |xs| => Ema(xs, fast)[i] - Ema(xs, slow)[i]);
    var sig := Ema(line, signal);
    seq(|xs|, i requires 0 <= i < |xs| => MacdRow(line[i], sig[i], line[i] - sig[i]))
  }

  /** A flat price series has a flat, zero MACD: no crossover can ever fire on it. */
  lemma MacdOfFlatSeries(xs: seq<real>, c: real, fast: nat, slow: nat, signal: nat)
    requires fast >= 1 && slow >= 1 && signal >= 1
    requires forall i :: 0 <= i < |xs| ==> xs[i] == c
    ensures forall i :: 0 <= i < |xs| ==>
      Macd(xs, fast, slow, signal)[i] == MacdRow(0.0, 0.0, 0.0)
  {
    EmaBounded(xs, fast, c, c);
    EmaBounded(xs, slow, c, c);
    var line := seq(|xs|, i requires 0 <= i < |xs| => Ema(xs, fast)[i] - Ema(xs, slow)[i]);
    EmaBounded(line, signal, 0.0, 0.0);
  }

  // ---------------------------------------------------------- Bollinger

  /** One row of the three band columns; each may be NaN on its own. */
  datatype Band = Band(upper: Option<real>, middle: Option<real>, lower: Option<real>)

  function SqDev(xs: seq<real>, m: real): (r: real)
    ensures r >= 0.0
  {
    if |xs| == 0 then 0.0
    else
      var d := xs[|xs| - 1] - m;
      assert d * d >= 0.0;
      SqDev(xs[..|xs| - 1], m) + d * d
  }

  /**
   * `rolling(window=period).std()`: the sample deviation (ddof = 1), NaN
   * before the first full window and for a one-row window. The square root
   * is a parameter; it is only ever applied to a non-negative variance.
   */
  function RollingStd(xs: seq<real>, period: nat, i: nat, root: real -> real): Option<real>
    requires period >= 1 && i < |xs|
  {
    if i < period - 1 || period < 2 then None
    else
      var w := xs[i - period + 1..i + 1];
      Some(root(SqDev(w, Mean(w)) / ((period - 1) as real)))
  }

  /** One row of `calculate_boll`: the trailing mean, and ±stdDev deviations once the deviation exists. */
  function BollAt(xs: seq<real>, period: nat, stdDev: real, root: real -> real, i: nat): (b: Band)
    requires period >= 1 && i < |xs|
    ensures b.middle == Sma(xs, period)[i]
    ensures b.upper.Some? <==> b.lower.Some?
    ensures b.upper.Some? <==> period >= 2 && i >= period - 1
    ensures b.upper.Some? ==> b.middle.Some? && b.upper.value + b.lower.value == 2.0 * b.middle.value
  {
    match (Sma(xs, period)[i], RollingStd(xs, period, i, root))
    case (Some(m), Some(s)) => Band(Some(m + s * stdDev), Some(m), Some(m - s * stdDev))
    case (m, _) => Band(None, m, None)
  }

  /** `calculate_boll`: middle band is the trailing mean, the others are ±stdDev deviations. */
  function Boll(xs: seq<real>, period: nat, stdDev: real, root: real -> real): (r: seq<Band>)
    requires period >= 1
    ensures |r| == |xs|
    ensures forall i :: 0 <= i < |xs| ==> r[i].middle == Sma(xs, period)[i]
    ensures forall i :: 0 <= i < |xs| ==> (r[i].upper.Some? <==> r[i].lower.Some?)
    ensures forall i :: 0 <= i < |xs| ==> (r[i].upper.Some? <==> period >= 2 && i >= period - 1)
    ensures forall i :: 0 <= i < |xs| && r[i].upper.Some? ==>
      r[i].middle.Some? && r[i].upper.value + r[i].lower.value == 2.0 * r[i].middle.value
  {
    seq(|xs|, i requires 0 <= i < |xs| => BollAt(xs, period, stdDev, root, i))
  }

  /** With a non-negative multiplier the bands are ordered and symmetric about the middle. */
  lemma BollOrdered(xs: seq<real>, period: nat, stdDev: real, root: real -> real, i: nat)
    requires period >= 1 && i < |xs| && stdDev >= 0.0
    requires forall v :: v >= 0.0 ==> root(v) >= 0.0
    requires Boll(xs, period, stdDev, root)[i].upper.Some?
    ensures var b := Boll(xs, period, stdDev, root)[i];
      b.middle.Some? && b.lower.Some? &&
      b.lower.value <= b.middle.value <= b.upper.value &&
      b.upper.value - b.middle.value == b.middle.value - b.lower.value
  {
    var w := xs[i - period + 1..i + 1];
    assert SqDev(w, Mean(w)) / ((period - 1) as real) >= 0.0;
    var s := RollingStd(xs, period, i, root).value;
    assert s >= 0.0;
    assert s * stdDev >= 0.0;
  }

  // ---------------------------------------------------------------- RSI

  /** `data.diff()` with its leading NaN, which `.where` later turns into 0. */
  function Deltas(xs: seq<real>): (d: seq<real>)
    ensures |d| == |xs|
  {
    seq(|xs|, i requires 0 <= i < |xs| => if i == 0 then 0.0 else xs[i] - xs[i - 1])
  }

  function Gains(xs: seq<real>): (g: seq<real>)
    ensures |g| == |xs| && forall i :: 0 <= i < |xs| ==> g[i] >= 0.0
  {
    var d := Deltas(xs);
    seq(|xs|, i requires 0 <= i < |xs| => if d[i] > 0.0 then d[i] else 0.0)
  }

  function Losses(xs: seq<real>): (l: seq<real>)
    ensures |l| == |xs| && forall i :: 0 <= i < |xs| ==> l[i] >= 0.0
  {
    var d := Deltas(xs);
    seq(|xs|, i requires 0 <= i < |xs| => if d[i] < 0.0 then -d[i] else 0.0)
  }

  /**
   * `100 - 100 / (1 + gain / loss)` in IEEE arithmetic: a zero loss with a
   * positive gain makes the ratio +inf and the RSI exactly 100; a zero loss
   * with a zero gain is 0/0, NaN.
   */
  function RsiValue(gain: real, loss: real): Option<real>
    requires gain >= 0.0 && loss >= 0.0
  {
    if loss == 0.0 then (if gain > 0.0 then Some(100.0) else None)
    else Some(100.0 - 100.0 / (1.0 + gain / loss))
  }

  /** Away from the 0/0 case RSI is the gain share of all movement, in percent. */
  lemma RsiIsGainShare(gain: real, loss: real)
    requires gain >= 0.0 && loss >= 0.0 && gain + loss > 0.0
    ensures RsiValue(gain, loss) == Some(100.0 * gain / (gain + loss))
  {
    if loss != 0.0 {
      var r := gain / loss;
      var q := 1.0 + r;
      assert gain == r * loss;
      assert gain + loss == q * loss;
      var v := 100.0 / q;
      assert v * q == 100.0;
      assert v * (gain + loss) == 100.0 * loss;
      assert v == 100.0 * loss / (gain + loss);
      assert 100.0 * loss / (gain + loss) + 100.0 * gain / (gain + loss) == 100.0;
      assert 100.0 - 100.0 / (1.0 + gain / loss) == 100.0 * gain / (gain + loss);
    } else {
      assert 100.0 * gain / (gain + loss) == 100.0;
    }
  }

  lemma RsiValueRange(gain: real, loss: real)
    requires gain >= 0.0 && loss >= 0.0
    ensures RsiValue(gain, loss).Some? ==> 0.0 <= RsiValue(gain, loss).value <= 100.0
  {
    if gain + loss > 0.0 {
      RsiIsGainShare(gain, loss);
      assert 100.0 * gain / (gain + loss) <= 100.0 * (gain + loss) / (gain + loss);
    }
  }

  lemma {:induction false} SumNonNegative(xs: seq<real>)
    requires forall i :: 0 <= i < |xs| ==> xs[i] >= 0.0
    ensures Sum(xs) >= 0.0
  {
    if |xs| > 0 {
      SumNonNegative(xs[..|xs| - 1]);
    }
  }

  lemma MeanNonNegative(xs: seq<real>)
    requires |xs| > 0 && forall i :: 0 <= i < |xs| ==> xs[i] >= 0.0
    ensures Mean(xs) >= 0.0
  {
    SumNonNegative(xs);
  }

  function RsiAt(xs: seq<real>, period: nat, i: nat): Option<real>
    requires period >= 1 && i < |xs|
  {
    if i < period - 1 then None
    else
      var gs := Gains(xs)[i - period + 1..i + 1];
      var ls := Losses(xs)[i - period + 1..i + 1];
      MeanNonNegative(gs);
      MeanNonNegative(ls);
      RsiValue(Mean(gs), Mean(ls))
  }

  /** `calculate_rsi`: NaN before the first full window, and within [0, 100] wherever defined. */
  function Rsi(xs: seq<real>, period: nat): (r: seq<Option<real>>)
    requires period >= 1
    ensures |r| == |xs|
    ensures forall i :: 0 <= i < |xs| && i < period - 1 ==> r[i].None?
    ensures forall i :: 0 <= i < |xs| && r[i].Some? ==> 0.0 <= r[i].value <= 100.0
  {
    RsiRange(xs, period);
    seq(|xs|, i requires 0 <= i < |xs| => RsiAt(xs, period, i))
  }

  lemma RsiRange(xs: seq<real>, period: nat)
    requires period >= 1
    ensures forall i :: 0 <= i < |xs| && RsiAt(xs, period, i).Some? ==>
      0.0 <= RsiAt(xs, period, i).value <= 100.0
  {
    forall i | 0 <= i < |xs| && RsiAt(xs, period, i).Some?
      ensures 0.0 <= RsiAt(xs, period, i).value <= 100.0
    {
      var gs := Gains(xs)[i - period + 1..i + 1];
      var ls := Losses(xs)[i - period + 1..i + 1];
      MeanNonNegative(gs);
      MeanNonNegative(ls);
      RsiValueRange(Mean(gs), Mean(ls));
    }
  }
}

=== FILE: risk.dfy ===
/**
 * The live executor's risk manager (position sizing, stop-loss and
 * take-profit) and its position book.
 */
module Risk {
  import opened Common

  datatype RiskConfig = RiskConfig(
    maxPositionSize: real,    // largest holding, in coins
    maxPositionUsdt: real,    // largest notional, in USDT
    maxTotalPosition: real,   // share of the balance that may be committed
    stopLossPct: real,
    takeProfitPct: real,
    minConfidence: real,
    leverage: int)

  const DefaultRisk: RiskConfig := RiskConfig(0.1, 1000.0, 0.5, 0.02, 0.05, 70.0, 5)

  /* ---------- Quotient helpers ---------- */

  /** With a positive divisor, staying below a quotient is staying below the product. */
  lemma QuotientCap(a: real, p: real, x: real)
    ensures p > 0.0 && x <= a / p ==> x * p <= a
  {
    if p > 0.0 {
      DivCompare(a, p, x);
    }
  }

  lemma DivMonotone(a: real, b: real, p: real)
    requires a <= b && p > 0.0
    ensures a / p <= b / p
  {
    DivCompare(b, p, a / p);
    assert a / p * p == a;
  }

  /* ---------- Position sizing ---------- */

  /** The notional the signal may command: the tighter cap, scaled by the confidence percentage. */
  function Budget(cfg: RiskConfig, confidence: real, balance: real): real
  {
    MinR(cfg.maxPositionUsdt, balance * cfg.maxTotalPosition) * (confidence / 100.0)
  }

  /**
   * The quantity to open: the budget in coins, capped by the holding limit,
   * less what is already held, capped by 95% of the balance, never negative.
   * A zero price past the confidence gate raises ZeroDivisionError.
   */
  function PositionSize(cfg: RiskConfig, confidence: real, price: real, balance: real, existing: real): (r: Result<real>)
    ensures confidence < cfg.minConfidence ==> r == Ok(0.0)
    ensures r.Failure? <==> confidence >= cfg.minConfidence && price == 0.0
    ensures r.Ok? ==> r.value >= 0.0
    ensures price > 0.0 && r.Ok? && r.value > 0.0 ==>
      r.value + existing <= cfg.maxPositionSize &&
      r.value * price <= balance * 0.95 &&
      (r.value + existing) * price <= Budget(cfg, confidence, balance)
    ensures price > 0.0 && r.Ok? && r.value > 0.0 ==>
      r.value + existing == cfg.maxPositionSize ||
      (r.value + existing) * price == Budget(cfg, confidence, balance) ||
      r.value * price == balance * 0.95
    ensures price > 0.0 && confidence >= cfg.minConfidence ==>
      (r.value > 0.0 <==>
        existing < cfg.maxPositionSize && existing * price < Budget(cfg, confidence, balance) && balance > 0.0)
  {
    if confidence < cfg.minConfidence then Ok(0.0)
    else if price == 0.0 then Failure("division by zero")
    else
      var budget := Budget(cfg, confidence, balance);
      var targetSize := MinR(budget / price, cfg.maxPositionSize);
      var affordable := balance * 0.95 / price;
      var order := MinR(targetSize - existing, affordable);
      QuotientCap(balance * 0.95, price, order);
      QuotientCap(budget, price, order + existing);
      SizeReachesCap(budget, balance, price, existing, cfg.maxPositionSize);
      Ok(MaxR(0.0, order))
  }

  /** The order either fills up to one of the caps or is zero, and is positive exactly when every cap leaves room. */
  lemma SizeReachesCap(budget: real, balance: real, price: real, existing: real, maxSize: real)
    ensures price > 0.0 ==>
      var order := MinR(MinR(budget / price, maxSize) - existing, balance * 0.95 / price);
        (order > 0.0 ==>
          order + existing == maxSize || (order + existing) * price == budget || order * price == balance * 0.95) &&
        (order > 0.0 <==> existing < maxSize && existing * price < budget && balance > 0.0)
  {
    if price > 0.0 {
      assert budget / price * price == budget;
      assert balance * 0.95 / price * price == balance * 0.95;
      DivCompare(budget, price, existing);
      DivCompare(balance * 0.95, price, 0.0);
      assert existing < budget / price <==> existing * price < budget;
      assert balance * 0.95 / price > 0.0 <==> balance > 0.0;
    }
  }

  /** A more confident signal never buys less, as long as the budget cap is not negative. */
  lemma PositionSizeMonotone(cfg: RiskConfig, c1: real, c2: real, price: real, balance: real, existing: real)
    requires cfg.minConfidence <= c1 <= c2 && price > 0.0
    requires MinR(cfg.maxPositionUsdt, balance * cfg.maxTotalPosition) >= 0.0
    ensures PositionSize(cfg, c1, price, balance, existing).value <= PositionSize(cfg, c2, price, balance, existing).value
  {
    var cap := MinR(cfg.maxPositionUsdt, balance * cfg.maxTotalPosition);
    assert cap * (c1 / 100.0) <= cap * (c2 / 100.0) by {
      MulLe(cap, c1 / 100.0, c2 / 100.0);
    }
    DivMonotone(Budget(cfg, c1, balance), Budget(cfg, c2, balance), price);
  }

  lemma MulLe(k: real, a: real, b: real)
    requires k >= 0.0 && a <= b
    ensures k * a <= k * b
  {
  }

  /** Worked example: 10,000 USDT, confidence 80, price 100, a 1,000 USDT cap. */
  lemma PositionSizeExample()
    ensures PositionSize(DefaultRisk.(maxPositionSize := 10.0), 80.0, 100.0, 10000.0, 0.0) == Ok(8.0)
    ensures PositionSize(DefaultRisk, 80.0, 100.0, 10000.0, 0.0) == Ok(0.1)
  {
    var cfg := DefaultRisk.(maxPositionSize := 10.0);
    assert Budget(cfg, 80.0, 10000.0) == 800.0;
    assert Budget(DefaultRisk, 80.0, 10000.0) == 800.0;
  }

  /* ---------- Stop-loss and take-profit ---------- */

  datatype CloseReason = KeepOpen | StopLoss | TakeProfit

  /** The position's return as a fraction of the entry price; a short profits from a falling price. */
  function PnlFraction(entry: real, current: real, long: bool): real
    requires entry != 0.0
  {
    if long then (current - entry) / entry else (entry - current) / entry
  }

  /** The price levels that trip each exit, for a positive entry price. */
  predicate StopLevelHit(cfg: RiskConfig, entry: real, current: real, long: bool)
  {
    if long then current <= entry * (1.0 - cfg.stopLossPct) else current >= entry * (1.0 + cfg.stopLossPct)
  }

  predicate TakeLevelHit(cfg: RiskConfig, entry: real, current: real, long: bool)
  {
    if long then current >= entry * (1.0 + cfg.takeProfitPct) else current <= entry * (1.0 - cfg.takeProfitPct)
  }

  /** Whether to exit; any side other than 'long' is treated as short, and a zero entry price raises. */
  function ShouldClosePosition(cfg: RiskConfig, entry: real, current: real, long: bool): (r: Result<CloseReason>)
    ensures r.Failure? <==> entry == 0.0
    ensures entry > 0.0 ==> (r == Ok(StopLoss) <==> StopLevelHit(cfg, entry, current, long))
    ensures entry > 0.0 ==> (r == Ok(TakeProfit) <==>
      !StopLevelHit(cfg, entry, current, long) && TakeLevelHit(cfg, entry, current, long))
  {
    if entry == 0.0 then Failure("division by zero")
    else
      var pnl := PnlFraction(entry, current, long);
      ExitLevels(cfg, entry, current, long);
      if pnl <= -cfg.stopLossPct then Ok(StopLoss)
      else if pnl >= cfg.takeProfitPct then Ok(TakeProfit)
      else Ok(KeepOpen)
  }

  /** The fraction thresholds of the source, read as price levels. */
  lemma ExitLevels(cfg: RiskConfig, entry: real, current: real, long: bool)
    requires entry != 0.0
    ensures entry > 0.0 ==> (PnlFraction(entry, current, long) <= -cfg.stopLossPct <==> StopLevelHit(cfg, entry, current, long))
    ensures entry > 0.0 ==> (PnlFraction(entry, current, long) >= cfg.takeProfitPct <==> TakeLevelHit(cfg, entry, current, long))
  {
    if entry > 0.0 {
      var gain := if long then current - entry else entry - current;
      DivCompare(gain, entry, -cfg.stopLossPct);
      DivCompare(gain, entry, cfg.takeProfitPct);
    }
  }

  /** A short is a long reflected about its entry price. */
  lemma ShortMirrorsLong(cfg: RiskConfig, entry: real, current: real)
    ensures ShouldClosePosition(cfg, entry, current, true) == ShouldClosePosition(cfg, entry, 2.0 * entry - current, false)
  {
    if entry != 0.0 {
      assert PnlFraction(entry, current, true) == PnlFraction(entry, 2.0 * entry - current, false);
    }
  }

  /** When both exits are due, the stop-loss wins. */
  lemma StopLossFirst(cfg: RiskConfig, entry: real, current: real, long: bool)
    requires entry > 0.0 && StopLevelHit(cfg, entry, current, long) && TakeLevelHit(cfg, entry, current, long)
    ensures ShouldClosePosition(cfg, entry, current, long) == Ok(StopLoss)
  {
  }

  /* ---------- Position book ---------- */

  /** An exchange position report; a missing key is None. */
  datatype PositionData = PositionData(side: Option<string>, contracts: Option<real>, entryPrice: Option<real>, unrealizedPnl: Option<real>)

  datatype PositionInfo = PositionInfo(side: Option<string>, size: real, entryPrice: real, unrealizedPnl: real)

  function OrZero(x: Option<real>): real
  {
    if x.Some? then x.value else 0.0
  }

  /** Record a symbol's position, missing numbers read as 0; the timestamp is not modelled. */
  function UpdatePosition(book: map<string, PositionInfo>, symbol: string, data: PositionData): (r: map<string, PositionInfo>)
    ensures r.Keys == book.Keys + {symbol}
    ensures r[symbol].size == OrZero(data.contracts) && r[symbol].side == data.side
    ensures r[symbol].entryPrice == OrZero(data.entryPrice)
    ensures r[symbol].unrealizedPnl == OrZero(data.unrealizedPnl)
    ensures forall s :: s in book && s != symbol ==> r[s] == book[s]
  {
    book[symbol := PositionInfo(data.side, OrZero(data.contracts), OrZero(data.entryPrice), OrZero(data.unrealizedPnl))]
  }

  function GetPosition(book: map<string, PositionInfo>, symbol: string): (r: Option<PositionInfo>)
    ensures r.Some? <==> symbol in book
    ensures r.Some? ==> r.value == book[symbol]
  {
    if symbol in book then Some(book[symbol]) else None
  }

  predicate HasPosition(book: map<string, PositionInfo>, symbol: string)
  {
    GetPosition(book, symbol).Some? && GetPosition(book, symbol).value.size > 0.0
  }

  /** After an update, a symbol is held exactly when the reported contracts are positive; others keep their state. */
  lemma HasPositionAfterUpdate(book: map<string, PositionInfo>, symbol: string, data: PositionData, other: string)
    ensures HasPosition(UpdatePosition(book, symbol, data), symbol) <==> data.contracts.Some? && data.contracts.value > 0.0
    ensures other != symbol ==> (HasPosition(UpdatePosition(book, symbol, data), other) <==> HasPosition(book, other))
  {
  }
}

=== FILE: strategies.dfy ===
/**
 * The single-indicator strategies of strategy.py: the position flag every
 * strategy keeps, the moving-average crossover, RSI threshold and MACD
 * crossover rules, the two-of-three vote, and the strategy factory.
 * Strategy confidences are fractions in [0, 1].
 */
module Strategies {
  import opened Common
  import opened Indicators

  // ----------------------------------------------------- position flag

  /** BaseStrategy's state: 0 flat, 1 long, -1 short, with the price of the last entry. */
  datatype PositionFlag = PositionFlag(position: int, entryPrice: real)

  const Flat: PositionFlag := PositionFlag(0, 0.0)

  /** `update_position`: buy goes long, sell goes short, anything else keeps the state. */
  function UpdatePosition(f: PositionFlag, action: string, price: real): (g: PositionFlag)
    ensures action == "buy" ==> g == PositionFlag(1, price)
    ensures action == "sell" ==> g == PositionFlag(-1, price)
    ensures action != "buy" && action != "sell" ==> g == f
  {
    if action == "buy" then PositionFlag(1, price)
    else if action == "sell" then PositionFlag(-1, price)
    else f
  }

  /** Replays a history of (action, price) updates from a starting flag. */
  function Replay(f: PositionFlag, events: seq<(string, real)>): PositionFlag
  {
    if |events| == 0 then f
    else UpdatePosition(Replay(f, events[..|events| - 1]), events[|events| - 1].0, events[|events| - 1].1)
  }

  predicate Decisive(e: (string, real)) { e.0 == "buy" || e.0 == "sell" }

  /** With no buy or sell in the history, the starting flag survives every hold and unknown action. */
  lemma {:induction false} ReplayWithoutDecisive(f: PositionFlag, events: seq<(string, real)>)
    requires forall i :: 0 <= i < |events| ==> !Decisive(events[i])
    ensures Replay(f, events) == f
  {
    if |events| > 0 {
      var init := events[..|events| - 1];
      assert forall i :: 0 <= i < |init| ==> init[i] == events[i];
      ReplayWithoutDecisive(f, init);
      assert !Decisive(events[|events| - 1]);
    }
  }

  /** After any history the flag is the one set by the last buy or sell; later holds leave it alone. */
  lemma {:induction false} ReplayFollowsLastDecisive(f: PositionFlag, events: seq<(string, real)>, k: nat)
    requires k < |events| && Decisive(events[k])
    requires forall j :: k < j < |events| ==> !Decisive(events[j])
    ensures Replay(f, events) == PositionFlag(if events[k].0 == "buy" then 1 else -1, events[k].1)
  {
    var n := |events|;
    var init := events[..n - 1];
    if k < n - 1 {
      assert init[k] == events[k];
      assert forall j :: k < j < |init| ==> init[j] == events[j];
      ReplayFollowsLastDecisive(f, init, k);
      assert !Decisive(events[n - 1]);
    }
  }

  /** From the flat state the flag only ever holds -1, 0 or 1. */
  lemma {:induction false} ReplayKeepsFlagInRange(events: seq<(string, real)>)
    ensures Replay(Flat, events).position in {-1, 0, 1}
  {
    if |events| > 0 {
      ReplayKeepsFlagInRange(events[..|events| - 1]);
    }
  }

  // ------------------------------------------------- strategy verdicts

  /** A strategy's answer: an action and a confidence fraction. */
  datatype Verdict = Verdict(action: Action, confidence: real)

  /** Golden cross of two lines between the previous and the last row (NaN never crosses). */
  predicate CrossUp(prevA: Option<real>, prevB: Option<real>, lastA: Option<real>, lastB: Option<real>)
  {
    OptLe(prevA, prevB) && OptGt(lastA, lastB)
  }

  predicate CrossDown(prevA: Option<real>, prevB: Option<real>, lastA: Option<real>, lastB: Option<real>)
  {
    OptGe(prevA, prevB) && OptLt(lastA, lastB)
  }

  /**
   * MovingAverageStrategy: the fast and slow trailing means of the closes;
   * buy on a golden cross, sell on a death cross, otherwise hold at 0.6.
   * With a single row the previous row is the last row itself.
   */
  function MaCrossSignal(closes: seq<real>, fast: nat, slow: nat): (v: Verdict)
    requires fast >= 1 && slow >= 1
    ensures |closes| < slow ==> v == Verdict(Hold, 0.0)
    ensures v.action == Buy <==>
      |closes| >= slow && |closes| >= 1 &&
      var n := |closes|; var p := if n > 1 then n - 2 else n - 1;
      CrossUp(Sma(closes, fast)[p], Sma(closes, slow)[p], Sma(closes, fast)[n - 1], Sma(closes, slow)[n - 1])
    ensures v.action == Sell <==>
      |closes| >= slow && |closes| >= 1 &&
      var n := |closes|; var p := if n > 1 then n - 2 else n - 1;
      CrossDown(Sma(closes, fast)[p], Sma(closes, slow)[p], Sma(closes, fast)[n - 1], Sma(closes, slow)[n - 1])
    ensures v.action == Buy ==> v.confidence == 0.8
    ensures v.action == Sell ==> v.confidence == 0.8
    ensures |closes| >= slow && v.action == Hold ==> v.confidence == 0.6
  {
    var n := |closes|;
    if n < slow then Verdict(Hold, 0.0)
    else
      var f := Sma(closes, fast);
      var s := Sma(closes, slow);
      var p := if n > 1 then n - 2 else n - 1;
      if CrossUp(f[p], s[p], f[n - 1], s[n - 1]) then Verdict(Buy, 0.8)
      else if CrossDown(f[p], s[p], f[n - 1], s[n - 1]) then Verdict(Sell, 0.8)
      else Verdict(Hold, 0.6)
  }

  /** Every defined trailing mean of a flat series is the series' value. */
  lemma SmaOfFlatSeries(closes: seq<real>, c: real, period: nat)
    requires period >= 1
    requires forall i :: 0 <= i < |closes| ==> closes[i] == c
    ensures forall k :: period - 1 <= k < |closes| ==> Sma(closes, period)[k] == Some(c)
  {
    forall k | period - 1 <= k < |closes|
      ensures Sma(closes, period)[k] == Some(c)
    {
      MeanBounds(closes[k - period + 1..k + 1], c, c);
    }
  }

  /** On a flat price series both means coincide, so the crossover never trades. */
  lemma MaCrossQuietOnFlatSeries(closes: seq<real>, c: real, fast: nat, slow: nat)
    requires fast >= 1 && slow >= 1
    requires forall i :: 0 <= i < |closes| ==> closes[i] == c
    ensures MaCrossSignal(closes, fast, slow).action == Hold
  {
    var n := |closes|;
    if n >= slow && n >= 1 {
      SmaOfFlatSeries(closes, c, fast);
      SmaOfFlatSeries(closes, c, slow);
      var f, s := Sma(closes, fast), Sma(closes, slow);
      assert s[n - 1] == Some(c);
      assert f[n - 1] == Some(c) || f[n - 1] == None;
      assert !OptGt(f[n - 1], s[n - 1]) && !OptLt(f[n - 1], s[n - 1]);
    }
  }

  /**
   * The RSI rule applied to one reading: buy below `oversold`, sell above
   * `overbought`, with a confidence that grows with the distance past the
   * threshold, capped at 0.9; a NaN reading holds at 0.
   */
  function RsiRule(rsi: Option<real>, oversold: real, overbought: real): (v: Verdict)
    requires rsi.Some? ==> 0.0 <= rsi.value <= 100.0
    ensures rsi.None? ==> v == Verdict(Hold, 0.0)
    ensures v.action == Buy <==> OptLt(rsi, Some(oversold))
    ensures v.action == Sell <==> !OptLt(rsi, Some(oversold)) && OptGt(rsi, Some(overbought))
    ensures v.action != Hold ==> 0.0 < v.confidence <= 0.9
    ensures v.action == Hold && rsi.Some? ==> v.confidence == 0.5
  {
    if rsi.None? then Verdict(Hold, 0.0)
    else if rsi.value < oversold then
      assert oversold > 0.0;
      assert (oversold - rsi.value) / oversold > 0.0;
      Verdict(Buy, MinR(0.9, (oversold - rsi.value) / oversold))
    else if rsi.value > overbought then
      assert 100.0 - overbought > 0.0;
      assert rsi.value - overbought > 0.0;
      assert (rsi.value - overbought) / (100.0 - overbought) > 0.0;
      Verdict(Sell, MinR(0.9, (rsi.value - overbought) / (100.0 - overbought)))
    else Verdict(Hold, 0.5)
  }

  /** RSIStrategy: the RSI rule on the last row, once there are `period + 1` rows. */
  function RsiThresholdSignal(closes: seq<real>, period: nat, oversold: real, overbought: real): (v: Verdict)
    requires period >= 1
    ensures |closes| < period + 1 ==> v == Verdict(Hold, 0.0)
    ensures |closes| >= period + 1 ==> v == RsiRule(Rsi(closes, period)[|closes| - 1], oversold, overbought)
  {
    var n := |closes|;
    if n < period + 1 then Verdict(Hold, 0.0)
    else RsiRule(Rsi(closes, period)[n - 1], oversold, overbought)
  }

  /** MACDStrategy: buy on a MACD/signal golden cross, sell on a death cross. */
  function MacdCrossSignal(closes: seq<real>, fast: nat, slow: nat, signal: nat): (v: Verdict)
    requires fast >= 1 && slow >= 1 && signal >= 1
    ensures |closes| < slow + signal ==> v == Verdict(Hold, 0.0)
    ensures v.action == Buy <==>
      |closes| >= slow + signal &&
      var m := Macd(closes, fast, slow, signal); var n := |closes|;
      m[n - 2].macd <= m[n - 2].signal && m[n - 1].macd > m[n - 1].signal
    ensures v.action == Sell <==>
      |closes| >= slow + signal &&
      var m := Macd(closes, fast, slow, signal); var n := |closes|;
      m[n - 2].macd >= m[n - 2].signal && m[n - 1].macd < m[n - 1].signal
    ensures v.action != Hold ==> v.confidence == 0.75
    ensures |closes| >= slow + signal && v.action == Hold ==> v.confidence == 0.6
  {
    var n := |closes|;
    if n < slow + signal then Verdict(Hold, 0.0)
    else
      var m := Macd(closes, fast, slow, signal);
      if m[n - 2].macd <= m[n - 2].signal && m[n - 1].macd > m[n - 1].signal then Verdict(Buy, 0.75)
      else if m[n - 2].macd >= m[n - 2].signal && m[n - 1].macd < m[n - 1].signal then Verdict(Sell, 0.75)
      else Verdict(Hold, 0.6)
  }

  /** 1 when the verdict backs action `a`. */
  function Backs(a: Action, v: Verdict): nat
  {
    if v.action == a then 1 else 0
  }

  /** How many of the three verdicts back `a`. */
  function VotesFor(a: Action, x: Verdict, y: Verdict, z: Verdict): nat
  {
    Backs(a, x) + Backs(a, y) + Backs(a, z)
  }

  /** The summed confidence of the verdicts backing `a`. */
  function ConfidenceFor(a: Action, x: Verdict, y: Verdict, z: Verdict): real
  {
    (if x.action == a then x.confidence else 0.0) +
    (if y.action == a then y.confidence else 0.0) +
    (if z.action == a then z.confidence else 0.0)
  }

  /**
   * CombinedStrategy's vote: an action backed by at least two of the three
   * strategies wins (buy is asked first) with the mean confidence of its
   * backers; otherwise hold at 0.5.
   */
  function MajorityVote(a: Verdict, b: Verdict, c: Verdict): (v: Verdict)
    ensures v.action == Buy <==> VotesFor(Buy, a, b, c) >= 2
    ensures v.action == Sell <==> VotesFor(Buy, a, b, c) < 2 && VotesFor(Sell, a, b, c) >= 2
    ensures v.action == Hold ==> v.confidence == 0.5
    ensures v.action != Hold ==>
      v.confidence == ConfidenceFor(v.action, a, b, c) / (VotesFor(v.action, a, b, c) as real)
  {
    var buys := VotesFor(Buy, a, b, c);
    var sells := VotesFor(Sell, a, b, c);
    if buys >= 2 then Verdict(Buy, ConfidenceFor(Buy, a, b, c) / (buys as real))
    else if sells >= 2 then Verdict(Sell, ConfidenceFor(Sell, a, b, c) / (sells as real))
    else Verdict(Hold, 0.5)
  }

  /** At most one action can gather two of three votes, so buy-first never hides a sell majority. */
  lemma MajorityIsUnique(a: Verdict, b: Verdict, c: Verdict)
    ensures !(VotesFor(Buy, a, b, c) >= 2 && VotesFor(Sell, a, b, c) >= 2)
    ensures MajorityVote(a, b, c).action == Sell <==> VotesFor(Sell, a, b, c) >= 2
  {
  }

  /** The vote does not depend on the order in which the strategies are consulted. */
  lemma MajorityVoteIsSymmetric(a: Verdict, b: Verdict, c: Verdict)
    ensures MajorityVote(a, b, c) == MajorityVote(b, a, c)
    ensures MajorityVote(a, b, c) == MajorityVote(a, c, b)
  {
  }

  /** A winning vote's confidence lies within the range of its backers' confidences. */
  lemma MajorityVoteWithinBackers(a: Verdict, b: Verdict, c: Verdict, lo: real, hi: real)
    requires lo <= a.confidence <= hi && lo <= b.confidence <= hi && lo <= c.confidence <= hi
    ensures MajorityVote(a, b, c).action != Hold ==> lo <= MajorityVote(a, b, c).confidence <= hi
  {
    var v := MajorityVote(a, b, c);
    if v.action != Hold {
      var k := VotesFor(v.action, a, b, c);
      var s := ConfidenceFor(v.action, a, b, c);
      if k == 2 {
        assert 2.0 * lo <= s <= 2.0 * hi;
      } else {
        assert k == 3;
        assert 3.0 * lo <= s <= 3.0 * hi;
      }
    }
  }

  /** CombinedStrategy with its default sub-strategies MA(5, 20), RSI(14, 30, 70), MACD(12, 26, 9). */
  function CombinedSignal(closes: seq<real>): (v: Verdict)
    ensures |closes| < 20 ==> v == Verdict(Hold, 0.5)
    ensures var ma, rsi, macd := MaCrossSignal(closes, 5, 20), RsiThresholdSignal(closes, 14, 30.0, 70.0),
                                  MacdCrossSignal(closes, 12, 26, 9);
      (v.action == Buy <==> VotesFor(Buy, ma, rsi, macd) >= 2) &&
      (v.action == Sell <==> VotesFor(Sell, ma, rsi, macd) >= 2)
  {
    MajorityIsUnique(
      MaCrossSignal(closes, 5, 20),
      RsiThresholdSignal(closes, 14, 30.0, 70.0),
      MacdCrossSignal(closes, 12, 26, 9));
    MajorityVote(
      MaCrossSignal(closes, 5, 20),
      RsiThresholdSignal(closes, 14, 30.0, 70.0),
      MacdCrossSignal(closes, 12, 26, 9))
  }

  // ---------------------------------------------------------- factory

  datatype StrategyKind = MovingAverage | RsiStrategy | MacdStrategy | CombinedStrategy

  function NameOf(k: StrategyKind): string
  {
    match k
    case MovingAverage => "MovingAverage"
    case RsiStrategy => "RSI"
    case MacdStrategy => "MACD"
    case CombinedStrategy => "Combined"
  }

  /** `create_strategy`: the four registered names; any other name is the ValueError path. */
  function CreateStrategy(name: string): (r: Option<StrategyKind>)
    ensures r.None? <==> name !in {"MovingAverage", "RSI", "MACD", "Combined"}
  {
    if name == "MovingAverage" then Some(MovingAverage)
    else if name == "RSI" then Some(RsiStrategy)
    else if name == "MACD" then Some(MacdStrategy)
    else if name == "Combined" then Some(CombinedStrategy)
    else None
  }

  /** Every strategy is created from exactly its own registered name. */
  lemma CreateStrategyRoundTrip(k: StrategyKind, name: string)
    ensures CreateStrategy(NameOf(k)) == Some(k)
    ensures CreateStrategy(name) == Some(k) ==> name == NameOf(k)
  {
  }

  /** `generate_signal` of a strategy built by the factory, with its default parameters. */
  function GenerateSignal(k: StrategyKind, closes: seq<real>): (v: Verdict)
    ensures |closes| < 15 ==> v.action == Hold
    ensures k != CombinedStrategy && |closes| < 15 ==> v.confidence == 0.0
    ensures k == CombinedStrategy && |closes| < 20 ==> v.confidence == 0.5
  {
    match k
    case MovingAverage => MaCrossSignal(closes, 5, 20)
    case RsiStrategy => RsiThresholdSignal(closes, 14, 30.0, 70.0)
    case MacdStrategy => MacdCrossSignal(closes, 12, 26, 9)
    case CombinedStrategy => CombinedSignal(closes)
  }

  /** The combined strategy buys (sells) exactly when two of the three single strategies the factory builds do. */
  lemma CombinedIsMajorityOfSingles(closes: seq<real>)
    ensures var ma, rsi, macd := GenerateSignal(MovingAverage, closes), GenerateSignal(RsiStrategy, closes),
                                  GenerateSignal(MacdStrategy, closes);
      (GenerateSignal(CombinedStrategy, closes).action == Buy <==> VotesFor(Buy, ma, rsi, macd) >= 2) &&
      (GenerateSignal(CombinedStrategy, closes).action == Sell <==> VotesFor(Sell, ma, rsi, macd) >= 2)
  {
  }
}

=== FILE: trend.dfy ===
/**
 * The multi-timeframe trend analyser of trend_strength.py: whether the
 * highs and lows of the last few bars rise or fall, the per-timeframe
 * verdict built from the two, the 60% vote across timeframes, and the
 * chunking of a flat price list into OHLC bars.
 */
module TrendStrength {
  import opened Common

  /** The analyser's configuration; the defaults are 1h/4h/1d and 3 bars. */
  datatype Config = Config(enabled: bool, periods: seq<string>, barsCount: nat)

  const DefaultConfig: Config := Config(true, ["1h", "4h", "1d"], 3)

  datatype Direction = Rising | Falling | Flat

  /** A timeframe's verdict; `Sideways` is the source's 'neutral' trend. */
  datatype Trend = Bullish | Bearish | Sideways

  datatype PeriodTrend = PeriodTrend(trend: Trend, highTrend: Direction, lowTrend: Direction, strength: int)

  function FlipDirection(d: Direction): Direction
  {
    match d
    case Rising => Falling
    case Falling => Rising
    case Flat => Flat
  }

  function FlipTrend(t: Trend): Trend
  {
    match t
    case Bullish => Bearish
    case Bearish => Bullish
    case Sideways => Sideways
  }

  function Negate(xs: seq<real>): (r: seq<real>)
    ensures |r| == |xs| && forall i :: 0 <= i < |xs| ==> r[i] == -xs[i]
  {
    seq(|xs|, i requires 0 <= i < |xs| => -xs[i])
  }

  // ------------------------------------------------------- price direction

  /** How many steps of the sequence go up. */
  function Ups(xs: seq<real>): (c: nat)
    ensures |xs| >= 1 ==> c <= |xs| - 1
  {
    if |xs| < 2 then 0
    else Ups(xs[..|xs| - 1]) + (if xs[|xs| - 1] > xs[|xs| - 2] then 1 else 0)
  }

  /** How many steps of the sequence go down. */
  function Downs(xs: seq<real>): (c: nat)
    ensures |xs| >= 1 ==> c <= |xs| - 1
  {
    if |xs| < 2 then 0
    else Downs(xs[..|xs| - 1]) + (if xs[|xs| - 1] < xs[|xs| - 2] then 1 else 0)
  }

  lemma {:induction false} UpsAndDownsShareSteps(xs: seq<real>)
    requires |xs| >= 1
    ensures Ups(xs) + Downs(xs) <= |xs| - 1
  {
    if |xs| >= 2 {
      UpsAndDownsShareSteps(xs[..|xs| - 1]);
    }
  }

  lemma {:induction false} UpsOfNegation(xs: seq<real>)
    ensures Ups(Negate(xs)) == Downs(xs) && Downs(Negate(xs)) == Ups(xs)
  {
    if |xs| >= 2 {
      assert Negate(xs)[..|xs| - 1] == Negate(xs[..|xs| - 1]);
      UpsOfNegation(xs[..|xs| - 1]);
    }
  }

  /**
   * `_analyze_price_sequence`: rising when at least 70% of the steps go up,
   * else falling when at least 70% go down, else flat (also for fewer than
   * two prices).
   */
  function PriceDirection(xs: seq<real>): (d: Direction)
    ensures d == Rising <==> |xs| >= 2 && 10 * Ups(xs) >= 7 * (|xs| - 1)
    ensures d == Falling <==> |xs| >= 2 && 10 * Downs(xs) >= 7 * (|xs| - 1)
  {
    if |xs| < 2 then Flat
    else
      UpsAndDownsShareSteps(xs);
      if 10 * Ups(xs) >= 7 * (|xs| - 1) then Rising
      else if 10 * Downs(xs) >= 7 * (|xs| - 1) then Falling
      else Flat
  }

  /** Turning the prices upside down turns the direction around. */
  lemma PriceDirectionOfNegation(xs: seq<real>)
    ensures PriceDirection(Negate(xs)) == FlipDirection(PriceDirection(xs))
  {
    UpsOfNegation(xs);
  }

  // ------------------------------------------------------ one timeframe

  /**
   * The verdict table: both rising 85 bullish, both falling 85 bearish, one
   * rising or falling with the other flat 60, opposite directions 40
   * sideways, both flat 30 sideways.
   */
  function Combine(high: Direction, low: Direction): (t: PeriodTrend)
    ensures t.highTrend == high && t.lowTrend == low
    ensures t.trend == Bullish <==> (high == Rising || low == Rising) && high != Falling && low != Falling
    ensures t.trend == Bearish <==> (high == Falling || low == Falling) && high != Rising && low != Rising
    ensures t.strength == 85 <==> high == low && high != Flat
    ensures t.strength == 60 <==> (high == Flat) != (low == Flat)
    ensures t.strength == 40 <==> (high == Rising && low == Falling) || (high == Falling && low == Rising)
    ensures t.strength == 30 <==> high == Flat && low == Flat
    ensures t.strength in {30, 40, 60, 85}
  {
    match (high, low)
    case (Rising, Rising) => PeriodTrend(Bullish, high, low, 85)
    case (Falling, Falling) => PeriodTrend(Bearish, high, low, 85)
    case (Rising, Flat) => PeriodTrend(Bullish, high, low, 60)
    case (Flat, Rising) => PeriodTrend(Bullish, high, low, 60)
    case (Falling, Flat) => PeriodTrend(Bearish, high, low, 60)
    case (Flat, Falling) => PeriodTrend(Bearish, high, low, 60)
    case (Rising, Falling) => PeriodTrend(Sideways, high, low, 40)
    case (Falling, Rising) => PeriodTrend(Sideways, high, low, 40)
    case (Flat, Flat) => PeriodTrend(Sideways, high, low, 30)
  }

  /** `analyze_high_low_trend`: the directions of the last `barsCount` highs and lows. */
  function AnalyzeHighLowTrend(barsCount: nat, bars: seq<Bar>): (t: PeriodTrend)
    ensures |bars| < barsCount ==> t == PeriodTrend(Sideways, Flat, Flat, 0)
    ensures |bars| >= barsCount ==>
      t.highTrend == PriceDirection(Highs(LastRows(bars, barsCount))) &&
      t.lowTrend == PriceDirection(Lows(LastRows(bars, barsCount)))
    ensures t.strength in {0, 30, 40, 60, 85}
    ensures t.trend != Sideways ==> t.strength >= 60
  {
    if |bars| < barsCount then PeriodTrend(Sideways, Flat, Flat, 0)
    else
      var recent := LastRows(bars, barsCount);
      Combine(PriceDirection(Highs(recent)), PriceDirection(Lows(recent)))
  }

  /** Bars before the last `barsCount` play no part in the verdict. */
  lemma HighLowTrendReadsOnlyTail(barsCount: nat, older: seq<Bar>, bars: seq<Bar>)
    requires |bars| >= barsCount
    ensures AnalyzeHighLowTrend(barsCount, older + bars) == AnalyzeHighLowTrend(barsCount, bars)
  {
    assert LastRows(older + bars, barsCount) == LastRows(bars, barsCount);
  }

  /** Swapping and turning around both directions turns the verdict around, strength kept. */
  lemma CombineFlip(high: Direction, low: Direction)
    ensures Combine(FlipDirection(low), FlipDirection(high)).trend == FlipTrend(Combine(high, low).trend)
    ensures Combine(FlipDirection(low), FlipDirection(high)).strength == Combine(high, low).strength
  {
  }

  lemma HighsOfMirror(bars: seq<Bar>)
    ensures Highs(MirrorAll(bars)) == Negate(Lows(bars))
    ensures Lows(MirrorAll(bars)) == Negate(Highs(bars))
  {
    var m := MirrorAll(bars);
    assert forall i :: 0 <= i < |bars| ==> Highs(m)[i] == Negate(Lows(bars))[i];
    assert forall i :: 0 <= i < |bars| ==> Lows(m)[i] == Negate(Highs(bars))[i];
  }

  lemma LastRowsOfMirror(bars: seq<Bar>, k: nat)
    ensures LastRows(MirrorAll(bars), k) == MirrorAll(LastRows(bars, k))
  {
    if k < |bars| {
      var n := |bars| - k;
      var a, b := MirrorAll(bars)[n..], MirrorAll(bars[n..]);
      forall i | 0 <= i < k
        ensures a[i] == b[i]
      {
        assert a[i] == Mirror(bars[n + i]);
      }
      assert a == b;
    }
  }

  lemma MirrorSwapsHighsAndLows(bars: seq<Bar>, k: nat)
    ensures Highs(LastRows(MirrorAll(bars), k)) == Negate(Lows(LastRows(bars, k)))
    ensures Lows(LastRows(MirrorAll(bars), k)) == Negate(Highs(LastRows(bars, k)))
  {
    LastRowsOfMirror(bars, k);
    HighsOfMirror(LastRows(bars, k));
  }

  /** Upside-down bars get the opposite trend with the same strength. */
  lemma HighLowTrendMirror(barsCount: nat, bars: seq<Bar>)
    ensures AnalyzeHighLowTrend(barsCount, MirrorAll(bars)).trend == FlipTrend(AnalyzeHighLowTrend(barsCount, bars).trend)
    ensures AnalyzeHighLowTrend(barsCount, MirrorAll(bars)).strength == AnalyzeHighLowTrend(barsCount, bars).strength
  {
    if |bars| >= barsCount {
      var recent := LastRows(bars, barsCount);
      MirrorSwapsHighsAndLows(bars, barsCount);
      PriceDirectionOfNegation(Lows(recent));
      PriceDirectionOfNegation(Highs(recent));
      CombineFlip(PriceDirection(Highs(recent)), PriceDirection(Lows(recent)));
    }
  }

  // ------------------------------------------------------ all timeframes

  /** Timeframes with data, and how many of them lean bullish or bearish with strength at least 60. */
  datatype Tally = Tally(total: nat, bullish: nat, bearish: nat)

  /** A frame is available when its key is present and its value is not None. */
  predicate Available(data: map<string, Option<seq<Bar>>>, period: string)
  {
    period in data && data[period].Some?
  }

  function TallyPeriods(barsCount: nat, periods: seq<string>, data: map<string, Option<seq<Bar>>>): (t: Tally)
    ensures t.bullish + t.bearish <= t.total <= |periods|
  {
    if |periods| == 0 then Tally(0, 0, 0)
    else
      var t := TallyPeriods(barsCount, periods[..|periods| - 1], data);
      var p := periods[|periods| - 1];
      if !Available(data, p) then t
      else
        CountFrame(t, AnalyzeHighLowTrend(barsCount, data[p].value))
  }

  /** Adds one available timeframe's verdict to the tally. */
  function CountFrame(t: Tally, r: PeriodTrend): (u: Tally)
    ensures u.total == t.total + 1
    ensures u.bullish == t.bullish + (if r.trend == Bullish && r.strength >= 60 then 1 else 0)
    ensures u.bearish == t.bearish + (if r.trend == Bearish && r.strength >= 60 then 1 else 0)
  {
    Tally(t.total + 1,
      t.bullish + (if r.trend == Bullish && r.strength >= 60 then 1 else 0),
      t.bearish + (if r.trend == Bearish && r.strength >= 60 then 1 else 0))
  }

  /**
   * `analyze_multi_timeframe`: hold at 0 when disabled or when no timeframe
   * has data; buy when at least 60% of the timeframes lean bullish (60 plus
   * 10 per bullish timeframe, at most 90), else sell on the same rule for
   * bearish ones, else hold at 40.
   */
  function AnalyzeMultiTimeframe(cfg: Config, data: map<string, Option<seq<Bar>>>): (s: Signal)
    ensures !cfg.enabled ==> s == Signal(Hold, 0)
    ensures s.action == Buy <==> (cfg.enabled &&
      var t := TallyPeriods(cfg.barsCount, cfg.periods, data);
      t.total > 0 && 10 * t.bullish >= 6 * t.total)
    ensures s.action == Sell <==> (cfg.enabled &&
      var t := TallyPeriods(cfg.barsCount, cfg.periods, data);
      t.total > 0 && 10 * t.bearish >= 6 * t.total)
    ensures s.action != Hold ==> 70 <= s.confidence <= 90
    ensures s.action == Buy ==> s.confidence == MinI(90, 60 + 10 * TallyPeriods(cfg.barsCount, cfg.periods, data).bullish)
    ensures s.action == Sell ==> s.confidence == MinI(90, 60 + 10 * TallyPeriods(cfg.barsCount, cfg.periods, data).bearish)
    ensures s.action == Hold ==> s.confidence in {0, 40}
    ensures cfg.enabled && TallyPeriods(cfg.barsCount, cfg.periods, data).total == 0 ==> s == Signal(Hold, 0)
    ensures cfg.enabled && TallyPeriods(cfg.barsCount, cfg.periods, data).total > 0 && s.action == Hold ==> s.confidence == 40
  {
    if !cfg.enabled then Signal(Hold, 0)
    else
      var t := TallyPeriods(cfg.barsCount, cfg.periods, data);
      if t.total == 0 then Signal(Hold, 0)
      else if 10 * t.bullish >= 6 * t.total then Signal(Buy, MinI(90, 60 + t.bullish * 10))
      else if 10 * t.bearish >= 6 * t.total then Signal(Sell, MinI(90, 60 + t.bearish * 10))
      else Signal(Hold, 40)
  }

  function MirrorData(data: map<string, Option<seq<Bar>>>): (m: map<string, Option<seq<Bar>>>)
    ensures m.Keys == data.Keys
    ensures forall k :: k in data ==> m[k] == (if data[k].Some? then Some(MirrorAll(data[k].value)) else None)
  {
    map k | k in data :: if data[k].Some? then Some(MirrorAll(data[k].value)) else None
  }

  /** The bullish and bearish counts of a tally trade places. */
  function SwapCounts(t: Tally): Tally
  {
    Tally(t.total, t.bearish, t.bullish)
  }

  lemma CountFrameMirror(t: Tally, r: PeriodTrend, m: PeriodTrend)
    requires m.trend == FlipTrend(r.trend) && m.strength == r.strength
    ensures CountFrame(SwapCounts(t), m) == SwapCounts(CountFrame(t, r))
  {
  }

  lemma MirrorDataAt(data: map<string, Option<seq<Bar>>>, p: string)
    ensures Available(MirrorData(data), p) <==> Available(data, p)
    ensures Available(data, p) ==> MirrorData(data)[p].value == MirrorAll(data[p].value)
  {
  }

  lemma {:induction false} TallyMirror(barsCount: nat, periods: seq<string>, data: map<string, Option<seq<Bar>>>)
    ensures TallyPeriods(barsCount, periods, MirrorData(data)) == SwapCounts(TallyPeriods(barsCount, periods, data))
  {
    if |periods| > 0 {
      var front := periods[..|periods| - 1];
      var p := periods[|periods| - 1];
      TallyMirror(barsCount, front, data);
      MirrorDataAt(data, p);
      if Available(data, p) {
        var bars := data[p].value;
        HighLowTrendMirror(barsCount, bars);
        CountFrameMirror(TallyPeriods(barsCount, front, data),
          AnalyzeHighLowTrend(barsCount, bars), AnalyzeHighLowTrend(barsCount, MirrorAll(bars)));
      }
    }
  }

  /** Upside-down markets in every timeframe turn a buy into a sell and back, with the same confidence. */
  lemma MultiTimeframeMirror(cfg: Config, data: map<string, Option<seq<Bar>>>)
    ensures var s := AnalyzeMultiTimeframe(cfg, data);
      var m := AnalyzeMultiTimeframe(cfg, MirrorData(data));
      (s.action == Buy <==> m.action == Sell) && (s.action == Sell <==> m.action == Buy) &&
      m.confidence == s.confidence
  {
    TallyMirror(cfg.barsCount, cfg.periods, data);
  }

  // ------------------------------------------------------------ price chunks

  /** One bar from a chunk of prices: first, highest, lowest and last price. */
  function ChunkBar(chunk: seq<real>): (b: Bar)
    requires |chunk| > 0
    ensures WellFormed(b)
    ensures b.open == chunk[0] && b.close == chunk[|chunk| - 1]
    ensures forall i :: 0 <= i < |chunk| ==> b.low <= chunk[i] <= b.high
  {
    Bar(chunk[0], SeqMax(chunk), SeqMin(chunk), chunk[|chunk| - 1])
  }

  lemma MulSucc(a: int, size: int)
    ensures (a + 1) * size == a * size + size
  {
  }

  /** Consecutive chunks of `size` prices from the front; a remainder shorter than `size` is dropped. */
  function Chunks(prices: seq<real>, size: nat): (r: seq<Bar>)
    requires size >= 1
    ensures forall j :: 0 <= j < |r| ==> WellFormed(r[j])
    decreases |prices|
  {
    if |prices| < size then []
    else [ChunkBar(prices[..size])] + Chunks(prices[size..], size)
  }

  /** There are as many bars as whole chunks: |r| * size <= |prices| < (|r| + 1) * size. */
  lemma {:induction false} ChunksCount(prices: seq<real>, size: nat)
    requires size >= 1
    ensures |Chunks(prices, size)| * size <= |prices| < (|Chunks(prices, size)| + 1) * size
    decreases |prices|
  {
    if |prices| >= size {
      var m := |Chunks(prices[size..], size)|;
      ChunksCount(prices[size..], size);
      MulSucc(m, size);
      MulSucc(m + 1, size);
    }
  }

  /** The j-th bar is made of the prices j * size up to (j + 1) * size. */
  /** A list of exactly k chunks gives k bars. */
  lemma {:induction false} ChunksOfWholeChunks(a: seq<real>, size: nat, k: nat)
    requires size >= 1 && |a| == k * size
    ensures |Chunks(a, size)| == k
    decreases k
  {
    if k > 0 {
      MulSucc(k - 1, size);
      ChunksOfWholeChunks(a[size..], size, k - 1);
    }
  }

  /** After j whole chunks, the next bar is the first bar of the rest. */
  lemma ChunkAfterWholeChunks(front: seq<real>, back: seq<real>, size: nat, j: nat)
    requires size >= 1 && |front| == j * size && |back| >= size
    ensures j < |Chunks(front + back, size)|
    ensures Chunks(front + back, size)[j] == ChunkBar(back[..size])
  {
    ChunksAppend(front, back, size, j);
    ChunksOfWholeChunks(front, size, j);
    assert Chunks(back, size)[0] == ChunkBar(back[..size]);
  }

  /** The j-th bar ends inside the list. */
  lemma ChunkEnd(prices: seq<real>, size: nat, j: nat) returns (start: nat)
    requires size >= 1 && j < |Chunks(prices, size)|
    ensures start == j * size && start + size <= |prices|
  {
    start := j * size;
    ChunksCount(prices, size);
    MulSucc(j, size);
    MulLe(j + 1, |Chunks(prices, size)|, size);
  }

  /** The j-th bar is made of the j-th run of `size` prices. */
  lemma ChunksAt(prices: seq<real>, size: nat, j: nat)
    requires size >= 1 && j < |Chunks(prices, size)|
    ensures j * size + size <= |prices|
    ensures Chunks(prices, size)[j] == ChunkBar(prices[j * size..j * size + size])
  {
    var start := ChunkEnd(prices, size, j);
    ChunkFrom(prices, size, j, start);
  }

  lemma ChunkFrom(prices: seq<real>, size: nat, j: nat, start: nat)
    requires size >= 1 && start == j * size && start + size <= |prices|
    ensures j < |Chunks(prices, size)|
    ensures Chunks(prices, size)[j] == ChunkBar(prices[start..start + size])
  {
    var front, back := prices[..start], prices[start..];
    assert front + back == prices;
    ChunkAfterWholeChunks(front, back, size, j);
    assert back[..size] == prices[start..start + size];
  }

  lemma MulLe(a: nat, b: nat, size: nat)
    requires a <= b
    ensures a * size <= b * size
  {
  }

  /**
   * `convert_prices_to_klines`: no bars for an empty list, for fewer prices
   * than the period or for a negative period (an empty `range`); a zero
   * period on a non-empty list is the `range` step error.
   */
  function ConvertPricesToKlines(prices: seq<real>, period: int): (r: Option<seq<Bar>>)
    ensures r.None? <==> |prices| > 0 && period == 0
    ensures period > 0 ==> r == Some(Chunks(prices, period))
    ensures r.Some? && period <= 0 ==> r.value == []
  {
    if |prices| == 0 || |prices| < period then Some([])
    else if period == 0 then None
    else if period < 0 then Some([])
    else Some(Chunks(prices, period))
  }

  /** Chunking a list whose first part is a whole number of periods chunks the two parts separately. */
  lemma {:induction false} ChunksAppend(a: seq<real>, b: seq<real>, size: nat, k: nat)
    requires size >= 1 && |a| == k * size
    ensures Chunks(a + b, size) == Chunks(a, size) + Chunks(b, size)
    decreases k
  {
    if k > 0 {
      MulSucc(k - 1, size);
      var ab := a + b;
      assert |a| >= size;
      assert ab[..size] == a[..size];
      assert ab[size..] == a[size..] + b;
      assert Chunks(ab, size) == [ChunkBar(ab[..size])] + Chunks(ab[size..], size);
      assert Chunks(a, size) == [ChunkBar(a[..size])] + Chunks(a[size..], size);
      ChunksAppend(a[size..], b, size, k - 1);
    } else {
      assert a + b == b;
    }
  }
}

=== FILE: versions.dfy ===
/**
 * Release-version comparison: only the runs of decimal digits in a version
 * string count, missing trailing components count as 0, and the padded
 * component lists are compared lexicographically.
 */
module Versions {

  predicate IsDigit(c: char) { '0' <= c <= '9' }

  /** Length of the run of digits that starts the string. */
  function LeadingDigits(s: string): (k: nat)
    ensures k <= |s|
    ensures forall i :: 0 <= i < k ==> IsDigit(s[i])
    ensures k < |s| ==> !IsDigit(s[k])
  {
    if |s| == 0 || !IsDigit(s[0]) then 0 else 1 + LeadingDigits(s[1..])
  }

  /** The value of a string of decimal digits. */
  function DecimalValue(d: string): nat
    requires forall i :: 0 <= i < |d| ==> IsDigit(d[i])
  {
    if |d| == 0 then 0
    else
      assert IsDigit(d[|d| - 1]);
      DecimalValue(d[..|d| - 1]) * 10 + (d[|d| - 1] as int - '0' as int)
  }

  /** The integers of all maximal digit runs, left to right (`re.findall(r'\d+')` then `int`). */
  function Components(v: string): (r: seq<nat>)
    ensures |r| > 0 <==> exists i :: 0 <= i < |v| && IsDigit(v[i])
    decreases |v|
  {
    if |v| == 0 then []
    else if !IsDigit(v[0]) then
      var r := Components(v[1..]);
      assert forall i :: 1 <= i < |v| ==> v[1..][i - 1] == v[i];
      r
    else
      var k := LeadingDigits(v);
      [DecimalValue(v[..k])] + Components(v[k..])
  }

  /** The digit run at the front of `a + b` is that of `a` unless `a` is all digits and `b` continues the run. */
  lemma {:induction false} LeadingDigitsOfJoin(a: string, b: string)
    requires LeadingDigits(a) < |a| || |b| == 0 || !IsDigit(b[0])
    ensures LeadingDigits(a + b) == LeadingDigits(a)
    decreases |a|
  {
    if |a| == 0 {
      assert a + b == b;
    } else if IsDigit(a[0]) {
      assert (a + b)[1..] == a[1..] + b;
      LeadingDigitsOfJoin(a[1..], b);
    }
  }

  /** Strings joined where no digit run is split: their components are concatenated. */
  lemma {:induction false} ComponentsJoin(a: string, b: string)
    requires |a| == 0 || |b| == 0 || !IsDigit(a[|a| - 1]) || !IsDigit(b[0])
    ensures Components(a + b) == Components(a) + Components(b)
    decreases |a|
  {
    if |a| == 0 {
      assert a + b == b;
    } else if !IsDigit(a[0]) {
      assert (a + b)[1..] == a[1..] + b;
      ComponentsJoin(a[1..], b);
    } else {
      var k := LeadingDigits(a);
      ComponentsJoin(a[k..], b);
      ComponentsJoinRun(a, b);
    }
  }

  /** The step of `ComponentsJoin` for a string that starts with a digit run. */
  lemma ComponentsJoinRun(a: string, b: string)
    requires |a| > 0 && IsDigit(a[0])
    requires |b| == 0 || !IsDigit(a[|a| - 1]) || !IsDigit(b[0])
    requires Components(a[LeadingDigits(a)..] + b) == Components(a[LeadingDigits(a)..]) + Components(b)
    ensures Components(a + b) == Components(a) + Components(b)
  {
    RunOfJoin(a, b);
    ComponentsOfRun(a);
  }

  /** Joining keeps the front digit run of `a` whole when nothing continues it. */
  lemma RunOfJoin(a: string, b: string)
    requires |a| > 0 && IsDigit(a[0])
    requires |b| == 0 || !IsDigit(a[|a| - 1]) || !IsDigit(b[0])
    ensures Components(a + b) == [DecimalValue(a[..LeadingDigits(a)])] + Components(a[LeadingDigits(a)..] + b)
  {
    LeadingDigitsOfJoin(a, b);
    SlicesOfJoin(a, b, LeadingDigits(a));
    ComponentsOfRun(a + b);
  }

  lemma SlicesOfJoin(a: string, b: string, k: nat)
    requires k <= |a|
    ensures (a + b)[..k] == a[..k] && (a + b)[k..] == a[k..] + b
  {
  }

  lemma ComponentsOfRun(v: string)
    requires |v| > 0 && IsDigit(v[0])
    ensures Components(v) == [DecimalValue(v[..LeadingDigits(v)])] + Components(v[LeadingDigits(v)..])
  {
  }

  function Zeros(n: nat): (z: seq<nat>)
    ensures |z| == n && forall i :: 0 <= i < n ==> z[i] == 0
  {
    seq(n, _ => 0)
  }

  function Pad(xs: seq<nat>, n: nat): (r: seq<nat>)
    ensures |r| == if |xs| >= n then |xs| else n
  {
    if |xs| >= n then xs else xs + Zeros(n - |xs|)
  }

  /** At position `k`, the lists agree before it and `xs` is larger. */
  predicate GreaterAt(xs: seq<nat>, ys: seq<nat>, k: int)
  {
    0 <= k < |xs| && k < |ys| && xs[..k] == ys[..k] && xs[k] > ys[k]
  }

  lemma PrefixHead(s: seq<nat>, k: int)
    ensures 0 < k <= |s| ==> s[..k][0] == s[0]
  {
  }

  /** A larger head decides: no position can favour the other list. */
  lemma GreaterAtHead(xs: seq<nat>, ys: seq<nat>)
    requires |xs| == |ys| > 0 && xs[0] > ys[0]
    ensures GreaterAt(xs, ys, 0)
    ensures forall k :: !GreaterAt(ys, xs, k)
  {
    forall k | GreaterAt(ys, xs, k) ensures false {
      PrefixHead(xs, k);
      PrefixHead(ys, k);
    }
  }

  /** Equal heads: the first difference lies one further along in the tails. */
  lemma GreaterAtTail(xs: seq<nat>, ys: seq<nat>)
    requires |xs| == |ys| > 0 && xs[0] == ys[0]
    ensures (exists k :: GreaterAt(xs, ys, k)) <==> exists k :: GreaterAt(xs[1..], ys[1..], k)
  {
    if k :| GreaterAt(xs, ys, k) {
      assert k > 0;
      assert xs[1..][..k - 1] == xs[..k][1..] && ys[1..][..k - 1] == ys[..k][1..];
      assert GreaterAt(xs[1..], ys[1..], k - 1);
    }
    if k :| GreaterAt(xs[1..], ys[1..], k) {
      assert xs[..k + 1] == [xs[0]] + xs[1..][..k] && ys[..k + 1] == [ys[0]] + ys[1..][..k];
      assert GreaterAt(xs, ys, k + 1);
    }
  }

  /** Python's list comparison for lists of the same length: the first difference decides. */
  function Lex(xs: seq<nat>, ys: seq<nat>): (r: int)
    requires |xs| == |ys|
    ensures r in {-1, 0, 1}
    ensures r == 0 <==> xs == ys
    ensures r == 1 <==> exists k :: GreaterAt(xs, ys, k)
    ensures r == -1 <==> exists k :: GreaterAt(ys, xs, k)
  {
    if |xs| == 0 then 0
    else if xs[0] > ys[0] then
      GreaterAtHead(xs, ys);
      1
    else if xs[0] < ys[0] then
      GreaterAtHead(ys, xs);
      -1
    else
      var r := Lex(xs[1..], ys[1..]);
      assert xs == [xs[0]] + xs[1..] && ys == [ys[0]] + ys[1..];
      GreaterAtTail(xs, ys);
      GreaterAtTail(ys, xs);
      r
  }

  function Max(a: nat, b: nat): nat { if a >= b then a else b }

  /** Compare component lists after padding the shorter one with zeros. */
  function CompareParts(xs: seq<nat>, ys: seq<nat>): (r: int)
    ensures r in {-1, 0, 1}
  {
    var n := Max(|xs|, |ys|);
    Lex(Pad(xs, n), Pad(ys, n))
  }

  /**
   * 1, 0 or -1 as the first version is newer, the same, or older: after
   * padding both component lists to the same length, equal lists give 0 and
   * otherwise the first differing component decides.
   */
  function CompareVersions(v1: string, v2: string): (r: int)
    ensures r in {-1, 0, 1}
    ensures var xs, ys := Components(v1), Components(v2); var n := Max(|xs|, |ys|);
      (r == 0 <==> Pad(xs, n) == Pad(ys, n)) &&
      (r == 1 <==> exists k :: GreaterAt(Pad(xs, n), Pad(ys, n), k)) &&
      (r == -1 <==> exists k :: GreaterAt(Pad(ys, n), Pad(xs, n), k))
  {
    CompareParts(Components(v1), Components(v2))
  }

  /** An update is offered exactly when, at the first differing padded component, the latest release is larger. */
  function UpdateAvailable(latest: string, current: string): (r: bool)
    ensures var xs, ys := Components(latest), Components(current); var n := Max(|xs|, |ys|);
      r <==> exists k :: GreaterAt(Pad(xs, n), Pad(ys, n), k)
  {
    CompareVersions(latest, current) > 0
  }

  /* ---------- Order properties ---------- */

  lemma {:induction false} LexAntisymmetric(xs: seq<nat>, ys: seq<nat>)
    requires |xs| == |ys|
    ensures Lex(xs, ys) == -Lex(ys, xs)
  {
    if |xs| > 0 && xs[0] == ys[0] {
      LexAntisymmetric(xs[1..], ys[1..]);
    }
  }

  lemma {:induction false} LexTransitive(xs: seq<nat>, ys: seq<nat>, zs: seq<nat>)
    requires |xs| == |ys| == |zs| && Lex(xs, ys) > 0 && Lex(ys, zs) > 0
    ensures Lex(xs, zs) > 0
  {
    if xs[0] == ys[0] && ys[0] == zs[0] {
      LexTransitive(xs[1..], ys[1..], zs[1..]);
    }
  }

  /** Appending the same number of zeros to both sides never changes the verdict. */
  lemma {:induction false} LexZeroExtension(xs: seq<nat>, ys: seq<nat>, k: nat)
    requires |xs| == |ys|
    ensures Lex(xs + Zeros(k), ys + Zeros(k)) == Lex(xs, ys)
  {
    if |xs| == 0 {
      assert xs + Zeros(k) == ys + Zeros(k);
    } else {
      assert (xs + Zeros(k))[1..] == xs[1..] + Zeros(k);
      assert (ys + Zeros(k))[1..] == ys[1..] + Zeros(k);
      LexZeroExtension(xs[1..], ys[1..], k);
    }
  }

  /** Padding further than needed changes nothing. */
  lemma PadFurther(xs: seq<nat>, ys: seq<nat>, n: nat, m: nat)
    requires |xs| <= n && |ys| <= n && n <= m
    ensures Lex(Pad(xs, m), Pad(ys, m)) == Lex(Pad(xs, n), Pad(ys, n))
  {
    assert Pad(xs, m) == Pad(xs, n) + Zeros(m - n);
    assert Pad(ys, m) == Pad(ys, n) + Zeros(m - n);
    LexZeroExtension(Pad(xs, n), Pad(ys, n), m - n);
  }

  lemma CompareAntisymmetric(v1: string, v2: string)
    ensures CompareVersions(v1, v2) == -CompareVersions(v2, v1)
  {
    var xs, ys := Components(v1), Components(v2);
    LexAntisymmetric(Pad(xs, Max(|xs|, |ys|)), Pad(ys, Max(|xs|, |ys|)));
    assert Max(|xs|, |ys|) == Max(|ys|, |xs|);
  }

  lemma CompareTransitive(v1: string, v2: string, v3: string)
    requires CompareVersions(v1, v2) > 0 && CompareVersions(v2, v3) > 0
    ensures CompareVersions(v1, v3) > 0
  {
    var xs, ys, zs := Components(v1), Components(v2), Components(v3);
    var n := Max(Max(|xs|, |ys|), |zs|);
    PadFurther(xs, ys, Max(|xs|, |ys|), n);
    PadFurther(ys, zs, Max(|ys|, |zs|), n);
    PadFurther(xs, zs, Max(|xs|, |zs|), n);
    LexTransitive(Pad(xs, n), Pad(ys, n), Pad(zs, n));
  }

  /** Missing trailing components count as zeros: 1.0 and 1.0.0 are the same release. */
  lemma TrailingZerosIgnored(xs: seq<nat>, k: nat)
    ensures CompareParts(xs, xs + Zeros(k)) == 0
  {
    var n := |xs| + k;
    assert Max(|xs|, |xs + Zeros(k)|) == n;
    assert Pad(xs, n) == xs + Zeros(k);
  }

  /** Every version compares equal to itself, so it is never flagged against itself; flagging is one-way. */
  lemma UpdateIsStrict(latest: string, current: string)
    ensures CompareVersions(current, current) == 0
    ensures !UpdateAvailable(current, current)
    ensures UpdateAvailable(latest, current) ==> !UpdateAvailable(current, latest)
  {
    CompareAntisymmetric(latest, current);
  }

  lemma ComponentsOneTwo()
    ensures Components("1.2") == [1, 2] && Components("v1.2") == [1, 2]
  {
    assert LeadingDigits("1.2") == 1;
    assert Components(".2") == Components("2");
    assert LeadingDigits("2") == 1;
    assert Components("v1.2") == Components("1.2");
  }

  lemma ComponentsLeadingZero()
    ensures Components("1.01") == [1, 1] && Components("1.1") == [1, 1]
  {
    assert LeadingDigits("1.01") == 1;
    assert Components(".01") == Components("01");
    assert LeadingDigits("01") == 2;
    assert "01"[..2] == "01" && "01"[..1] == "0";
    assert DecimalValue("01") == 1;
    assert LeadingDigits("1.1") == 1;
    assert Components(".1") == Components("1");
    assert LeadingDigits("1") == 1;
  }

  lemma ComponentsTrailingZero()
    ensures Components("1.0") == [1, 0] && Components("1.0.0") == [1, 0, 0]
  {
    assert LeadingDigits("0") == 1;
    assert LeadingDigits("0.0") == 1;
    assert Components(".0") == Components("0");
    assert Components("0.0") == [0, 0];
    assert Components(".0.0") == Components("0.0");
    assert LeadingDigits("1.0") == 1;
    assert LeadingDigits("1.0.0") == 1;
  }

  lemma ComponentsTen()
    ensures Components("1.10") == [1, 10]
  {
    assert LeadingDigits("1.10") == 1;
    assert Components(".10") == Components("10");
    assert LeadingDigits("10") == 2;
    assert "10"[..2] == "10" && "10"[..1] == "1";
    assert DecimalValue("10") == 10;
  }

  lemma ComponentsNine()
    ensures Components("1.9") == [1, 9]
  {
    assert LeadingDigits("1.9") == 1;
    assert Components(".9") == Components("9");
    assert LeadingDigits("9") == 1;
  }

  lemma LeadingVIgnored()
    ensures CompareVersions("v1.2", "1.2") == 0
  {
    ComponentsOneTwo();
  }

  lemma LeadingZeroIgnored()
    ensures CompareVersions("1.01", "1.1") == 0
  {
    ComponentsLeadingZero();
  }

  lemma TrailingZeroComponentIgnored()
    ensures CompareVersions("1.0", "1.0.0") == 0
  {
    ComponentsTrailingZero();
    TrailingZerosIgnored([1, 0], 1);
    assert [1, 0] + Zeros(1) == [1, 0, 0];
  }

  lemma ComponentsCompareAsNumbers()
    ensures CompareVersions("1.10", "1.9") == 1
  {
    ComponentsTen();
    ComponentsNine();
    assert Pad([1, 10], 2) == [1, 10] && Pad([1, 9], 2) == [1, 9];
  }

  /** Worked examples: separators, a leading 'v' and leading zeros do not count; components compare as numbers. */
  lemma VersionExamples()
    ensures CompareVersions("v1.2", "1.2") == 0
    ensures CompareVersions("1.01", "1.1") == 0
    ensures CompareVersions("1.0", "1.0.0") == 0
    ensures CompareVersions("1.10", "1.9") == 1
  {
    LeadingVIgnored();
    LeadingZeroIgnored();
    TrailingZeroComponentIgnored();
    ComponentsCompareAsNumbers();
  }
}
